=== FILE: README.md ===
# Floyd core in Dafny

This project models the core of the Floyd language implementation:

- its runtime value layer;
- its AST metadata;
- the conversion between runtime values and bytecode values;
- its front-end string processing.

Each part is written as pure Dafny functions over immutable datatypes, and its contracts and lemmas state what the C++ code promises.

| file | module | what it models |
|---|---|---|
| `results.dfy` | `Results` | `Result`/`Option` types. A C++ `throw` becomes `Err(message)` with the same message text. |
| `json.dfy` | `Json` | The JSON tree. Objects are association lists with ascending keys, matching `std::map` iteration order. |
| `text.dfy` | `Text` | Decimal digit strings. |
| `typeid.dfy` | `Typeids` | Base types and type descriptors (`typeid_t`). |
| `value.dfy` | `Values` | The tagged union `value_t` of `ast_value.h`: factories, accessors, `is_ext`, and `==`/`!=`. |
| `refcount.dfy` | `RefCounting` | The ext-payload lifecycle as an explicit store of cells and counted heap records: copy, destructor, assignment, swap. |
| `compare.dfy`, `compare_laws.dfy` | `Compare`, `CompareLaws` | The three-way deep comparator of `ast_value.cpp` and its laws. |
| `value_json.dfy` | `ValueJson` | `value_to_normalized_json` and `value_from_normalized_json`. |
| `statement.dfy` | `Statements` | Symbols, symbol tables, bodies, the 14 statement kinds, and `check_types_resolved`. |
| `statement_json.dfy` | `StatementJson` | The symbol-table JSON codec and the strict statement decoder `astjson_to_statement__nonlossy`. |
| `interpreter.dfy` | `Interpreter` | `bc_to_value`, `value_to_bc`, `get_global`, `call_function` and `run_program`. |
| `parser_primitives.dfy` | `ParserPrimitives` | `read_while`, `read_until`, `skip_whitespace`, the `read_*_char` family, `peek_string`, `get_balanced`. |
| `expressions.dfy`, `expression_laws.dfy`, `expression_grammar.dfy` | `Expressions`, `ExpressionLaws`, `ExpressionGrammar` | The recursive-descent expression parser, constant folding (`evaluate3`), a parse/print round trip, and the grammar's precedence, associativity, sign-run and error behaviour. |
| `parser_types.dfy` | `ParserTypes` | Frontend type definitions, signatures, `align_pos`, struct memory layout, and the immutable type collector. |
| `struct_parser.dfy` | `StructDefParser` | `parse_struct_definition` and its body parser. |

## Modelling choices

- Values and integers:
  - `double` is modelled as `real`. Only finite values exist; there is no NaN, infinity or rounding.
  - `int64` is a bounded `newtype`.
  - Integers inside the expression evaluator are unbounded.
- Strings are `seq<char>`. `strcmp` is modelled on character codes and stops at the first NUL, as `c_str()` does. The deep comparator uses this `strcmp` comparison for string values and dict keys, as the code does. The whole-string comparison `Compare.CompareString` is the corrected version (see Findings); `Compare.StrcmpMatchesOnNulFree` shows the two agree on strings without NUL.
- Codecs that are not shown are passed in as parameters:
  - the typeid, expression and value codecs of the AST JSON layer (`AstCodecs`);
  - the typeid and json encoders of `value_to_normalized_json` (`TypeEncoders`);
  - the VM call of `call_function` (`BcCall`);
  - the type reader and member encoder of the struct parser.
- The bytecode value is abstract: a type plus a payload. Vectors and dicts carry a 64-bit pod sequence and an object sequence, as `bc_value_t` does.
- Reference counting:
  - A store holds value cells.
  - Ext values point at heap records that carry a count and a payload.
  - The store's validity invariant says each record's count equals the number of cells that point at it.
  - Raw `new`/`delete` are not modelled.
- The expression parser works on positions into one string (`ScanWhile`, `SkipWhitespaceAt`) rather than on copied suffixes. `ScanWhileIsReadWhile` and `SkipWhitespaceAtAgrees` prove this agrees with the slicing primitives.
- The function table of `parse_single_internal` is empty, as in the source's own tests. So every identifier ends in "Unknown function".
- Float literals are kept as text.
- Comparator preconditions:
  - The comparator requires well-formed operands, as the code's `check_invariant` asserts do.
  - It does not require equal types: the code throws for structs, vectors and dicts of different types, and the model returns those errors.
- Collector alias lookup and its invariant:
  - Alias chains in the type collector are followed with fuel `|identifiers|`.
  - The collector invariant is stronger than the source's `check_invariant`: every identifier is fully defined, and every alias chain ends within that fuel.
  - Every collector built by `DefineAliasIdentifier`, `DefineTypeIdentifier` and `DefineStructType` satisfies it. The as-written `AddTypeEntry` with a null definition can break it (see Findings and `ParserTypes.NullDefinitionBreaksInvariant`).
- The value/bytecode conversion is modelled in two versions:
  - as written (`Interpreter.ValueToBcAsWritten`): `value_to_bc` stores every dict in object storage (floyd_interpreter.cpp:218-227);
  - corrected (`Interpreter.ValueToBc`): dicts of bool, int and double are packed as pods, which is where `bc_to_value` reads them (floyd_interpreter.cpp:110-127).
  - `call_function`, and so `Interpreter.CallFunction` and `Interpreter.RunProgram`, use the version as written. The corrected one and its round trip are stated separately (see Findings).

## Model

| member | source | states |
|---|---|---|
| Values.TypeOf | dev/floyd_speak/floyd_basics/ast_value.h:96-176 | The type of a value has the value's own base type, except for structs and functions, whose type is carried in the payload. |
| Values.IsExtMatchesList | dev/floyd_speak/floyd_basics/ast_value.h:449-466 | The `b > k_double` shortcut agrees with the explicit list string/json/typeid/struct/vector/dict/function for every value's base type. The one exception is `unresolved_type_identifier`, which the shortcut calls ext and the list does not. |
| Values.MakeUndefined | dev/floyd_speak/floyd_basics/ast_value.h:256-263 | The result is a well-formed undefined value of type undefined. It is also the default value (`value_t()`, lines 225-234). |
| Values.MakeAny | dev/floyd_speak/floyd_basics/ast_value.h:269-276 | The result is a well-formed `any` value of type any. |
| Values.MakeVoid | dev/floyd_speak/floyd_basics/ast_value.h:282-289 | The result is a well-formed `void` value of type void. |
| Values.GetBoolValue | dev/floyd_speak/floyd_basics/ast_value.h:301-308 | Succeeds exactly when the value is a bool. Any other tag gives "Type mismatch!". |
| Values.GetIntValue | dev/floyd_speak/floyd_basics/ast_value.h:325-332 | Succeeds exactly when the value is an int. Any other tag gives "Type mismatch!". |
| Values.GetDoubleValue | dev/floyd_speak/floyd_basics/ast_value.h:347-354 | Succeeds exactly when the value is a double. Any other tag gives "Type mismatch!". |
| Values.MakeBool | dev/floyd_speak/floyd_basics/ast_value.h:295-300 | `get_bool_value(make_bool(b)) == b`. The value is well formed, stored inline (not ext) and typed bool. |
| Values.MakeInt | dev/floyd_speak/floyd_basics/ast_value.h:317-324 | `get_int_value(make_int(x)) == x`. The value is well formed, stored inline and typed int. |
| Values.MakeDouble | dev/floyd_speak/floyd_basics/ast_value.h:341-346 | `get_double_value(make_double(x)) == x`. The value is well formed, stored inline and typed double. |
| Values.MakeString | dev/floyd_speak/floyd_basics/ast_value.h:360-365 | A well-formed ext string holding exactly the given text. |
| Values.MakeJsonValue | dev/floyd_speak/floyd_basics/ast_value.h:377-383 | An ext json value holding the tree. It is well formed exactly when the JSON tree is (ascending object keys). |
| Values.MakeTypeidValue | dev/floyd_speak/floyd_basics/ast_value.h:389-395 | A well-formed ext typeid value holding the given type. |
| Values.MakeVectorValue | dev/floyd_speak/floyd_basics/ast_value.h:413-419 | An ext vector of the given element type and elements. It is well formed exactly when every element is well formed and has that element type. |
| Values.MakeFunctionValue | dev/floyd_speak/floyd_basics/ast_value.h:437-443 | An ext function value with the given type and id. It is well formed exactly when the type is a function type and the id is not -1. |
| Values.ValueEqualsIsContentEquality | dev/floyd_speak/floyd_basics/ast_value.h:512-546 | `==` holds exactly when the two values have the same tag and equal contents. This covers undefined/any/void, which equal any value with the same tag. `!=` is exactly its negation. |
| RefCounting.ExtOf | dev/floyd_speak/floyd_basics/ast_value.h:181-195 | A fresh ext payload starts with reference count 1 and records the value's type. |
| RefCounting.ExtOfRoundTrip | dev/floyd_speak/floyd_basics/ast_value.h:96-176 | The payload built for any well-formed ext value satisfies `value_ext_t::check_invariant`: rc > 0, only its own type's field is set, and the function id is set only for functions. Reading the payload back gives the original value. |
| RefCounting.LiveCountPositive | dev/floyd_speak/floyd_basics/ast_value.h:96-100 | In a valid store, every payload a value points at has a positive reference count. |
| RefCounting.Empty | dev/floyd_speak/floyd_basics/ast_value.h:225-234 | The empty store is valid: counts match references. |
| RefCounting.Alloc | dev/floyd_speak/floyd_basics/ast_value.h:181-195 | Creating a value keeps the store valid, and the new cell denotes the value. An ext value gets a fresh record with count 1; an inline value leaves the heap untouched. All existing cells still denote what they did. |
| RefCounting.Copy | dev/floyd_speak/floyd_basics/ast_value.h:471-486 | The copy denotes the same value as its source. A shared payload's count rises by exactly one, no record is created or freed, and other cells are unchanged. |
| RefCounting.Destroy | dev/floyd_speak/floyd_basics/ast_value.h:488-498 | Destroying a cell keeps the store valid and the other cells' values. The payload's record is freed exactly when its count was 1, which is exactly when no cell refers to it any more. Otherwise the record is kept. |
| RefCounting.Swap | dev/floyd_speak/floyd_basics/ast_value.h:560-574 | The two cells exchange tag and payload. The heap and every other cell are unchanged. |
| RefCounting.Assign | dev/floyd_speak/floyd_basics/ast_value.h:500-510 | Copy-then-swap: the target denotes the source's value, the source is unchanged, every other cell is unchanged, and the store stays valid. |
| RefCounting.AssignFreesOldPayload | dev/floyd_speak/floyd_basics/ast_value.h:500-510 | Assignment frees the target's old payload exactly when its count was 1 and the source did not share it. |
| Compare.Limit | FloydSpeak/FloydSpeak/ast_value.cpp:200-210 | The result is clamped into `[min, max]`. |
| Compare.CompareStringAsWritten | FloydSpeak/FloydSpeak/ast_value.cpp:212-215 | `strcmp` on the C strings, clamped to {-1, 0, 1}. It stops at the first NUL. |
| Compare.CompareString | FloydSpeak/FloydSpeak/ast_value.cpp:212-215 | The corrected comparison. It gives 0 exactly when the strings are equal, -1 exactly when the left sorts first lexicographically, and 1 exactly when the right does. |
| Compare.StringDiffSign | FloydSpeak/FloydSpeak/ast_value.cpp:212-215 | The sign of the first character difference decides the lexicographic order. A proper prefix sorts first. |
| Compare.StringDiffAntisymmetric | FloydSpeak/FloydSpeak/ast_value.cpp:212-215 | Swapping the strings negates the character difference. |
| Compare.CompareStringAntisymmetric | FloydSpeak/FloydSpeak/ast_value.cpp:212-215 | `compare_string(a, b) == -compare_string(b, a)`. |
| Compare.StrcmpMatchesOnNulFree | FloydSpeak/FloydSpeak/ast_value.cpp:212-215 | On strings without NUL, the strcmp-based code and the corrected comparison agree. |
| Compare.StrcmpStopsAtNul | FloydSpeak/FloydSpeak/ast_value.cpp:212-215 | "a\0b" and "a\0c" compare equal as written but -1 when corrected. |
| Compare.CompareStringAsWrittenLaws | FloydSpeak/FloydSpeak/ast_value.cpp:212-215 | The `strcmp` comparison gives 0 for a string against itself and swaps sign when its arguments swap. |
| Compare.CompareStringExamples | FloydSpeak/FloydSpeak/ast_value.cpp:217-225 | The unit tests: "" vs "" is 0, "aaa" vs "aaa" is 0, "b" vs "a" is 1. |
| Compare.CompareValue | FloydSpeak/FloydSpeak/ast_value.cpp:337-423 | Every successful comparison lies in {-1, 0, 1}. Strings compare with `strcmp`, as written. Its partners in `CompareLaws` give reflexivity, antisymmetry and zero-iff-equal. |
| Compare.CompareMembers | FloydSpeak/FloydSpeak/ast_value.cpp:229-246 | Struct members are compared in declaration order. The result lies in {-1, 0, 1}. |
| Compare.CompareVector | FloydSpeak/FloydSpeak/ast_value.cpp:251-272 | Vector comparison lies in {-1, 0, 1}. `CompareLaws` states which element decides. |
| Compare.CompareDict | FloydSpeak/FloydSpeak/ast_value.cpp:285-323 | Dict comparison lies in {-1, 0, 1}. Keys compare with `strcmp`, as written. `CompareLaws` states the entry walk. |
| CompareLaws.CompareReflexive | FloydSpeak/FloydSpeak/ast_value.cpp:337-423 | `compare(v, v) == 0` for every well-formed value whose branches do not just assert: no typeid, function, `any` or `void` anywhere inside. |
| CompareLaws.VectorReflexive | FloydSpeak/FloydSpeak/ast_value.cpp:251-272 | A vector compares equal to itself. |
| CompareLaws.DictReflexive | FloydSpeak/FloydSpeak/ast_value.cpp:285-323 | A dict compares equal to itself. |
| CompareLaws.CompareAntisymmetric | FloydSpeak/FloydSpeak/ast_value.cpp:337-423 | For two values of the same type, if `compare(a, b)` succeeds then `compare(b, a)` succeeds with the negated result. This matches "left minus right". |
| CompareLaws.StructAntisymmetric | FloydSpeak/FloydSpeak/ast_value.cpp:375-389 | Struct comparison is antisymmetric. |
| CompareLaws.MembersAntisymmetric | FloydSpeak/FloydSpeak/ast_value.cpp:229-246 | Member-wise lexicographic comparison is antisymmetric. |
| CompareLaws.VectorAntisymmetric | FloydSpeak/FloydSpeak/ast_value.cpp:251-272 | Vector comparison is antisymmetric, including the longer-sorts-first rule. |
| CompareLaws.DictAntisymmetric | FloydSpeak/FloydSpeak/ast_value.cpp:285-323 | Dict comparison is antisymmetric, including the exhausted-sorts-greater rule. |
| CompareLaws.ZeroMeansEqual | FloydSpeak/FloydSpeak/ast_value.cpp:337-423 | For two values of the same type with no NUL inside any string or dict key, a comparison of 0 means they are equal values. |
| CompareLaws.MembersZero | FloydSpeak/FloydSpeak/ast_value.cpp:229-246 | NUL-free members comparing 0 are pairwise equal. |
| CompareLaws.VectorZero | FloydSpeak/FloydSpeak/ast_value.cpp:251-272 | NUL-free vectors comparing 0 have equal lengths and elements. |
| CompareLaws.DictZero | FloydSpeak/FloydSpeak/ast_value.cpp:285-323 | Dicts with NUL-free keys and values comparing 0 have the same entries. |
| CompareLaws.CompareZeroIffEqual | FloydSpeak/FloydSpeak/ast_value.cpp:337-423 | For orderable NUL-free values of the same type, comparison gives 0 exactly when the values are equal. |
| CompareLaws.EmbeddedNulComparesEqual | FloydSpeak/FloydSpeak/ast_value.cpp:365-367 | The strings "a\0b" and "a\0c", and two `dict<int>` whose only keys are those strings, compare as 0 although they differ. |
| CompareLaws.VectorFirstDifference | FloydSpeak/FloydSpeak/ast_value.cpp:251-272 | The first element pair over the shared prefix that does not compare 0 decides the vectors' order. |
| CompareLaws.VectorSharedPrefixEqual | FloydSpeak/FloydSpeak/ast_value.cpp:251-272 | When the shared prefix compares equal, equal lengths give 0, a longer left gives -1 and a shorter left gives 1. |
| CompareLaws.DictSkipsEqualPrefix | FloydSpeak/FloydSpeak/ast_value.cpp:285-323 | Equal leading entries are skipped: the comparison is decided by what follows them. |
| CompareLaws.DictProperPrefix | FloydSpeak/FloydSpeak/ast_value.cpp:285-323 | A dict whose entries are a proper prefix of the other's is exhausted first and compares greater (1). The reverse comparison gives -1. |
| CompareLaws.ContainerTypesMustMatch | FloydSpeak/FloydSpeak/ast_value.cpp:375-411 | A struct, vector or dict compared with a value of a different type gives the code's error rather than a result. Vectors use the struct message, as the code does. |
| CompareLaws.CompareVectorExample | FloydSpeak/FloydSpeak/ast_value.cpp:251-272 | `[1,2,3]` vs `[1,2]` compares -1 (longer sorts first), and the reverse comparison gives 1. |
| CompareLaws.CompareScalarExamples | FloydSpeak/FloydSpeak/ast_value.cpp:346-351 | true vs false gives 1; 3 vs 10 gives -1; vectors of different element types give the error. |
| CompareLaws.CompareDictExample | FloydSpeak/FloydSpeak/ast_value.cpp:285-323 | `{"a":1}` vs `{"a":1,"b":2}` gives 1 (the exhausted dict is greater), and the reverse comparison gives -1. |
| ValueJson.ValueToNormalizedJson | FloydSpeak/FloydSpeak/ast_value.cpp:550-604 | Undefined maps to null. A vector maps to an array of the same length. A dict maps to an object with the same keys in the same order. `any` and `void` have no JSON form and give an error. |
| ValueJson.ElementsToJson | FloydSpeak/FloydSpeak/ast_value.cpp:550-604 | Vector elements are encoded one by one, in order. |
| ValueJson.EntriesToJson | FloydSpeak/FloydSpeak/ast_value.cpp:550-604 | Dict entries are encoded one by one, keeping their keys. |
| ValueJson.ValueFromNormalizedJson | FloydSpeak/FloydSpeak/ast_value.cpp:628-671 | null maps back to undefined, arrays to vectors (of json values), and objects to dicts (of json values), each in both directions. |
| ValueJson.WrapElements | FloydSpeak/FloydSpeak/ast_value.cpp:640-650 | Every array element becomes a json value, in order. |
| ValueJson.WrapMembers | FloydSpeak/FloydSpeak/ast_value.cpp:651-662 | Every object member becomes a dict entry holding a json value under the same key. |
| ValueJson.WrappedElementsRoundTrip | FloydSpeak/FloydSpeak/ast_value.cpp:550-671 | Encoding the wrapped array elements gives back the original elements. |
| ValueJson.WrappedMembersRoundTrip | FloydSpeak/FloydSpeak/ast_value.cpp:550-671 | Encoding the wrapped members gives back the original members. |
| ValueJson.JsonRoundTrip | FloydSpeak/FloydSpeak/ast_value.cpp:550-671 | For every JSON tree, `value_to_normalized_json(value_from_normalized_json(j)) == j`. |
| ValueJson.DecodedIsWellFormed | FloydSpeak/FloydSpeak/ast_value.cpp:628-671 | Decoding a well-formed JSON tree gives a well-formed value. |
| ValueJson.ScalarRoundTrip | FloydSpeak/FloydSpeak/ast_value.cpp:550-671 | Undefined, bool, double and string survive encode-then-decode unchanged. An int comes back as the double of the same number. |
| ValueJson.EncodingExamples | FloydSpeak/FloydSpeak/ast_value.cpp:606-624 | The unit tests: "hello" becomes a JSON string, 123 a number, true/false JSON booleans, and undefined null. |
| Statements.MakeImmutable | dev/floyd_speak/floyd_ast/statement.h:86-88 | An immutable symbol of the given type with undefined init; it satisfies the symbol invariant. |
| Statements.MakeImmutableArg | dev/floyd_speak/floyd_ast/statement.h:90-92 | An immutable symbol of the given type with undefined init, satisfying the symbol invariant. The source builds it exactly as `make_immutable` does. |
| Statements.MakeMutable | dev/floyd_speak/floyd_ast/statement.h:94-96 | A mutable symbol of the given type with undefined init; it satisfies the symbol invariant. |
| Statements.MakeImmutablePrecalc | dev/floyd_speak/floyd_ast/statement.h:98-100 | An immutable symbol whose type is the value's own type, so the invariant (init undefined or of the declared type, lines 67-70) always holds. |
| Statements.MakeTypeSymbol | dev/floyd_speak/floyd_ast/statement.cpp:36-39 | An immutable symbol of type typeid whose init is the given type, satisfying the invariant. |
| Statements.FirstIndexOf | dev/floyd_speak/floyd_ast/statement.cpp:94-101 | The index of the first entry with the name; none exactly when no entry has the name. |
| Statements.FindSymbol | dev/floyd_speak/floyd_ast/statement.cpp:94-101 | Returns the symbol of the first entry whose name matches, with no earlier match. It returns null exactly when the name is absent. |
| Statements.FindSymbolRequired | dev/floyd_speak/floyd_ast/statement.cpp:102-111 | Succeeds exactly when `find_symbol` finds the name, with the same symbol. Otherwise it is an error. |
| Statements.AddTemp | dev/floyd_speak/floyd_ast/statement.cpp:88-92 | Appends `(name, immutable symbol of the type)` and returns the old size as its index. Earlier entries are unchanged. |
| Statements.AddTempThenFind | dev/floyd_speak/floyd_ast/statement.cpp:88-101 | After `add_temp`, looking up the name finds an earlier entry if one exists, and otherwise the new symbol. Lookups of every other name are unchanged. |
| Statements.FirstIndexAppend | dev/floyd_speak/floyd_ast/statement.cpp:94-101 | Appending an entry changes the first match only when the name had none. |
| Statements.BodyOf | dev/floyd_speak/floyd_ast/statement.h:153-157 | `body_t(statements)` keeps the statements and has an empty symbol table. |
| Statements.StatementsResolvedAll | dev/floyd_speak/floyd_ast/statement.h:535-550 | The body's statement scan accepts exactly when every statement is resolved. |
| Statements.SymbolsResolvedAll | dev/floyd_speak/floyd_ast/statement.h:535-550 | The symbol scan accepts exactly when every symbol is resolved. Symbols named `**undef**` are skipped; otherwise the declared type and any defined init's type must be resolved. |
| Statements.BodyResolvedIff | dev/floyd_speak/floyd_ast/statement.h:535-550 | `body_t::check_types_resolved` is false exactly when some statement or some symbol (other than `**undef**`) is unresolved. |
| StatementJson.SymbolToJson | dev/floyd_speak/floyd_ast/statement.cpp:53-63 | A symbol is written as a JSON object with keys in ascending order. |
| StatementJson.JsonToSymbol | dev/floyd_speak/floyd_ast/statement.cpp:65-80 | A decoded symbol satisfies the symbol invariant, and its mode is the one named by "symbol_type" ("immutable" or "mutable"; anything else fails). A null init decodes to undefined. |
| StatementJson.SymbolJsonLookups | dev/floyd_speak/floyd_ast/statement.cpp:53-63 | The written object holds the encoded init, the mode name and the encoded type under "init", "symbol_type" and "value_type". |
| StatementJson.SymbolRoundTrip | dev/floyd_speak/floyd_ast/statement.cpp:53-80 | When the type and value codecs are inverse, `json_to_symbol(symbol_to_json(s)) == s` for every symbol satisfying the invariant. |
| StatementJson.SymbolOfParts | dev/floyd_speak/floyd_ast/statement.cpp:65-80 | Any object whose three fields decode to the parts of a symbol decodes to that symbol. |
| StatementJson.SymbolsToJson | dev/floyd_speak/floyd_ast/statement.cpp:113-127 | One `[index, name, symbol]` entry per table entry, with index equal to the entry's position. |
| StatementJson.Padding | dev/floyd_speak/floyd_ast/statement.cpp:129-146 | The gap filler is `"dummy_symbol #k"` for each missing index k, in order. |
| StatementJson.PlaceSymbol | dev/floyd_speak/floyd_ast/statement.cpp:129-146 | Placing succeeds exactly when the index is a whole number not below the current length. On success, earlier entries are kept, the gap is filled with dummy symbols, the symbol sits at its index, and the length becomes index + 1. |
| StatementJson.DecodeSymbolEntry | dev/floyd_speak/floyd_ast/statement.cpp:129-146 | A decoded entry comes from an array of at least three items whose first item is its index. |
| StatementJson.DecodeSymbolEntries | dev/floyd_speak/floyd_ast/statement.cpp:129-146 | Decoding entries only extends what was already placed. |
| StatementJson.AstJsonToSymbols | dev/floyd_speak/floyd_ast/statement.cpp:129-146 | A symbol table decodes only from a JSON array. |
| StatementJson.WrittenEntryReadsBack | dev/floyd_speak/floyd_ast/statement.cpp:113-146 | An entry written at index i reads back as index i with the same name and symbol. |
| StatementJson.DecodeWrittenSymbols | dev/floyd_speak/floyd_ast/statement.cpp:113-146 | Reading back the written entries from position k on completes the table. |
| StatementJson.SymbolsRoundTrip | dev/floyd_speak/floyd_ast/statement.cpp:113-146 | With inverse codecs, `astjson_to_symbols(symbols_to_json(t)) == t`. Indices are contiguous, so no padding appears. |
| StatementJson.PlaceAtTwo | dev/floyd_speak/floyd_ast/statement.cpp:133-141 | Placing "x" at index 2 of an empty table yields dummy_symbol #0, dummy_symbol #1 and then x. |
| StatementJson.SymbolPaddingExample | dev/floyd_speak/floyd_ast/statement.cpp:129-146 | A single entry `[2, "x", s]` decodes to a three-entry table padded with two dummy symbols. |
| StatementJson.UnpackLoc | dev/floyd_speak/floyd_ast/statement.cpp:267-276 | Removing the optional leading location number leaves the array, or the array minus its first item. |
| StatementJson.StatementsMember | dev/floyd_speak/floyd_ast/statement.cpp:357-381 | Finds the "statements" member of a function definition exactly when it exists. |
| StatementJson.DecodeReturn | dev/floyd_speak/floyd_ast/statement.cpp:277-281 | A decoded return statement is a return. |
| StatementJson.DecodeBind | dev/floyd_speak/floyd_ast/statement.cpp:285-298 | A decoded bind is mutable exactly when a fifth (meta) element exists and has a "mutable" key. |
| StatementJson.DecodeAssign | dev/floyd_speak/floyd_ast/statement.cpp:301-309 | A decoded assign statement is an assign. |
| StatementJson.DecodeAddressed | dev/floyd_speak/floyd_ast/statement.cpp:312-331 | `assign2`/`init2` need exactly four parts, and the parent-steps number is truncated to an integer. |
| StatementJson.DecodeDefStruct | dev/floyd_speak/floyd_ast/statement.cpp:344-355 | A decoded def-struct statement is a struct definition. |
| StatementJson.DecodeExpressionStatement | dev/floyd_speak/floyd_ast/statement.cpp:436-441 | A decoded expression statement is an expression statement. |
| StatementJson.DecodeJsonPayload | dev/floyd_speak/floyd_ast/statement.cpp:443-454 | software-system and container-def keep their second element verbatim. |
| StatementJson.DecodeBlock | dev/floyd_speak/floyd_ast/statement.cpp:334-342 | A decoded block is a block. |
| StatementJson.DecodeDefFunc | dev/floyd_speak/floyd_ast/statement.cpp:357-381 | A function definition gets a function type, and it is pure exactly when "impure" is false. |
| StatementJson.DecodeIf | dev/floyd_speak/floyd_ast/statement.cpp:385-401 | An `if` without an else part gets an empty else body. |
| StatementJson.DecodeFor | dev/floyd_speak/floyd_ast/statement.cpp:402-423 | `for` is open-range exactly when its mode string is "open-range"; anything else is closed. |
| StatementJson.DecodeWhile | dev/floyd_speak/floyd_ast/statement.cpp:424-433 | A decoded while statement is a while. |
| StatementJson.AstJsonToStatement | dev/floyd_speak/floyd_ast/statement.cpp:267-459 | A decoded statement's kind is the one its opcode names, and its location is the leading number, if any. An unknown opcode gives "Illegal statement.". |
| StatementJson.DecodeKind | dev/floyd_speak/floyd_ast/statement.cpp:277-458 | The decoded kind matches the opcode, and a non-opcode gives "Illegal statement.". |
| StatementJson.AstJsonToStatements | dev/floyd_speak/floyd_ast/statement.cpp:461-471 | Decoding an array keeps its length and order: element i decodes to statement i. It succeeds exactly when every element decodes. |
| StatementJson.StatementsFrom | dev/floyd_speak/floyd_ast/statement.cpp:461-471 | The element-wise loop preserves length and order, and succeeds when every element decodes. |
| StatementJson.StatementExamples | dev/floyd_speak/floyd_ast/statement.cpp:267-459 | `[12, "block", []]` decodes to an empty block at location 12. `["if", c, []]` gets an empty else. `["return", c]` decodes to a return. `["goto", c]` is illegal. |
| Interpreter.PodToValue | dev/floyd_speak/bytecode_interpreter/floyd_interpreter.cpp:88-102 | A pod decodes only for bool/int/double types, to a value of that type. |
| Interpreter.UnpackPods | dev/floyd_speak/bytecode_interpreter/floyd_interpreter.cpp:88-102 | Pod vector storage is unpacked element by element, in order. |
| Interpreter.UnpackPodEntries | dev/floyd_speak/bytecode_interpreter/floyd_interpreter.cpp:110-123 | Pod dict storage is unpacked entry by entry, keeping keys. |
| Interpreter.PayloadToValue | dev/floyd_speak/bytecode_interpreter/floyd_interpreter.cpp:40-142 | A decoded payload has exactly the requested type. |
| Interpreter.MembersToValues | dev/floyd_speak/bytecode_interpreter/floyd_interpreter.cpp:73-84 | Struct members are converted positionally. |
| Interpreter.ObjectsToValues | dev/floyd_speak/bytecode_interpreter/floyd_interpreter.cpp:103-107 | Object vector storage is converted element-wise, in order. |
| Interpreter.ObjectEntriesToValues | dev/floyd_speak/bytecode_interpreter/floyd_interpreter.cpp:124-133 | Object dict storage is converted entry-wise, keeping keys. |
| Interpreter.BcToValue | dev/floyd_speak/bytecode_interpreter/floyd_interpreter.cpp:40-142 | The value has the bytecode value's type. An unresolved identifier type is an error. |
| Interpreter.ValueToPod | dev/floyd_speak/bytecode_interpreter/floyd_interpreter.cpp:187-205 | Packing into a pod succeeds exactly when the value's base type is the pod type, and `PodToValue` undoes it. |
| Interpreter.PackPods | dev/floyd_speak/bytecode_interpreter/floyd_interpreter.cpp:187-205 | Vectors of bool/int/double are packed in order, one pod per element. |
| Interpreter.PackPodEntries | dev/floyd_speak/bytecode_interpreter/floyd_interpreter.cpp:218-228 | The corrected dict path packs bool/int/double entries as pods, keeping keys. |
| Interpreter.ValueToBcWith | dev/floyd_speak/bytecode_interpreter/floyd_interpreter.cpp:144-236 | The bytecode value carries the value's type, whichever dict path is used. |
| Interpreter.ValuesToBcsWith | dev/floyd_speak/bytecode_interpreter/floyd_interpreter.cpp:179-181 | Struct members are converted one by one, in order. |
| Interpreter.ValuesToObjects | dev/floyd_speak/bytecode_interpreter/floyd_interpreter.cpp:207-216 | Non-pod vector elements are converted element-wise into object storage. |
| Interpreter.EntriesToObjects | dev/floyd_speak/bytecode_interpreter/floyd_interpreter.cpp:218-228 | Dict entries are converted entry-wise into object storage, keeping keys. |
| Interpreter.ValueToBcAsWritten | dev/floyd_speak/bytecode_interpreter/floyd_interpreter.cpp:144-236 | `value_to_bc` as written: every dict goes to object storage. The result has the value's type. |
| Interpreter.ValueToBc | dev/floyd_speak/bytecode_interpreter/floyd_interpreter.cpp:144-236 | `value_to_bc` with pod dicts packed where `bc_to_value` reads them. The result has the value's type. |
| Interpreter.ValuesToBcs | dev/floyd_speak/bytecode_interpreter/floyd_interpreter.cpp:32-38 | `values_to_bcs` succeeds exactly when every element converts with `value_to_bc` as written, and gives those conversions in order, one per element (dicts go to object storage). |
| Interpreter.PodsRoundTrip | dev/floyd_speak/bytecode_interpreter/floyd_interpreter.cpp:88-102 | Packing then unpacking a pod-typed vector gives back the same elements. |
| Interpreter.PodEntriesRoundTrip | dev/floyd_speak/bytecode_interpreter/floyd_interpreter.cpp:110-123 | Packing then unpacking pod dict entries gives back the same entries. |
| Interpreter.UnpackPodsFails | dev/floyd_speak/bytecode_interpreter/floyd_interpreter.cpp:88-102 | Unpacking fails only because some pod does not decode. |
| Interpreter.UnpackPodEntriesFails | dev/floyd_speak/bytecode_interpreter/floyd_interpreter.cpp:110-123 | Unpacking dict pods fails only because some pod does not decode. |
| Interpreter.ValueRoundTrip | dev/floyd_speak/bytecode_interpreter/floyd_interpreter.cpp:40-236 | Every convertible value survives conversion to bytecode and back. |
| Interpreter.ScalarRoundTrip | dev/floyd_speak/bytecode_interpreter/floyd_interpreter.cpp:55-72 | Undefined, any, void, bool, int, double, string, json, typeid and function payloads survive both conversions. |
| Interpreter.StructRoundTrip | dev/floyd_speak/bytecode_interpreter/floyd_interpreter.cpp:73-84 | A struct keeps its type and members through both conversions. |
| Interpreter.VectorRoundTrip | dev/floyd_speak/bytecode_interpreter/floyd_interpreter.cpp:85-109 | Every vector survives both conversions. |
| Interpreter.PodVectorRoundTrip | dev/floyd_speak/bytecode_interpreter/floyd_interpreter.cpp:88-102 | A vector of bool/int/double survives packing into pod64 storage and unpacking. |
| Interpreter.ObjectVectorRoundTrip | dev/floyd_speak/bytecode_interpreter/floyd_interpreter.cpp:103-107 | A vector of any other element type survives element-wise object conversion. |
| Interpreter.DictRoundTrip | dev/floyd_speak/bytecode_interpreter/floyd_interpreter.cpp:110-134 | Every convertible dict survives both conversions. |
| Interpreter.ObjectDictRoundTrip | dev/floyd_speak/bytecode_interpreter/floyd_interpreter.cpp:124-133 | A dict stored as objects survives both conversions. |
| Interpreter.PodDictRoundTrip | dev/floyd_speak/bytecode_interpreter/floyd_interpreter.cpp:110-123 | With pods packed, a dict of bool/int/double survives both conversions. |
| Interpreter.MembersRoundTrip | dev/floyd_speak/bytecode_interpreter/floyd_interpreter.cpp:73-84 | Struct members survive positional conversion both ways. |
| Interpreter.ObjectsRoundTrip | dev/floyd_speak/bytecode_interpreter/floyd_interpreter.cpp:103-107 | Vector elements survive object conversion both ways. |
| Interpreter.ObjectEntriesRoundTrip | dev/floyd_speak/bytecode_interpreter/floyd_interpreter.cpp:124-133 | Dict entries survive object conversion both ways, keeping keys. |
| Interpreter.BcRoundTrip | dev/floyd_speak/bytecode_interpreter/floyd_interpreter.cpp:40-236 | For every well-formed value, the corrected conversion round-trips: `bc_to_value(value_to_bc(v)) == v`. |
| Interpreter.AsWrittenRoundTrip | dev/floyd_speak/bytecode_interpreter/floyd_interpreter.cpp:40-236 | As written, the round trip holds for every well-formed value with no dict of bool/int/double anywhere inside. |
| Interpreter.AsWrittenEmptiesPodDicts | dev/floyd_speak/bytecode_interpreter/floyd_interpreter.cpp:110-134 | As written, every dict of bool/int/double comes back empty. |
| Interpreter.ScalarEntriesConvert | dev/floyd_speak/bytecode_interpreter/floyd_interpreter.cpp:218-228 | As written, scalar dict entries convert into object storage without error. |
| Interpreter.PodDictCounterexample | dev/floyd_speak/bytecode_interpreter/floyd_interpreter.cpp:110-134 | `dict<int>{"a": 1}` comes back as `{}` as written, and unchanged with the corrected conversion. |
| Interpreter.GetGlobal | dev/floyd_speak/bytecode_interpreter/floyd_interpreter.cpp:331-341 | An unknown name gives "Cannot find global.". A known one gives `bc_to_value` of the stored global, with the stored type. |
| Interpreter.GlobalRoundTrip | dev/floyd_speak/bytecode_interpreter/floyd_interpreter.cpp:331-341 | A global stored as `value_to_bc(v)` reads back as `v`. |
| Interpreter.CallFunction | dev/floyd_speak/bytecode_interpreter/floyd_interpreter.cpp:343-359 | The function and arguments are converted to bytecode values by the conversion as written, the call runs, and its result is converted back. A conversion failure is an error. |
| Interpreter.CallPassesArgumentsThrough | dev/floyd_speak/bytecode_interpreter/floyd_interpreter.cpp:343-359 | With a call that returns its first argument, `call_function` returns the argument unchanged when no dict inside it holds bool, int or double values. |
| Interpreter.CallDropsPodDictEntries | dev/floyd_speak/bytecode_interpreter/floyd_interpreter.cpp:343-359 | With the same call, the argument `dict<int>{"a": 1}` comes back as an empty dict. |
| Interpreter.RunProgram | dev/floyd_speak/bytecode_interpreter/floyd_interpreter.cpp:374-385 | With no "main" global, the result is undefined. Otherwise "main" must convert back to a value, and the call goes through `CallFunction`. |
| ParserPrimitives.CharSpan | FloydSpeak/FloydSpeak/floyd_parser.cpp:191-197 | A character range contains exactly the characters between its bounds. |
| ParserPrimitives.WhitespaceIsSet | FloydSpeak/FloydSpeak/floyd_parser.cpp:191-197 | The whitespace predicate is exactly membership in the whitespace set: space, tab and newline. |
| ParserPrimitives.NumberCharIsSet | FloydSpeak/FloydSpeak/floyd_parser.cpp:191-197 | The number-character predicate is exactly membership in the digits-and-dot set. |
| ParserPrimitives.IdentifierCharIsSet | FloydSpeak/FloydSpeak/floyd_parser.cpp:191-197 | The identifier-character predicate is exactly membership in the identifier set. |
| ParserPrimitives.ReadWhile | FloydSpeak/FloydSpeak/floyd_parser.cpp:200-210 | `first + second == s`, every character of `first` is in the set, and `second` is empty or starts outside the set. |
| ParserPrimitives.ReadWhileUnique | FloydSpeak/FloydSpeak/floyd_parser.cpp:200-220 | Any split with those three properties is the one `read_while` returns. This covers the unit tests. |
| ParserPrimitives.ReadUntil | FloydSpeak/FloydSpeak/floyd_parser.cpp:222-229 | `first + second == s`, no character of `first` is in the set, and `second` is empty or starts inside the set. |
| ParserPrimitives.ReadUntilUnique | FloydSpeak/FloydSpeak/floyd_parser.cpp:222-236 | Any split with those three properties is the one `read_until` returns. |
| ParserPrimitives.SkipWhitespace | FloydSpeak/FloydSpeak/floyd_parser.cpp:243-245 | The result is a suffix. Everything dropped is whitespace, and the result does not start with whitespace. |
| ParserPrimitives.SkipWhitespaceIdempotent | FloydSpeak/FloydSpeak/floyd_parser.cpp:243-245 | Skipping whitespace twice equals skipping once. |
| ParserPrimitives.SkipWhitespaceNoop | FloydSpeak/FloydSpeak/floyd_parser.cpp:243-245 | A string not starting with whitespace is returned unchanged. |
| ParserPrimitives.SkipWhitespaceExamples | FloydSpeak/FloydSpeak/floyd_parser.cpp:247-253 | The unit tests: "" stays "", and "\t\t\t int blob()" becomes "int blob()". |
| ParserPrimitives.ReadChar | FloydSpeak/FloydSpeak/floyd_parser.cpp:256-263 | Succeeds exactly on non-empty input, splitting off the first character. Otherwise it gives "expected character.". |
| ParserPrimitives.ReadRequiredChar | FloydSpeak/FloydSpeak/floyd_parser.cpp:268-275 | Succeeds exactly when the input starts with the character, consuming exactly it. Otherwise it gives "expected character 'c'.". |
| ParserPrimitives.ReadOptionalChar | FloydSpeak/FloydSpeak/floyd_parser.cpp:277-284 | Consumes exactly one matching character and reports true, or reports false and returns the input unchanged. |
| ParserPrimitives.PeekString | FloydSpeak/FloydSpeak/floyd_parser.cpp:291-293 | True exactly when the prefix is a prefix of the string. |
| ParserPrimitives.PeekStringExamples | FloydSpeak/FloydSpeak/floyd_parser.cpp:295-303 | The unit tests' positive and negative cases. |
| ParserPrimitives.GetType | FloydSpeak/FloydSpeak/floyd_parser.cpp:320-324 | After skipping whitespace, the longest run of type characters is split off. |
| ParserPrimitives.GetIdentifier | FloydSpeak/FloydSpeak/floyd_parser.cpp:329-333 | After skipping whitespace, the longest run of identifier characters is split off. |
| ParserPrimitives.ReadRequiredIdentifier | FloydSpeak/FloydSpeak/floyd_parser.cpp:708-715 | Succeeds exactly when the identifier run is non-empty, returning it and the rest. Otherwise it gives "missing identifier". |
| ParserPrimitives.StartCharToEndChar | FloydSpeak/FloydSpeak/floyd_parser.cpp:373-391 | Every opener maps to a closer. |
| ParserPrimitives.StartEndPairing | FloydSpeak/FloydSpeak/floyd_parser.cpp:373-398 | The opener-to-closer map is injective: `( [ { <` go to distinct closers `) ] } >`. |
| ParserPrimitives.ScanBalanced | FloydSpeak/FloydSpeak/floyd_parser.cpp:404-429 | The scan stops at the first position where the matching closer appears at depth 1. It fails with "unbalanced" only if a closer appears at depth 0. |
| ParserPrimitives.GetBalanced | FloydSpeak/FloydSpeak/floyd_parser.cpp:404-429 | `first + second == s`. `first` ends at the first closer for the opener reached at depth 1, and nothing earlier stops the scan. It fails with "unbalanced" exactly when a closer at depth 0 comes before any such stop. It runs off the end exactly when there is neither a stop nor a closer at depth 0. |
| ParserPrimitives.GetBalancedExamples | FloydSpeak/FloydSpeak/floyd_parser.cpp:431-438 | The unit tests: "()" and "(abc)def". |
| ParserPrimitives.GetBalancedNestedExample | FloydSpeak/FloydSpeak/floyd_parser.cpp:431-438 | "((abc)[])def" splits after the outer closer. |
| ParserPrimitives.GetBalancedErrorExamples | FloydSpeak/FloydSpeak/floyd_parser.cpp:404-429 | "(]]" is unbalanced, and "(abc" runs off the end. |
| ParserPrimitives.GetBalancedFlat | FloydSpeak/FloydSpeak/floyd_parser.cpp:404-429 | An opener, bracket-free text and its closer split off exactly, leaving the rest. |
| ParserPrimitives.ScanWhile | FloydSpeak/FloydSpeak/floyd_parser.cpp:200-210 | The position form of `read_while`: the scan ends at the first position that fails the predicate. |
| ParserPrimitives.ScanWhileIsReadWhile | FloydSpeak/FloydSpeak/floyd_parser.cpp:200-210 | Scanning by position splits the same way `read_while` does on the suffix. |
| ParserPrimitives.ScanWhileIsReadUntil | FloydSpeak/FloydSpeak/floyd_parser.cpp:222-229 | Scanning by position splits the same way `read_until` does on the suffix. |
| ParserPrimitives.SkipWhitespaceAt | FloydSpeak/FloydSpeak/floyd_parser.cpp:243-245 | The position form of `skip_whitespace`. |
| ParserPrimitives.SkipWhitespaceAtAgrees | FloydSpeak/FloydSpeak/floyd_parser.cpp:243-245 | The position form and `skip_whitespace` give the same remainder. |
| ParserPrimitives.TrimEnds | FloydSpeak/FloydSpeak/floyd_parser.cpp:440-443 | The result is the string without its first and last characters. |
| Expressions.NegateExpression | FloydSpeak/FloydSpeak/floyd_parser.cpp:763-776 | An int constant is negated in place, and a float constant flips its sign. Anything else is wrapped in a negation node. |
| Expressions.NegateNumberTwice | FloydSpeak/FloydSpeak/floyd_parser.cpp:763-776 | Negating a numeric constant twice gives it back. |
| Expressions.ReadSignsAt | FloydSpeak/FloydSpeak/floyd_parser.cpp:974-1008 | Reads a maximal run of whitespace, '+' and '-'. It negates exactly when the run holds an odd number of '-'. |
| Expressions.FloatLiteral | FloydSpeak/FloydSpeak/floyd_parser.cpp:778-785 | A float literal is accepted exactly when a float prefix exists. Otherwise it gives `std::invalid_argument`. |
| Expressions.ParseStringAt | FloydSpeak/FloydSpeak/floyd_parser.cpp:813-820 | A quoted string succeeds exactly when a closing quote exists. It yields the text up to the first closing quote. |
| Expressions.ParseNumberAt | FloydSpeak/FloydSpeak/floyd_parser.cpp:823-840 | Reads the maximal run of number characters. Without '.', it yields the int with that decimal value; with '.', it yields a float literal. |
| Expressions.ParseSingle | FloydSpeak/FloydSpeak/floyd_parser.cpp:806-884 | A quote starts a string and a number character starts a number. An identifier character is an error (unknown function), and anything else is "EEE_WRONG_CHAR". |
| Expressions.ParseAtom | FloydSpeak/FloydSpeak/floyd_parser.cpp:974-1008 | A successful atom consumes at least one character. |
| Expressions.ParseParenthesised | FloydSpeak/FloydSpeak/floyd_parser.cpp:992-1001 | A parenthesised group consumes at least the '('. |
| Expressions.ParseFactors | FloydSpeak/FloydSpeak/floyd_parser.cpp:1029-1045 | A successful factor chain consumes input. |
| Expressions.FactorsLoop | FloydSpeak/FloydSpeak/floyd_parser.cpp:1029-1045 | The loop stops exactly where no '*' or '/' follows. |
| Expressions.ParseSummands | FloydSpeak/FloydSpeak/floyd_parser.cpp:1047-1065 | A successful summand chain consumes input. |
| Expressions.SummandsLoop | FloydSpeak/FloydSpeak/floyd_parser.cpp:1047-1065 | The loop stops exactly where no '+' or '-' follows. |
| Expressions.ParseExpression | FloydSpeak/FloydSpeak/floyd_parser.cpp:1091-1103 | Succeeds exactly when the summands consume the whole non-empty input, and then yields their tree. Empty input is "EEE_WRONG_CHAR". |
| Expressions.CDiv | FloydSpeak/FloydSpeak/floyd_parser.cpp:1186-1192 | C++ integer division truncates toward zero: the remainder is smaller than the divisor and has the dividend's sign. |
| Expressions.Arithmetic | FloydSpeak/FloydSpeak/floyd_parser.cpp:1176-1226 | Succeeds exactly for int-with-int (except division by 0) and for string + string. On ints it gives the sum, difference, product, or the quotient truncated toward zero (`CDiv`). Division by 0 gives "EEE_DIVIDE_BY_ZERO", + concatenates strings, and mixed kinds give "Arithmetics failed.". |
| Expressions.NegateConstant | FloydSpeak/FloydSpeak/floyd_parser.cpp:1234-1269 | Negating a constant succeeds exactly when it is not a string; a string gives "Arithmetics failed.". |
| Expressions.Evaluate | FloydSpeak/FloydSpeak/floyd_parser.cpp:1160-1316 | A successful evaluation is a constant, and a constant evaluates to itself. |
| Expressions.EvaluateComputesIntMeaning | FloydSpeak/FloydSpeak/floyd_parser.cpp:1160-1316 | On an expression whose literals are all ints, evaluation yields the integer computed directly by `IntMeaning`. It fails with "EEE_DIVIDE_BY_ZERO" exactly when some divisor is 0. |
| Expressions.EvaluateExamples | FloydSpeak/FloydSpeak/floyd_parser.cpp:1176-1226 | -7 / 2 folds to -3, truncating toward zero; 1 + 1 / 0 fails with the divide-by-zero error. |
| ExpressionLaws.AtomRoundTrip | FloydSpeak/FloydSpeak/floyd_parser.cpp:974-1008 | An atom laid out in the text is read back as the same expression, ending where its text ends. |
| ExpressionLaws.ParenRoundTrip | FloydSpeak/FloydSpeak/floyd_parser.cpp:992-1065 | A parenthesised operation laid out in the text is read back as the same operation. |
| ExpressionLaws.PrintLayout | FloydSpeak/FloydSpeak/floyd_parser.cpp:974-1065 | The fully parenthesised printer puts every sub-expression where the parser expects it. |
| ExpressionLaws.OperationLayout | FloydSpeak/FloydSpeak/floyd_parser.cpp:992-1065 | A printed operation is '(', its left operand, its operator, its right operand and ')'. |
| ExpressionLaws.ExpressionOfAtom | FloydSpeak/FloydSpeak/floyd_parser.cpp:1091-1103 | An atom spanning the whole input is the whole expression. |
| ExpressionLaws.ParsePrintRoundTrip | FloydSpeak/FloydSpeak/floyd_parser.cpp:974-1103 | For every canonical expression, `parse_expression(print(e)) == e`. Canonical means integer and string constants, sign-folded numbers, negated groups and binary operations. |
| ExpressionGrammar.SignedAtom | FloydSpeak/FloydSpeak/floyd_parser.cpp:974-1008 | A sign run before an unsigned atom negates it exactly when the run has an odd count of '-'. |
| ExpressionGrammar.Binary | FloydSpeak/FloydSpeak/floyd_parser.cpp:1029-1103 | Two atoms joined by one operator parse to that operation. |
| ExpressionGrammar.Chain | FloydSpeak/FloydSpeak/floyd_parser.cpp:1029-1065 | Three atoms joined by two operators group by precedence: '*' and '/' bind tighter than '+' and '-'. Equal precedence groups to the left. |
| ExpressionGrammar.PrintedChain | FloydSpeak/FloydSpeak/floyd_parser.cpp:1029-1103 | For all canonical operands, `a o1 b o2 c` parses to the precedence-and-left-associativity tree. |
| ExpressionGrammar.MissingOperand | FloydSpeak/FloydSpeak/floyd_parser.cpp:1412-1430 | Any expression followed by a trailing operator gives "Expected number", as the tests "2+" and "2*" expect. |
| ExpressionGrammar.StrayCloser | FloydSpeak/FloydSpeak/floyd_parser.cpp:1380-1386 | Any expression followed by a stray ')' gives "EEE_WRONG_CHAR". |
| ExpressionGrammar.MissingCloser | FloydSpeak/FloydSpeak/floyd_parser.cpp:1372-1378 | '(' followed by any expression with no ')' gives "EEE_PARENTHESIS". |
| ExpressionGrammar.UnclosedGroup | FloydSpeak/FloydSpeak/floyd_parser.cpp:992-1001 | An open group that reaches the end of input gives "EEE_PARENTHESIS". |
| ExpressionGrammar.IdentifierIsUnknownFunction | FloydSpeak/FloydSpeak/floyd_parser.cpp:849-880 | With no functions defined, an expression starting with an identifier fails with the unknown-function error. |
| ExpressionGrammar.PrecedenceExample | FloydSpeak/FloydSpeak/floyd_parser.cpp:1337 | "1+2*3" parses as 1+(2*3) and evaluates to 7. |
| ExpressionGrammar.AssociativityExample | FloydSpeak/FloydSpeak/floyd_parser.cpp:1047-1065 | "8-3-2" parses as (8-3)-2 and evaluates to 3. |
| ExpressionGrammar.DoubleMinusExample | FloydSpeak/FloydSpeak/floyd_parser.cpp:1363 | "--2" parses to 2. |
| ExpressionGrammar.SignedSecondOperand | FloydSpeak/FloydSpeak/floyd_parser.cpp:974-1065 | In `a op signs b`, the sign run folds into b. |
| ExpressionGrammar.SignRunExamples | FloydSpeak/FloydSpeak/floyd_parser.cpp:1362-1365 | "2---2" evaluates to 0, "2-+-2" to 4 and "1+-2" to -1. |
| ExpressionGrammar.SignedThenDigit | FloydSpeak/FloydSpeak/floyd_parser.cpp:974-1065 | In `signs x op b`, the sign run folds into x. |
| ExpressionGrammar.NegatedGroupExample | FloydSpeak/FloydSpeak/floyd_parser.cpp:1350 | "-(2+1)*4" parses as (-(2+1))*4 and evaluates to -12. |
| ParserTypes.BaseTypeNameInjective | FloydSpeak/FloydSpeak/parser_types.cpp:111-130 | `to_string` gives different base types different names: "int32", "bool", "string", "struct", "vector". |
| ParserTypes.SimpleType | FloydSpeak/FloydSpeak/parser_types.cpp:308-333 | A non-struct, non-vector definition satisfies the invariant. |
| ParserTypes.StructType | FloydSpeak/FloydSpeak/parser_types.cpp:308-333 | A struct definition satisfies the invariant: it has a struct def and no vector def. |
| ParserTypes.MemberSignature | FloydSpeak/FloydSpeak/parser_types.cpp:369-404 | A member signature starts with '<' (the form `<type>name`). |
| ParserTypes.MemberSignatures | FloydSpeak/FloydSpeak/parser_types.cpp:369-404 | One signature per member, in order. |
| ParserTypes.MembersBodyIsJoin | FloydSpeak/FloydSpeak/parser_types.cpp:380-395 | The member loop writes the join of the member signatures plus a trailing comma, or nothing when there are no members. |
| ParserTypes.StructSignatureIsJoin | FloydSpeak/FloydSpeak/parser_types.cpp:369-404 | A struct's signature is `"<struct>{" + join(",", members) + "}"`, with the trailing comma removed. |
| ParserTypes.SignatureKeepsBaseType | FloydSpeak/FloydSpeak/parser_types.cpp:369-404 | Equal signatures imply equal base types. |
| ParserTypes.SignatureTag | FloydSpeak/FloydSpeak/parser_types.cpp:369-404 | The fifth character of every valid signature is a tag that identifies its base type. |
| ParserTypes.SignatureExamples | FloydSpeak/FloydSpeak/parser_types.cpp:783-807 | "<int32>", "<vector>[]" and "<struct>{}". |
| ParserTypes.StructSignatureExample | FloydSpeak/FloydSpeak/parser_types.cpp:783-807 | `{int32 a; string b}` has signature "<struct>{<int32>a,<string>b}". |
| ParserTypes.TwoMemberSignature | FloydSpeak/FloydSpeak/parser_types.cpp:369-404 | A two-member struct's signature separates the two members with exactly one comma. |
| ParserTypes.AlignPos | FloydSpeak/FloydSpeak/parser_types.cpp:409-413 | The result is at least `pos` and less than `pos + alignment`. It is a multiple of the alignment, and equals `pos` when `pos` is already aligned. |
| ParserTypes.AlignPosIsLeast | FloydSpeak/FloydSpeak/parser_types.cpp:409-413 | No aligned position between `pos` and the result is skipped. |
| ParserTypes.AlignPosExamples | FloydSpeak/FloydSpeak/parser_types.cpp:416-427 | The unit tests: 0, 1, 7, 8 and 9 align to 0, 8, 8, 8 and 16. |
| ParserTypes.Place | FloydSpeak/FloydSpeak/parser_types.cpp:440-462 | A member starts at a position aligned for its type, at or after the current position and less than one alignment past it. |
| ParserTypes.RangesFromLaid | FloydSpeak/FloydSpeak/parser_types.cpp:440-465 | Each member range has its type's size (int32 4, bool 1, others 8) and an aligned start. Ranges lie within the running total. |
| ParserTypes.RangesFromDisjoint | FloydSpeak/FloydSpeak/parser_types.cpp:440-465 | Member ranges do not overlap and increase. |
| ParserTypes.StructLayoutLaid | FloydSpeak/FloydSpeak/parser_types.cpp:429-471 | Entry 0 is `(0, total)`, with total a multiple of 8 and less than 8 past the last member. Entries then follow one per member in order: aligned, sized by type, inside the struct and disjoint. |
| ParserTypes.StructLayoutExample | FloydSpeak/FloydSpeak/parser_types.cpp:758-777 | The struct5 test layout, ending with a total of 32. |
| ParserTypes.IsTypeIdentifierFullyDefined | FloydSpeak/FloydSpeak/parser_types.cpp:603-614 | On any collector, a fully defined identifier is registered, and a registered one with neither alias nor definition is not fully defined. In a valid collector, an identifier is fully defined exactly when it is registered. |
| ParserTypes.LookupIdentifierShallow | FloydSpeak/FloydSpeak/parser_types.cpp:637-642 | Returns the registered data exactly when the identifier is registered. |
| ParserTypes.LookupDeep | FloydSpeak/FloydSpeak/parser_types.cpp:644-660 | Following aliases ends at registered data with no alias. An unknown identifier gives nothing. |
| ParserTypes.LookupIdentifierDeep | FloydSpeak/FloydSpeak/parser_types.cpp:644-660 | In a valid collector, deep lookup succeeds exactly for registered identifiers, ending at a non-alias entry with a definition. |
| ParserTypes.ResolveIdentifier | FloydSpeak/FloydSpeak/parser_types.cpp:662-672 | Resolution succeeds exactly for registered identifiers, giving a valid definition stored in the collector. |
| ParserTypes.LookupSignature | FloydSpeak/FloydSpeak/parser_types.cpp:676-681 | A signature lookup succeeds exactly for stored signatures, and the definition's own signature is the key. |
| ParserTypes.AddAliasLooksUpTarget | FloydSpeak/FloydSpeak/parser_types.cpp:544-562 | A new alias looks up exactly what its target looks up. |
| ParserTypes.NewCollector | FloydSpeak/FloydSpeak/parser_types.cpp:481-517 | A fresh collector is valid, defines exactly int32, bool and string, and stores exactly their three signatures. |
| ParserTypes.NewCollectorResolves | FloydSpeak/FloydSpeak/parser_types.cpp:815-844 | In a fresh collector, int32, bool and string resolve to their base types. |
| ParserTypes.NewCollectorUnknown | FloydSpeak/FloydSpeak/parser_types.cpp:815-844 | In a fresh collector, every other name resolves to nothing. |
| ParserTypes.DefineAliasIdentifier | FloydSpeak/FloydSpeak/parser_types.cpp:544-562 | Succeeds exactly when the target is known and the new name is not. The errors are "unknown type identifier to base alias on" and "new type identifier already defined". The result is valid, adds exactly the new name and keeps the definitions. |
| ParserTypes.AddAliasEntry | FloydSpeak/FloydSpeak/parser_types.cpp:544-562 | On any collector: succeeds exactly when the target exists and the new name is not fully defined; an unknown target gives "unknown type identifier to base alias on". On success the new name is an alias of the target and every other identifier and every definition is kept. |
| ParserTypes.AddTypeEntry | FloydSpeak/FloydSpeak/parser_types.cpp:565-579 | On any collector and with a possibly null definition: succeeds exactly when the new name is not fully defined, otherwise "new type identifier already defined". On success the name holds the definition and everything else is kept. |
| ParserTypes.SelfAliasNeverEnds | FloydSpeak/FloydSpeak/parser_types.cpp:644-660 | The deep lookup of a name that is its own alias never reaches an entry, for any number of steps. |
| ParserTypes.NullDefinitionAliasCycle | FloydSpeak/FloydSpeak/parser_types.cpp:565-579 | In any collector, defining a fresh non-empty name with a null definition and then making that name an alias of itself both succeed, and the deep lookup of the name then never ends (for example "A" in the new collector). |
| ParserTypes.NullDefinitionBreaksInvariant | FloydSpeak/FloydSpeak/parser_types.cpp:544-579 | In any collector, after a null definition of a fresh non-empty name, the name is registered but not fully defined and the collector is not valid; after the self-alias that follows, it is still not valid. |
| ParserTypes.AliasResolvesLikeTarget | FloydSpeak/FloydSpeak/parser_types.cpp:544-562 | After aliasing, `resolve(new) == resolve(existing)`, and every earlier identifier resolves as before. |
| ParserTypes.DefineTypeIdentifier | FloydSpeak/FloydSpeak/parser_types.cpp:565-579 | The corrected version: it names only a stored definition. It succeeds exactly for a new name, adding exactly it; otherwise it gives "new type identifier already defined". The result stays valid, so every alias chain in it ends. |
| ParserTypes.TypeIdentifierResolves | FloydSpeak/FloydSpeak/parser_types.cpp:565-579 | The new name resolves to the given definition, and every earlier name resolves as before. |
| ParserTypes.DefineStructTypeDef | FloydSpeak/FloydSpeak/parser_types.cpp:582-601 | If the signature is already stored, the existing definition is returned and the collector is unchanged. Otherwise exactly one signature entry is added, under the definition's own signature. |
| ParserTypes.DefineStructTypeDefIdempotent | FloydSpeak/FloydSpeak/parser_types.cpp:582-601 | Defining the same struct twice is the same as defining it once. |
| ParserTypes.DefineStructType | FloydSpeak/FloydSpeak/parser_types.cpp:617-635 | An empty name only registers the signature. Otherwise the call succeeds exactly for an unregistered name, and the signature is stored afterwards. |
| ParserTypes.StructTypeResolves | FloydSpeak/FloydSpeak/parser_types.cpp:617-635 | A named struct resolves to the definition stored under its signature. |
| ParserTypes.AliasExample | FloydSpeak/FloydSpeak/parser_types.cpp:847-853 | The test: aliasing my_int to int32 resolves my_int to int32. |
| ParserTypes.AliasErrorExamples | FloydSpeak/FloydSpeak/parser_types.cpp:544-562 | An alias of an unknown "float" fails, and re-defining "bool" fails. |
| ParserTypes.StructCollectorExample | FloydSpeak/FloydSpeak/parser_types.cpp:783-807 | Defining struct3 `{int32 a; string b}` resolves it to signature "<struct>{<int32>a,<string>b}". |
| ParserTypes.AnonymousStructExample | FloydSpeak/FloydSpeak/parser_types.cpp:617-635 | An anonymous empty struct is stored under "<struct>{}". |
| ParserTypes.MemberBases | FloydSpeak/FloydSpeak/parser_types.cpp:440-462 | Each member's base type is the base of its resolved type. |
| ParserTypes.CalcStructDefaultMemoryLayout | FloydSpeak/FloydSpeak/parser_types.cpp:429-471 | The method's loop computes the layout of the struct's resolved member types. Entry 0 is `(0, total rounded to 8)`, followed by one aligned, correctly sized, in-struct, disjoint range per member in order. |
| ParserTypes.LayOutMembers | FloydSpeak/FloydSpeak/parser_types.cpp:440-465 | The imperative placement loop produces exactly the functional layout. |
| StructDefParser.ParseMembers | dev/floyd_speak/floyd_parser/parse_struct_def.cpp:28-36 | Empty input gives no members, and every member name is an identifier. A type-reader error propagates. A missing name gives "missing identifier". |
| StructDefParser.DefStructJson | dev/floyd_speak/floyd_parser/parse_struct_def.cpp:38-44 | The node is `["def-struct", {"members": …, "name": name}]`. |
| StructDefParser.ParseStructDefinitionBody | dev/floyd_speak/floyd_parser/parse_struct_def.cpp:23-46 | After optional whitespace the body must start with '{', or the error is "expected character '{'.". The result names the struct. The remainder is a strictly shorter suffix with leading whitespace skipped. |
| StructDefParser.ParseStructDefinition | dev/floyd_speak/floyd_parser/parse_struct_def.cpp:48-56 | After the `struct` keyword a name is required ("missing identifier" otherwise). The node carries that name. |
| StructDefParser.Render | dev/floyd_speak/floyd_parser/parse_struct_def.cpp:28-36 | Printing members gives empty text exactly for no members. |
| StructDefParser.ParseMembersRoundTrip | dev/floyd_speak/floyd_parser/parse_struct_def.cpp:28-36 | Printing members as `type name;` and parsing them back gives the same members in source order. |
| StructDefParser.BodyRoundTrip | dev/floyd_speak/floyd_parser/parse_struct_def.cpp:23-46 | `{ members } rest` parses to the def-struct node of those members, leaving `rest` with its whitespace skipped. |
| StructDefParser.KeywordAndName | dev/floyd_speak/floyd_parser/parse_struct_def.cpp:48-56 | `struct name {…}` hands the braced text to the body parser under that name. |
| StructDefParser.StructRoundTrip | dev/floyd_speak/floyd_parser/parse_struct_def.cpp:23-56 | For every name and printable member list, the printed definition parses back to its def-struct node. |
| StructDefParser.ReadTypeToken | dev/floyd_speak/floyd_parser/parse_struct_def.cpp:28-30 | The type reader used here consumes a non-empty type-character run after whitespace. |
| StructDefParser.NamedTypesPrintable | dev/floyd_speak/floyd_parser/parse_struct_def.cpp:28-36 | Members whose type and name are identifiers print in a form the parser reads back. |
| StructDefParser.StructExample | dev/floyd_speak/floyd_parser/parse_struct_def.cpp:58-79 | The test: "struct a {int x; string y; double z;}" gives a def-struct named a with members x, y, z in order and an empty remainder. |
| Text.DecimalRoundTrip | FloydSpeak/FloydSpeak/floyd_parser.cpp:823-840 | Every natural number printed in decimal reads back as itself. |

## Left out

- FileHandling.h: file-system, directory and process I/O. It is not pure logic.
- `compile_to_bytecode`, `run_global`, `run_main`, `print_vm_printlog`: they drive parser and semantic passes that are not part of this model, and they write to stdout.
- Other source files:
  - `bytecode_gen.h` holds only declarations.
  - `expressions.h` holds trivial getters; expressions of the AST are opaque and reach the model only through the codec parameters.
  - `parser_statement.cpp` and `parse_statement.h` hold the older statement with one optional member per variant. Its "exactly one set" invariant is structural in a Dafny datatype.
- Floating point:
  - `parse_float` is reduced to "a float prefix exists" (`Expressions.FloatLiteral`).
  - Float arithmetic in `evaluate3` is not modelled.
  - `compare_float_approx` is not modelled.
  - There is no NaN, infinity or rounding.
- Statement JSON encoding (`statement_to_json`) is not the decoder's inverse (for, bind and block are written differently), so only the decoder is modelled.
- Function calls and variables in expressions are left out:
  - the call branch of `parse_single_internal`;
  - `parse_functiondef_arguments`;
  - `run_function`;
  - the call branch of `evaluate3`.
  They need a function table and a runtime that are not part of this model.
- Tracing, the visitor, keyword/type tables, `*_to_string` debug helpers and the immer/std::map internals: not logic the core depends on.
- Values.MakeDouble: doubles are exact reals. NaN's non-reflexive equality is not modelled.
- Values.GetIntValue: int64 is modelled as a bounded newtype. Overflow in arithmetic outside the accessor is not modelled.
- Compare.CompareValue:
  - The int branch is the sign of the mathematical difference. The source's `limit(left - right, -1, 1)` could overflow for operands far apart.
  - The double branch compares exact reals.
  - The typeid, function, unresolved, any and void branches only assert in the source (and return 0 when asserts are compiled out); they give `Err`.
  - Json values compare through `compare_json_values`, which is not part of this model: equal trees give 0 and different ones give `Err`.
  - Object identity (the struct shortcut at ast_value.cpp:382-384) is value equality. This gives the same answer except for equal but distinct structs that hold a typeid or function member: the source walks their members and asserts, while the model returns 0.
- CompareLaws.ZeroMeansEqual: holds only for NUL-free values. `strcmp` stops at an embedded NUL, so different strings can compare as 0 (`CompareLaws.EmbeddedNulComparesEqual`).
- CompareLaws.MembersZero: NUL-free members only, for the same reason.
- CompareLaws.VectorZero: NUL-free elements only, for the same reason.
- CompareLaws.DictZero: NUL-free keys and values only, for the same reason.
- CompareLaws.CompareZeroIffEqual: NUL-free values only, for the same reason.
- Compare.CompareVector: vectors of different types report the struct message "Cannot compare structs of different type.", as the code does.
- ValueJson.ValueFromNormalizedJson: numbers are kept as exact reals rather than cast to `float`.
- ValueJson.ValueToNormalizedJson: typeid and json payloads go through the encoder parameter, because `typeid_to_normalized_json` is not part of this model.
- StatementJson.AstJsonToStatement:
  - Expressions, typeids, values and struct/function definitions are decoded by codec parameters.
  - Location handling (`unpack_loc`) is not part of this model, so its behaviour is assumed: an optional leading number.
- Interpreter.CallFunction: the VM's call is a parameter, since the bytecode executor is not part of this model.
- Interpreter.CallPassesArgumentsThrough: requires that no dict inside the function or the argument holds bool, int or double values. As written, such dicts come back empty (`Interpreter.CallDropsPodDictEntries`).
- Interpreter.RunProgram: only the lookup of "main" is modelled; running it goes through the call parameter.
- ParserTypes.LookupDeep:
  - Alias chains are followed with fuel `|identifiers|`.
  - The collector invariant guarantees every chain ends within that fuel, so no answer of the source is lost.
  - A cyclic chain cannot arise in a valid collector. The as-written entries can build one, and there `LookupDeep` gives none for every fuel (`ParserTypes.SelfAliasNeverEnds`) while the source recurses forever.
- ParserTypes.DefineTypeIdentifier: requires a definition already stored in the collector (non-null). The source accepts a null definition, which allows an alias cycle (see Findings); `ParserTypes.AddTypeEntry` models that version.
- ParserTypes.LookupSignature: the source's check that every stored definition is one of the stored objects is value equality here.
- StructDefParser.ReadTypeToken:
  - It stands in for `read_required_type` and accepts any type-character run, including "double".
  - The floyd_parser.cpp type table would reject "double"; the struct test relies on it being accepted.
  - Member JSON encoding is a parameter.
- StructDefParser.ParseStructDefinition: requires the text to start with `struct`, which the source asserts (`if_first`).
- ParserPrimitives.GetBalanced: models the string version in floyd_parser.cpp. The struct parser calls a `seq_t` variant that is not part of this model; the model assumes it behaves the same.
- Expressions.Evaluate: integers are unbounded, so C++ `int` overflow is not modelled.
- Expressions.FloatLiteral: `stof` throws `std::out_of_range` for a literal beyond float range (a 40-digit "1000…0.0", say); the model accepts it as an ordinary float literal.
- Expressions.ParseNumberAt: an integer literal is read by its exact decimal value. `atoi` on an over-long literal overflows `int` (undefined behaviour in C); the model does not model that.
- Expressions.Arithmetic: float operands give an error instead of float arithmetic.

## Findings

| source | as written | input that shows it | evidently intended | confidence | as-written member | corrected member |
|---|---|---|---|---|---|---|
| dev/floyd_speak/bytecode_interpreter/floyd_interpreter.cpp:218-228 | `value_to_bc` stores every dict in object storage, but `bc_to_value` (lines 110-123) reads dicts of bool/int/double from pod storage, which is never filled | `dict<int>{"a": 1}` converts back to `{}` | a lossless round trip, as `value_to_bc` does for vectors: pack bool/int/double dict values as pods | medium; not executed | Interpreter.PodDictCounterexample | Interpreter.BcRoundTrip |
| FloydSpeak/FloydSpeak/parser_types.cpp:565-579 | `define_type_identifier` accepts a null definition. The name then is not fully defined, so `define_alias_identifier` (544-562) accepts making it an alias of itself, and `lookup_identifier_deep` (644-660) recurses forever on it | `define_type_identifier("A", nullptr)`, then `define_alias_identifier("A", "A")`, then looking up "A" | every alias chain ends. Either `define_type_identifier` names only stored, non-null definitions (the model's corrected `DefineTypeIdentifier`), or, if a null definition is meant as a declared-but-undefined name, `define_alias_identifier` refuses an alias whose chain reaches the new name | low; not executed | ParserTypes.NullDefinitionAliasCycle | ParserTypes.DefineTypeIdentifier |
| FloydSpeak/FloydSpeak/ast_value.cpp:212-215 | `compare_string` uses `strcmp` on `c_str()`, which stops at the first NUL | "a\0b" vs "a\0c" compares 0 although the strings differ | lexicographic comparison of the whole string | low; not executed | Compare.StrcmpStopsAtNul | Compare.CompareString |

=== FILE: compare.dfy ===
/** The deep three-way comparator: -1, 0 or 1 as the left value is smaller,
    equal or larger, descending into structs, vectors and dicts. */
module Compare {
  import opened Results
  import opened Text
  import opened Json
  import opened Typeids
  import opened Values

  const StructTypesDiffer: string := "Cannot compare structs of different type."
  const DictTypesDiffer: string := "Cannot compare dicts of different type."
  const NoOrdering: string := "Values of this type have no ordering."

  /** Clamp `value` into `[min, max]`. */
  function Limit(value: int, min: int, max: int): (r: int)
    requires min <= max
    ensures min <= r <= max
  {
    if value < min then min else if value > max then max else value
  }

  // ------------------------------------------------------------------ strings

  /** C `strcmp` on the NUL-terminated buffers of two strings: walks both
      until the bytes differ or the terminator (or an embedded NUL) is met. */
  function Strcmp(a: string, b: string): int
    decreases |a|
  {
    var ca := if |a| == 0 then 0 else a[0] as int;
    var cb := if |b| == 0 then 0 else b[0] as int;
    if ca != cb then ca - cb
    else if ca == 0 then 0
    else Strcmp(a[1..], b[1..])
  }

  /** The comparison as written: `strcmp` of the C buffers, clamped. */
  function CompareStringAsWritten(a: string, b: string): (r: int)
    ensures -1 <= r <= 1
  {
    Limit(Strcmp(a, b), -1, 1)
  }

  /** Difference at the first differing position, else the length difference. */
  function StringDiff(a: string, b: string): int
    decreases |a|
  {
    if |a| == 0 || |b| == 0 then |a| - |b|
    else if a[0] != b[0] then (a[0] as int) - (b[0] as int)
    else StringDiff(a[1..], b[1..])
  }

  /** The comparison of whole strings, embedded NULs included. */
  function CompareString(a: string, b: string): (r: int)
    ensures -1 <= r <= 1
    ensures r == 0 <==> a == b
    ensures r == -1 <==> StrLess(a, b)
    ensures r == 1 <==> StrLess(b, a)
  {
    StringDiffSign(a, b);
    Limit(StringDiff(a, b), -1, 1)
  }

  lemma {:induction false} StringDiffSign(a: string, b: string)
    ensures StringDiff(a, b) == 0 <==> a == b
    ensures StringDiff(a, b) < 0 <==> StrLess(a, b)
    ensures StringDiff(a, b) > 0 <==> StrLess(b, a)
    decreases |a|
  {
    if |a| > 0 && |b| > 0 && a[0] == b[0] {
      StringDiffSign(a[1..], b[1..]);
      if a[1..] == b[1..] {
        assert a == [a[0]] + a[1..] && b == [b[0]] + b[1..];
      }
    }
  }

  lemma {:induction false} StringDiffAntisymmetric(a: string, b: string)
    ensures StringDiff(a, b) == -StringDiff(b, a)
    decreases |a|
  {
    if |a| > 0 && |b| > 0 && a[0] == b[0] {
      StringDiffAntisymmetric(a[1..], b[1..]);
    }
  }

  lemma CompareStringAntisymmetric(a: string, b: string)
    ensures CompareString(a, b) == -CompareString(b, a)
  {
    StringDiffAntisymmetric(a, b);
  }

  lemma {:induction false} StrcmpReflexive(a: string)
    ensures Strcmp(a, a) == 0
    decreases |a|
  {
    if |a| > 0 && a[0] != '\0' {
      StrcmpReflexive(a[1..]);
    }
  }

  lemma {:induction false} StrcmpAntisymmetric(a: string, b: string)
    ensures Strcmp(a, b) == -Strcmp(b, a)
    decreases |a|
  {
    var ca := if |a| == 0 then 0 else a[0] as int;
    var cb := if |b| == 0 then 0 else b[0] as int;
    if ca == cb && ca != 0 {
      StrcmpAntisymmetric(a[1..], b[1..]);
    }
  }

  /** The C comparison answers 0 on equal strings and swaps sign with its
      arguments. */
  lemma CompareStringAsWrittenLaws(a: string, b: string)
    ensures CompareStringAsWritten(a, a) == 0
    ensures CompareStringAsWritten(a, b) == -CompareStringAsWritten(b, a)
  {
    StrcmpReflexive(a);
    StrcmpAntisymmetric(a, b);
  }

  predicate NoNul(s: string) {
    forall i :: 0 <= i < |s| ==> s[i] != '\0'
  }

  /** On strings without embedded NULs the C comparison is the whole-string one. */
  lemma {:induction false} StrcmpMatchesOnNulFree(a: string, b: string)
    requires NoNul(a) && NoNul(b)
    ensures CompareStringAsWritten(a, b) == CompareString(a, b)
    decreases |a|
  {
    if |a| > 0 && |b| > 0 && a[0] == b[0] {
      assert NoNul(a[1..]) && NoNul(b[1..]);
      StrcmpMatchesOnNulFree(a[1..], b[1..]);
    } else if |a| > 0 && |b| == 0 {
      assert a[0] != '\0';
    } else if |a| == 0 && |b| > 0 {
      assert b[0] != '\0';
    }
  }

  /** Two different strings that share the text before an embedded NUL
      compare equal through the C buffers. */
  lemma StrcmpStopsAtNul()
    ensures CompareStringAsWritten("a\0b", "a\0c") == 0
    ensures CompareString("a\0b", "a\0c") == -1
  {
    assert Strcmp("a\0b", "a\0c") == Strcmp("\0b", "\0c");
    assert StringDiff("a\0b", "a\0c") == StringDiff("\0b", "\0c") == StringDiff("b", "c");
  }

  lemma CompareStringExamples()
    ensures CompareString("", "") == 0
    ensures CompareString("aaa", "aaa") == 0
    ensures CompareString("b", "a") == 1
    ensures CompareStringAsWritten("b", "a") == 1
  {
    assert StrLess("a", "b");
  }

  // ------------------------------------------------------------------ values

  function BoolInt(b: bool): int {
    if b then 1 else 0
  }

  /** Deep comparison. Mismatched scalar kinds fail as their accessors do;
      containers of a different exact type are rejected; JSON values are
      only comparable when equal; type ids and functions have no order. */
  function CompareValue(l: Value, r: Value): (res: Result<int>)
    requires WellFormed(l) && WellFormed(r)
    ensures res.Ok? ==> -1 <= res.value <= 1
    decreases l
  {
    match l
    case VUndefined => Ok(0)
    case VBool(a) => if r.VBool? then Ok(BoolInt(a) - BoolInt(r.b)) else Err(TypeMismatch)
    case VInt(a) => if r.VInt? then Ok(Limit(a as int - r.i as int, -1, 1)) else Err(TypeMismatch)
    case VDouble(a) =>
      if !r.VDouble? then Err(TypeMismatch)
      else if a > r.d then Ok(1)
      else if a < r.d then Ok(-1)
      else Ok(0)
    case VString(a) => if r.VString? then Ok(CompareStringAsWritten(a, r.s)) else Err(TypeMismatch)
    case VJson(a) =>
      if !r.VJson? then Err(TypeMismatch)
      else if a == r.j then Ok(0)
      else Err(NoOrdering)
    case VStruct(t, ms) =>
      if TypeOf(r) != t then Err(StructTypesDiffer)
      else if ms == r.members then Ok(0)
      else CompareMembers(ms, r.members)
    case VVector(et, es) =>
      if TypeOf(r) != TVector(et) then Err(StructTypesDiffer)
      else CompareVector(es, r.elements)
    case VDict(vt, es) =>
      if TypeOf(r) != TDict(vt) then Err(DictTypesDiffer)
      else CompareDict(es, r.entries)
    case _ => Err(NoOrdering)
  }

  /** Struct members pairwise, in declaration order; the first nonzero decides. */
  function CompareMembers(ls: seq<Value>, rs: seq<Value>): (res: Result<int>)
    requires |ls| == |rs|
    requires forall i :: 0 <= i < |ls| ==> WellFormed(ls[i])
    requires forall i :: 0 <= i < |rs| ==> WellFormed(rs[i])
    ensures res.Ok? ==> -1 <= res.value <= 1
    decreases ls
  {
    if |ls| == 0 then Ok(0)
    else
      var c :- CompareValue(ls[0], rs[0]);
      if c != 0 then Ok(c) else CompareMembers(ls[1..], rs[1..])
  }

  /** Vectors: the first nonzero element comparison over the shared prefix;
      otherwise equal lengths give 0, a longer left side -1, a longer right
      side 1. */
  function CompareVector(ls: seq<Value>, rs: seq<Value>): (res: Result<int>)
    requires forall i :: 0 <= i < |ls| ==> WellFormed(ls[i])
    requires forall i :: 0 <= i < |rs| ==> WellFormed(rs[i])
    ensures res.Ok? ==> -1 <= res.value <= 1
    decreases ls
  {
    if |ls| == 0 || |rs| == 0 then
      Ok(if |ls| == |rs| then 0 else if |ls| > |rs| then -1 else 1)
    else
      var c :- CompareValue(ls[0], rs[0]);
      if c != 0 then Ok(c) else CompareVector(ls[1..], rs[1..])
  }

  /** Dicts: skip the common run of equal entries; then both exhausted give 0,
      only the left exhausted 1, only the right exhausted -1; otherwise the
      keys decide, and on equal keys the values. */
  function CompareDict(ls: seq<DictEntry>, rs: seq<DictEntry>): (res: Result<int>)
    requires forall i :: 0 <= i < |ls| ==> WellFormed(ls[i].value)
    requires forall i :: 0 <= i < |rs| ==> WellFormed(rs[i].value)
    ensures res.Ok? ==> -1 <= res.value <= 1
    decreases ls
  {
    if |ls| > 0 && |rs| > 0 && ls[0] == rs[0] then CompareDict(ls[1..], rs[1..])
    else if |ls| == 0 && |rs| == 0 then Ok(0)
    else if |ls| == 0 then Ok(1)
    else if |rs| == 0 then Ok(-1)
    else
      var keyDiff := CompareStringAsWritten(ls[0].key, rs[0].key);
      if keyDiff != 0 then Ok(keyDiff) else CompareValue(ls[0].value, rs[0].value)
  }
}

=== FILE: compare_laws.dfy ===
/** Laws of the deep comparator: it is reflexive on orderable values,
    antisymmetric on values of one type, answers 0 only for equal values when
    no string inside holds an embedded NUL, and follows the prefix rules for
    vectors and dicts. */
module CompareLaws {
  import opened Results
  import opened Text
  import opened Typeids
  import opened Values
  import opened Compare

  /** No kind without an ordering (any, void, type id, function) occurs
      anywhere inside the value. */
  predicate Orderable(v: Value) {
    match v
    case VAny => false
    case VVoid => false
    case VTypeid(_) => false
    case VFunction(_, _) => false
    case VStruct(_, ms) => forall i :: 0 <= i < |ms| ==> Orderable(ms[i])
    case VVector(_, es) => forall i :: 0 <= i < |es| ==> Orderable(es[i])
    case VDict(_, es) => forall i :: 0 <= i < |es| ==> Orderable(es[i].value)
    case _ => true
  }

  // ------------------------------------------------------------------ reflexivity

  lemma {:induction false} CompareReflexive(v: Value)
    requires WellFormed(v) && Orderable(v)
    ensures CompareValue(v, v) == Ok(0)
    decreases v
  {
    match v
    case VString(s) => CompareStringAsWrittenLaws(s, s);
    case VVector(_, es) => VectorReflexive(es);
    case VDict(_, es) => DictReflexive(es);
    case _ =>
  }

  lemma {:induction false} VectorReflexive(es: seq<Value>)
    requires forall i :: 0 <= i < |es| ==> WellFormed(es[i]) && Orderable(es[i])
    ensures CompareVector(es, es) == Ok(0)
    decreases es
  {
    if |es| > 0 {
      CompareReflexive(es[0]);
      VectorReflexive(es[1..]);
    }
  }

  /** Equal dict entries are skipped without comparing their values, so any
      dict equals itself. */
  lemma {:induction false} DictReflexive(es: seq<DictEntry>)
    requires forall i :: 0 <= i < |es| ==> WellFormed(es[i].value)
    ensures CompareDict(es, es) == Ok(0)
    decreases es
  {
    if |es| > 0 {
      DictReflexive(es[1..]);
    }
  }

  // ------------------------------------------------------------------ antisymmetry

  lemma {:induction false} CompareAntisymmetric(a: Value, b: Value)
    requires WellFormed(a) && WellFormed(b) && TypeOf(a) == TypeOf(b)
    requires CompareValue(a, b).Ok?
    ensures CompareValue(b, a) == Ok(-CompareValue(a, b).value)
    decreases a, 1
  {
    match a
    case VString(s) => CompareStringAsWrittenLaws(s, b.s);
    case VStruct(_, _) => StructAntisymmetric(a, b);
    case VVector(et, es) => VectorAntisymmetric(es, b.elements, et);
    case VDict(vt, es) => DictAntisymmetric(es, b.entries, vt);
    case _ =>
  }

  lemma {:induction false} StructAntisymmetric(a: Value, b: Value)
    requires a.VStruct? && WellFormed(a) && WellFormed(b) && TypeOf(a) == TypeOf(b)
    requires CompareValue(a, b).Ok?
    ensures CompareValue(b, a) == Ok(-CompareValue(a, b).value)
    decreases a, 0
  {
    if a.members != b.members {
      MembersAntisymmetric(a.members, b.members, a.structType.def.members);
    }
  }

  lemma {:induction false} MembersAntisymmetric(ls: seq<Value>, rs: seq<Value>, decl: seq<Member>)
    requires |ls| == |rs| == |decl|
    requires forall i :: 0 <= i < |ls| ==> WellFormed(ls[i]) && TypeOf(ls[i]) == decl[i].memberType
    requires forall i :: 0 <= i < |rs| ==> WellFormed(rs[i]) && TypeOf(rs[i]) == decl[i].memberType
    requires CompareMembers(ls, rs).Ok?
    ensures CompareMembers(rs, ls) == Ok(-CompareMembers(ls, rs).value)
    decreases ls
  {
    if |ls| > 0 {
      SplitTyped(ls, rs, decl);
      MembersHead(ls, rs);
      MembersHead(rs, ls);
      CompareAntisymmetric(ls[0], rs[0]);
      if CompareValue(ls[0], rs[0]).value == 0 {
        MembersAntisymmetric(ls[1..], rs[1..], decl[1..]);
      }
    }
  }

  /** Typed members split into a typed first pair and typed tails. */
  lemma SplitTyped(ls: seq<Value>, rs: seq<Value>, decl: seq<Member>)
    requires 0 < |ls| == |rs| == |decl|
    requires forall i :: 0 <= i < |ls| ==> WellFormed(ls[i]) && TypeOf(ls[i]) == decl[i].memberType
    requires forall i :: 0 <= i < |rs| ==> WellFormed(rs[i]) && TypeOf(rs[i]) == decl[i].memberType
    ensures WellFormed(ls[0]) && WellFormed(rs[0]) && TypeOf(ls[0]) == TypeOf(rs[0])
    ensures forall i :: 0 <= i < |ls[1..]| ==> WellFormed(ls[1..][i]) && TypeOf(ls[1..][i]) == decl[1..][i].memberType
    ensures forall i :: 0 <= i < |rs[1..]| ==> WellFormed(rs[1..][i]) && TypeOf(rs[1..][i]) == decl[1..][i].memberType
  {
  }

  /** The member comparison is the first pair's, unless that pair is equal. */
  function ThenCompare(first: Result<int>, rest: Result<int>): Result<int> {
    if first.Ok? && first.value == 0 then rest else first
  }

  lemma MembersHead(ls: seq<Value>, rs: seq<Value>)
    requires 0 < |ls| == |rs|
    requires forall i :: 0 <= i < |ls| ==> WellFormed(ls[i])
    requires forall i :: 0 <= i < |rs| ==> WellFormed(rs[i])
    ensures CompareMembers(ls, rs) == ThenCompare(CompareValue(ls[0], rs[0]), CompareMembers(ls[1..], rs[1..]))
  {
  }

  lemma {:induction false} VectorAntisymmetric(ls: seq<Value>, rs: seq<Value>, et: Typeid)
    requires forall i :: 0 <= i < |ls| ==> WellFormed(ls[i]) && TypeOf(ls[i]) == et
    requires forall i :: 0 <= i < |rs| ==> WellFormed(rs[i]) && TypeOf(rs[i]) == et
    requires CompareVector(ls, rs).Ok?
    ensures CompareVector(rs, ls) == Ok(-CompareVector(ls, rs).value)
    decreases ls
  {
    if |ls| > 0 && |rs| > 0 {
      CompareAntisymmetric(ls[0], rs[0]);
      if CompareValue(ls[0], rs[0]).value == 0 {
        VectorAntisymmetric(ls[1..], rs[1..], et);
      }
    }
  }

  lemma {:induction false} DictAntisymmetric(ls: seq<DictEntry>, rs: seq<DictEntry>, vt: Typeid)
    requires forall i :: 0 <= i < |ls| ==> WellFormed(ls[i].value) && TypeOf(ls[i].value) == vt
    requires forall i :: 0 <= i < |rs| ==> WellFormed(rs[i].value) && TypeOf(rs[i].value) == vt
    requires CompareDict(ls, rs).Ok?
    ensures CompareDict(rs, ls) == Ok(-CompareDict(ls, rs).value)
    decreases ls
  {
    if |ls| > 0 && |rs| > 0 && ls[0] == rs[0] {
      DictAntisymmetric(ls[1..], rs[1..], vt);
    } else if |ls| > 0 && |rs| > 0 {
      CompareStringAsWrittenLaws(ls[0].key, rs[0].key);
      if CompareStringAsWritten(ls[0].key, rs[0].key) == 0 {
        CompareAntisymmetric(ls[0].value, rs[0].value);
      }
    }
  }

  // ------------------------------------------------------------------ zero means equal

  /** No string inside the value, dict keys included, holds an embedded NUL;
      on such values the comparator's `strcmp` sees every character. */
  predicate NulFree(v: Value) {
    match v
    case VString(s) => NoNul(s)
    case VStruct(_, ms) => forall i :: 0 <= i < |ms| ==> NulFree(ms[i])
    case VVector(_, es) => forall i :: 0 <= i < |es| ==> NulFree(es[i])
    case VDict(_, es) => forall i :: 0 <= i < |es| ==> NoNul(es[i].key) && NulFree(es[i].value)
    case _ => true
  }

  /** Two NUL-free values of one type compare as 0 only when they are equal. */
  lemma {:induction false} ZeroMeansEqual(a: Value, b: Value)
    requires WellFormed(a) && WellFormed(b) && TypeOf(a) == TypeOf(b)
    requires NulFree(a) && NulFree(b)
    requires CompareValue(a, b) == Ok(0)
    ensures a == b
    decreases a
  {
    match a
    case VString(s) => StrcmpMatchesOnNulFree(s, b.s);
    case VStruct(t, ms) =>
      if ms != b.members {
        MembersZero(ms, b.members, t.def.members);
      }
    case VVector(et, es) => VectorZero(es, b.elements, et);
    case VDict(vt, es) => DictZero(es, b.entries, vt);
    case _ =>
  }

  lemma {:induction false} MembersZero(ls: seq<Value>, rs: seq<Value>, decl: seq<Member>)
    requires |ls| == |rs| == |decl|
    requires forall i :: 0 <= i < |ls| ==> WellFormed(ls[i]) && TypeOf(ls[i]) == decl[i].memberType
    requires forall i :: 0 <= i < |rs| ==> WellFormed(rs[i]) && TypeOf(rs[i]) == decl[i].memberType
    requires forall i :: 0 <= i < |ls| ==> NulFree(ls[i])
    requires forall i :: 0 <= i < |rs| ==> NulFree(rs[i])
    requires CompareMembers(ls, rs) == Ok(0)
    ensures ls == rs
    decreases ls
  {
    if |ls| > 0 {
      ZeroMeansEqual(ls[0], rs[0]);
      MembersZero(ls[1..], rs[1..], decl[1..]);
      assert ls == [ls[0]] + ls[1..] && rs == [rs[0]] + rs[1..];
    }
  }

  lemma {:induction false} VectorZero(ls: seq<Value>, rs: seq<Value>, et: Typeid)
    requires forall i :: 0 <= i < |ls| ==> WellFormed(ls[i]) && TypeOf(ls[i]) == et
    requires forall i :: 0 <= i < |rs| ==> WellFormed(rs[i]) && TypeOf(rs[i]) == et
    requires forall i :: 0 <= i < |ls| ==> NulFree(ls[i])
    requires forall i :: 0 <= i < |rs| ==> NulFree(rs[i])
    requires CompareVector(ls, rs) == Ok(0)
    ensures ls == rs
    decreases ls
  {
    if |ls| > 0 && |rs| > 0 {
      ZeroMeansEqual(ls[0], rs[0]);
      VectorZero(ls[1..], rs[1..], et);
      assert ls == [ls[0]] + ls[1..] && rs == [rs[0]] + rs[1..];
    }
  }

  lemma {:induction false} DictZero(ls: seq<DictEntry>, rs: seq<DictEntry>, vt: Typeid)
    requires forall i :: 0 <= i < |ls| ==> WellFormed(ls[i].value) && TypeOf(ls[i].value) == vt
    requires forall i :: 0 <= i < |rs| ==> WellFormed(rs[i].value) && TypeOf(rs[i].value) == vt
    requires forall i :: 0 <= i < |ls| ==> NoNul(ls[i].key) && NulFree(ls[i].value)
    requires forall i :: 0 <= i < |rs| ==> NoNul(rs[i].key) && NulFree(rs[i].value)
    requires CompareDict(ls, rs) == Ok(0)
    ensures ls == rs
    decreases ls
  {
    if |ls| > 0 && |rs| > 0 && ls[0] == rs[0] {
      DictZero(ls[1..], rs[1..], vt);
      assert ls == [ls[0]] + ls[1..] && rs == [rs[0]] + rs[1..];
    } else if |ls| > 0 && |rs| > 0 {
      StrcmpMatchesOnNulFree(ls[0].key, rs[0].key);
      ZeroMeansEqual(ls[0].value, rs[0].value);
      assert false;
    }
  }

  /** For orderable NUL-free values of one type the comparator answers 0
      exactly when the values are equal. */
  lemma CompareZeroIffEqual(a: Value, b: Value)
    requires WellFormed(a) && WellFormed(b) && TypeOf(a) == TypeOf(b) && Orderable(a)
    requires NulFree(a) && NulFree(b)
    ensures CompareValue(a, b) == Ok(0) <==> a == b
  {
    if a == b {
      CompareReflexive(a);
    } else if CompareValue(a, b) == Ok(0) {
      ZeroMeansEqual(a, b);
    }
  }

  /** An embedded NUL hides the rest of a string from the comparator, so two
      different strings, and two dicts whose keys differ only after a NUL,
      compare as equal. */
  lemma EmbeddedNulComparesEqual()
    ensures CompareValue(VString("a\0b"), VString("a\0c")) == Ok(0)
    ensures ComparesAs(VDict(TInt, [DictEntry("a\0b", VInt(1))]),
                       VDict(TInt, [DictEntry("a\0c", VInt(1))]), Ok(0))
  {
    StrcmpStopsAtNul();
  }

  // ------------------------------------------------------------------ prefix rules

  /** The first element pair that does not compare equal decides a vector
      comparison (a failure there is the comparison's failure). */
  lemma {:induction false} VectorFirstDifference(ls: seq<Value>, rs: seq<Value>, k: nat)
    requires forall i :: 0 <= i < |ls| ==> WellFormed(ls[i])
    requires forall i :: 0 <= i < |rs| ==> WellFormed(rs[i])
    requires k < |ls| && k < |rs|
    requires forall i :: 0 <= i < k ==> CompareValue(ls[i], rs[i]) == Ok(0)
    requires CompareValue(ls[k], rs[k]) != Ok(0)
    ensures CompareVector(ls, rs) == CompareValue(ls[k], rs[k])
    decreases k
  {
    if k > 0 {
      assert CompareValue(ls[0], rs[0]) == Ok(0);
      VectorFirstDifference(ls[1..], rs[1..], k - 1);
    }
  }

  /** When the shared prefix compares equal the lengths decide: the longer
      left side is the smaller. */
  lemma {:induction false} VectorSharedPrefixEqual(ls: seq<Value>, rs: seq<Value>)
    requires forall i :: 0 <= i < |ls| ==> WellFormed(ls[i])
    requires forall i :: 0 <= i < |rs| ==> WellFormed(rs[i])
    requires forall i :: 0 <= i < |ls| && i < |rs| ==> CompareValue(ls[i], rs[i]) == Ok(0)
    ensures CompareVector(ls, rs) == Ok(if |ls| == |rs| then 0 else if |ls| > |rs| then -1 else 1)
    decreases ls
  {
    if |ls| > 0 && |rs| > 0 {
      assert CompareValue(ls[0], rs[0]) == Ok(0);
      VectorSharedPrefixEqual(ls[1..], rs[1..]);
    }
  }

  /** A common run of equal entries does not influence a dict comparison. */
  lemma {:induction false} DictSkipsEqualPrefix(ls: seq<DictEntry>, rs: seq<DictEntry>, k: nat)
    requires forall i :: 0 <= i < |ls| ==> WellFormed(ls[i].value)
    requires forall i :: 0 <= i < |rs| ==> WellFormed(rs[i].value)
    requires k <= |ls| && k <= |rs| && ls[..k] == rs[..k]
    ensures CompareDict(ls, rs) == CompareDict(ls[k..], rs[k..])
    decreases k
  {
    if k > 0 {
      assert ls[0] == ls[..k][0] == rs[..k][0] == rs[0];
      assert ls[1..][..k - 1] == ls[1..k] && rs[1..][..k - 1] == rs[1..k];
      assert ls[1..k] == ls[..k][1..] == rs[..k][1..] == rs[1..k];
      DictSkipsEqualPrefix(ls[1..], rs[1..], k - 1);
      assert ls[1..][k - 1..] == ls[k..] && rs[1..][k - 1..] == rs[k..];
    }
  }

  /** A dict whose entries are a proper prefix of the other's is the larger. */
  lemma DictProperPrefix(ls: seq<DictEntry>, rs: seq<DictEntry>)
    requires forall i :: 0 <= i < |ls| ==> WellFormed(ls[i].value)
    requires forall i :: 0 <= i < |rs| ==> WellFormed(rs[i].value)
    requires |ls| < |rs| && ls == rs[..|ls|]
    ensures CompareDict(ls, rs) == Ok(1)
    ensures CompareDict(rs, ls) == Ok(-1)
  {
    DictSkipsEqualPrefix(ls, rs, |ls|);
    DictSkipsEqualPrefix(rs, ls, |ls|);
  }

  /** Containers of a different exact type are rejected, vectors with the
      struct message. */
  lemma ContainerTypesMustMatch(l: Value, r: Value)
    requires WellFormed(l) && WellFormed(r)
    requires (l.VStruct? || l.VVector? || l.VDict?) && TypeOf(l) != TypeOf(r)
    ensures CompareValue(l, r) == Err(if l.VDict? then DictTypesDiffer else StructTypesDiffer)
  {
  }

  /** `l` and `r` are well formed and compare as `res`. */
  predicate ComparesAs(l: Value, r: Value, res: Result<int>) {
    WellFormed(l) && WellFormed(r) && CompareValue(l, r) == res
  }

  lemma CompareVectorExample()
    ensures ComparesAs(VVector(TInt, [VInt(1), VInt(2), VInt(3)]), VVector(TInt, [VInt(1), VInt(2)]), Ok(-1))
    ensures ComparesAs(VVector(TInt, [VInt(1), VInt(2)]), VVector(TInt, [VInt(1), VInt(2), VInt(3)]), Ok(1))
  {
    var ls, rs := [VInt(1), VInt(2), VInt(3)], [VInt(1), VInt(2)];
    IntsWellFormed(ls);
    IntsWellFormed(rs);
    VectorSharedPrefixEqual(ls, rs);
    VectorSharedPrefixEqual(rs, ls);
  }

  /** A vector of integers is well formed and compares equal to itself
      element by element. */
  lemma IntsWellFormed(es: seq<Value>)
    requires forall i :: 0 <= i < |es| ==> es[i].VInt?
    ensures WellFormed(VVector(TInt, es))
    ensures forall i :: 0 <= i < |es| ==> CompareValue(es[i], es[i]) == Ok(0)
  {
  }

  lemma CompareScalarExamples()
    ensures CompareValue(VBool(true), VBool(false)) == Ok(1)
    ensures CompareValue(VInt(3), VInt(10)) == Ok(-1)
    ensures CompareValue(VVector(TInt, []), VVector(TString, [])) == Err(StructTypesDiffer)
  {
  }

  lemma CompareDictExample()
    ensures ComparesAs(VDict(TInt, [DictEntry("a", VInt(1))]),
                       VDict(TInt, [DictEntry("a", VInt(1)), DictEntry("b", VInt(2))]), Ok(1))
    ensures ComparesAs(VDict(TInt, [DictEntry("a", VInt(1)), DictEntry("b", VInt(2))]),
                       VDict(TInt, [DictEntry("a", VInt(1))]), Ok(-1))
  {
    var ls, rs := [DictEntry("a", VInt(1))], [DictEntry("a", VInt(1)), DictEntry("b", VInt(2))];
    IntDictWellFormed(ls);
    assert StrLess("a", "b");
    IntDictWellFormed(rs);
    assert ls == rs[..1];
    DictProperPrefix(ls, rs);
  }

  /** A dict of integers with ascending keys is well formed. */
  lemma IntDictWellFormed(es: seq<DictEntry>)
    requires DictKeysAscending(es)
    requires forall i :: 0 <= i < |es| ==> es[i].value.VInt?
    ensures WellFormed(VDict(TInt, es))
  {
  }
}

=== FILE: expression_grammar.dfy ===
/** The grammar's laws stated on whole texts: '*' and '/' bind tighter than
    '+' and '-', operators of one level associate to the left, a run of
    signs negates iff it holds an odd number of '-', and the error each
    malformed shape gives. The front end's worked examples follow from them. */
module ExpressionGrammar {
  import opened Results
  import opened Text
  import opened ParserPrimitives
  import opened Expressions
  import opened ExpressionLaws

  predicate Multiplicative(op: Operation) {
    op == Multiply || op == Divide
  }

  /** The tree the grammar gives `a o1 b o2 c`: the second operator takes
      `b` first only when it binds tighter than the first. */
  function ChainTree(a: Expr, o1: Operation, b: Expr, o2: Operation, c: Expr): Expr {
    if Multiplicative(o2) && !Multiplicative(o1) then MathOp(o1, a, MathOp(o2, b, c))
    else MathOp(o2, MathOp(o1, a, b), c)
  }

  /** A run of '+' and '-'. */
  predicate IsSignRun(signs: string) {
    forall k :: 0 <= k < |signs| ==> signs[k] == '+' || signs[k] == '-'
  }

  /** An operand a sign run can precede: a non-negative int or a
      parenthesised operation. */
  predicate Unsigned(x: Expr) {
    Canonical(x) && (x.MathOp? || (x.Const? && x.c.IntConst? && x.c.i >= 0))
  }

  /** What a sign run makes of its operand. */
  function Signed(odd: bool, x: Expr): Expr {
    if odd then NegateExpression(x) else x
  }

  // ------------------------------------------------------------------ one atom

  /** The body of an atom read from `m` to `j`: the parenthesised rule at
      '(', the single-token rule otherwise. */
  predicate BodyReads(s: string, m: nat, x: Expr, j: nat) {
    && m < |s|
    && (s[m] == '(' ==> ParseParenthesised(s, m) == Ok((x, j)))
    && (s[m] != '(' ==> ParseSingle(s, m) == Ok((x, j)))
  }

  /** The atom rule once its prefix and body are known. */
  lemma AtomOfParts(s: string, i: nat, odd: bool, m: nat, x: Expr, end: nat)
    requires i <= m && BodyReads(s, m, x, end)
    requires SkipWhitespaceAt(s, i) == i && ReadSignsAt(s, i) == (odd, m)
    ensures AtomReads(s, i, Signed(odd, x), end)
  {
  }

  /** A sign run ends where the first non-sign character stands. */
  lemma SignsEndAt(s: string, i: nat, signs: string)
    requires At(s, i, signs) && IsSignRun(signs)
    requires i + |signs| < |s| && !(IsWhitespace(s[i + |signs|]) || s[i + |signs|] == '-' || s[i + |signs|] == '+')
    ensures ReadSignsAt(s, i) == (Count('-', signs) % 2 == 1, i + |signs|)
  {
    AtSlice(s, i, signs);
  }

  /** The first character of a printed operand that a sign run may precede. */
  lemma UnsignedStart(x: Expr)
    requires Unsigned(x)
    ensures |Print(x)| > 0
    ensures x.MathOp? ==> Print(x)[0] == '('
    ensures !x.MathOp? ==> IsDigit(Print(x)[0])
  {
    if x.MathOp? {
      assert Print(x) == "(" + Print(x.left) + [OpChar(x.op)] + Print(x.right) + ")";
    }
  }

  /** Where the body of an atom starts: '(' for an operation, a digit
      otherwise, never whitespace or a sign. */
  lemma UnsignedHead(s: string, m: nat, x: Expr)
    requires Unsigned(x) && At(s, m, Print(x))
    ensures m < |s| && |Print(x)| == Width(x)
    ensures s[m] == '(' <==> x.MathOp?
    ensures !IsWhitespace(s[m]) && s[m] != '-' && s[m] != '+'
  {
    PrintLayout(x, s, m);
    UnsignedStart(x);
    AtChar(s, m, Print(x), 0);
  }

  /** A printed operand a sign run may precede reads back as the body of
      an atom. */
  lemma UnsignedReads(s: string, m: nat, x: Expr, j: nat)
    requires Unsigned(x) && At(s, m, Print(x)) && j == m + |Print(x)| && EndsAtom(s, j)
    ensures BodyReads(s, m, x, j)
  {
    UnsignedHead(s, m, x);
    if x.MathOp? {
      ParenBody(s, m, x, j);
    } else {
      DigitsBody(s, m, x, j);
    }
  }

  lemma ParenBody(s: string, m: nat, x: Expr, j: nat)
    requires x.MathOp? && Unsigned(x) && At(s, m, Print(x)) && j == m + |Print(x)|
    ensures ParseParenthesised(s, m) == Ok((x, j))
  {
    PrintLayout(x, s, m);
    ParenRoundTrip(x, s, m);
  }

  lemma DigitsBody(s: string, m: nat, x: Expr, j: nat)
    requires !x.MathOp? && Unsigned(x) && At(s, m, Print(x)) && j == m + |Print(x)| && EndsAtom(s, j)
    ensures ParseSingle(s, m) == Ok((x, j))
  {
    PrintLayout(x, s, m);
    DigitsRead(s, m, x, j);
  }

  lemma DigitsRead(s: string, m: nat, x: Expr, j: nat)
    requires x.Const? && x.c.IntConst? && x.c.i >= 0 && Layout(s, m, x) && j == m + Width(x) && EndsAtom(s, j)
    ensures ParseSingle(s, m) == Ok((x, j))
  {
    DigitRunSingle(s, m, j);
  }

  /** Signs, then an operand: the operand, negated iff the run holds an odd
      number of '-'. */
  lemma SignedAtom(s: string, i: nat, signs: string, x: Expr)
    requires Unsigned(x) && IsSignRun(signs) && At(s, i, signs + Print(x))
    requires EndsAtom(s, i + |signs| + |Print(x)|)
    ensures |Print(x)| == Width(x)
    ensures AtomReads(s, i, Signed(Count('-', signs) % 2 == 1, x), i + |signs| + Width(x))
  {
    var m := i + |signs|;
    var odd := Count('-', signs) % 2 == 1;
    SignedParts(s, i, signs, x, m, odd);
    UnsignedReads(s, m, x, m + |Print(x)|);
    AtomOfParts(s, i, odd, m, x, m + |Print(x)|);
  }

  /** A printed signed operand splits into the sign run the atom rule reads
      and the operand's text after it. */
  lemma SignedParts(s: string, i: nat, signs: string, x: Expr, m: nat, odd: bool)
    requires Unsigned(x) && IsSignRun(signs) && At(s, i, signs + Print(x))
    requires m == i + |signs| && odd == (Count('-', signs) % 2 == 1)
    requires EndsAtom(s, m + |Print(x)|)
    ensures |Print(x)| == Width(x)
    ensures i <= m && SkipWhitespaceAt(s, i) == i && ReadSignsAt(s, i) == (odd, m)
    ensures At(s, m, Print(x))
  {
    AtConcat(s, i, signs, Print(x));
    UnsignedHead(s, m, x);
    SignPrefix(s, i, signs, m);
  }

  /** A sign run at `i` followed by an operand's first character at `m`:
      no whitespace is skipped and the run is read whole. */
  lemma SignPrefix(s: string, i: nat, signs: string, m: nat)
    requires IsSignRun(signs) && At(s, i, signs) && m == i + |signs| && m < |s|
    requires !IsWhitespace(s[m]) && s[m] != '-' && s[m] != '+'
    ensures SkipWhitespaceAt(s, i) == i
    ensures ReadSignsAt(s, i) == (Count('-', signs) % 2 == 1, m)
  {
    SignsEndAt(s, i, signs);
    if |signs| > 0 {
      AtChar(s, i, signs, 0);
    }
  }

  /** A printed canonical expression is one atom. */
  lemma PrintedAtom(s: string, i: nat, e: Expr)
    requires Canonical(e) && At(s, i, Print(e)) && EndsAtom(s, i + |Print(e)|)
    ensures |Print(e)| == Width(e) && AtomReads(s, i, e, i + |Print(e)|)
  {
    PrintLayout(e, s, i);
    AtomRoundTrip(e, s, i);
    assert i + Width(e) == i + |Print(e)|;
  }

  // ------------------------------------------------------------------ two and three operands

  // The descent one rule at a time, each step in a lemma of its own.

  /** The operator characters: none is whitespace, and each names its operation. */
  lemma OperatorChar(op: Operation)
    ensures !IsWhitespace(OpChar(op))
    ensures Multiplicative(op) <==> OpChar(op) == '*' || OpChar(op) == '/'
    ensures !Multiplicative(op) <==> OpChar(op) == '+' || OpChar(op) == '-'
    ensures Multiplicative(op) ==> op == (if OpChar(op) == '/' then Divide else Multiply)
    ensures !Multiplicative(op) ==> op == (if OpChar(op) == '-' then Subtract else Add)
  {
  }

  lemma FactorsUntilAdditive(s: string, i: nat, e: Expr, j: nat, op: Operation)
    requires AtomReads(s, i, e, j) && j < |s| && s[j] == OpChar(op) && !Multiplicative(op)
    ensures ParseFactors(s, i) == Ok((e, j))
  {
    OperatorChar(op);
    FactorsOfAtom(s, i, e, j);
  }

  lemma FactorsToEnd(s: string, i: nat, e: Expr)
    requires AtomReads(s, i, e, |s|)
    ensures ParseFactors(s, i) == Ok((e, |s|))
  {
    FactorsOfAtom(s, i, e, |s|);
  }

  /** `a op b` with a multiplicative `op`, up to `n`. */
  lemma FactorsTwo(s: string, i: nat, a: Expr, op: Operation, b: Expr, j: nat, n: nat)
    requires Multiplicative(op) && AtomReads(s, i, a, j) && j < |s| && s[j] == OpChar(op)
    requires AtomReads(s, j + 1, b, n) && (n == |s| || s[n] == '+' || s[n] == '-')
    ensures ParseFactors(s, i) == Ok((MathOp(op, a, b), n))
  {
    OperatorChar(op);
    FactorsOfAtom(s, i, a, j);
    FactorsStep(s, j, a, b, n);
  }

  /** `a o1 b o2 c` with both operators multiplicative. */
  lemma FactorsThree(s: string, a: Expr, o1: Operation, b: Expr, o2: Operation, c: Expr, j1: nat, j2: nat)
    requires Multiplicative(o1) && Multiplicative(o2) && ChainReads(s, a, o1, b, o2, c, j1, j2)
    ensures ParseFactors(s, 0) == Ok((MathOp(o2, MathOp(o1, a, b), c), |s|))
  {
    OperatorChar(o1);
    OperatorChar(o2);
    FactorsOfAtom(s, 0, a, j1);
    FactorsStep(s, j1, a, b, j2);
    FactorsStep(s, j2, MathOp(o1, a, b), c, |s|);
  }

  lemma SummandsToEnd(s: string, i: nat, e: Expr)
    requires i <= |s| && ParseFactors(s, i) == Ok((e, |s|))
    ensures ParseSummands(s, i) == Ok((e, |s|))
  {
    SummandsOfFactors(s, i, e, |s|);
  }

  /** `a op b` with an additive `op`, to the end. */
  lemma SummandsTwo(s: string, a: Expr, op: Operation, b: Expr, j: nat)
    requires !Multiplicative(op) && j < |s| && s[j] == OpChar(op)
    requires ParseFactors(s, 0) == Ok((a, j)) && ParseFactors(s, j + 1) == Ok((b, |s|))
    ensures ParseSummands(s, 0) == Ok((MathOp(op, a, b), |s|))
  {
    OperatorChar(op);
    SummandsOfFactors(s, 0, a, j);
    SummandsStep(s, j, a, b, |s|);
  }

  /** `a o1 b o2 c` with both operators additive. */
  lemma SummandsThree(s: string, a: Expr, o1: Operation, b: Expr, o2: Operation, c: Expr, j1: nat, j2: nat)
    requires !Multiplicative(o1) && !Multiplicative(o2) && j1 < j2 < |s| && s[j1] == OpChar(o1) && s[j2] == OpChar(o2)
    requires ParseFactors(s, 0) == Ok((a, j1)) && ParseFactors(s, j1 + 1) == Ok((b, j2))
    requires ParseFactors(s, j2 + 1) == Ok((c, |s|))
    ensures ParseSummands(s, 0) == Ok((MathOp(o2, MathOp(o1, a, b), c), |s|))
  {
    OperatorChar(o1);
    OperatorChar(o2);
    SummandsOfFactors(s, 0, a, j1);
    SummandsStep(s, j1, a, b, j2);
    SummandsStep(s, j2, MathOp(o1, a, b), c, |s|);
  }

  lemma ExpressionOfSummands(s: string, e: Expr)
    requires |s| > 0 && ParseSummands(s, 0) == Ok((e, |s|))
    ensures ParseExpression(s) == Ok(e)
  {
  }

  /** `a op b` is one operation. */
  lemma Binary(s: string, a: Expr, op: Operation, b: Expr, j: nat)
    requires AtomReads(s, 0, a, j) && j < |s| && s[j] == OpChar(op) && AtomReads(s, j + 1, b, |s|)
    ensures ParseExpression(s) == Ok(MathOp(op, a, b))
  {
    if Multiplicative(op) {
      FactorsTwo(s, 0, a, op, b, j, |s|);
      SummandsToEnd(s, 0, MathOp(op, a, b));
    } else {
      FactorsUntilAdditive(s, 0, a, j, op);
      FactorsToEnd(s, j + 1, b);
      SummandsTwo(s, a, op, b, j);
    }
    ExpressionOfSummands(s, MathOp(op, a, b));
  }

  predicate ChainReads(s: string, a: Expr, o1: Operation, b: Expr, o2: Operation, c: Expr, j1: nat, j2: nat) {
    AtomReads(s, 0, a, j1) && j1 < |s| && s[j1] == OpChar(o1)
    && AtomReads(s, j1 + 1, b, j2) && j2 < |s| && s[j2] == OpChar(o2)
    && AtomReads(s, j2 + 1, c, |s|)
  }

  lemma ChainBothTight(s: string, a: Expr, o1: Operation, b: Expr, o2: Operation, c: Expr, j1: nat, j2: nat)
    requires ChainReads(s, a, o1, b, o2, c, j1, j2) && Multiplicative(o1) && Multiplicative(o2)
    ensures ParseSummands(s, 0) == Ok((MathOp(o2, MathOp(o1, a, b), c), |s|))
  {
    FactorsThree(s, a, o1, b, o2, c, j1, j2);
    SummandsToEnd(s, 0, MathOp(o2, MathOp(o1, a, b), c));
  }

  lemma ChainTightLoose(s: string, a: Expr, o1: Operation, b: Expr, o2: Operation, c: Expr, j1: nat, j2: nat)
    requires ChainReads(s, a, o1, b, o2, c, j1, j2) && Multiplicative(o1) && !Multiplicative(o2)
    ensures ParseSummands(s, 0) == Ok((MathOp(o2, MathOp(o1, a, b), c), |s|))
  {
    FactorsTwo(s, 0, a, o1, b, j1, j2);
    FactorsToEnd(s, j2 + 1, c);
    SummandsTwo(s, MathOp(o1, a, b), o2, c, j2);
  }

  lemma ChainLooseTight(s: string, a: Expr, o1: Operation, b: Expr, o2: Operation, c: Expr, j1: nat, j2: nat)
    requires ChainReads(s, a, o1, b, o2, c, j1, j2) && !Multiplicative(o1) && Multiplicative(o2)
    ensures ParseSummands(s, 0) == Ok((MathOp(o1, a, MathOp(o2, b, c)), |s|))
  {
    FactorsUntilAdditive(s, 0, a, j1, o1);
    FactorsTwo(s, j1 + 1, b, o2, c, j2, |s|);
    SummandsTwo(s, a, o1, MathOp(o2, b, c), j1);
  }

  lemma ChainBothLoose(s: string, a: Expr, o1: Operation, b: Expr, o2: Operation, c: Expr, j1: nat, j2: nat)
    requires ChainReads(s, a, o1, b, o2, c, j1, j2) && !Multiplicative(o1) && !Multiplicative(o2)
    ensures ParseSummands(s, 0) == Ok((MathOp(o2, MathOp(o1, a, b), c), |s|))
  {
    LooseFactors(s, a, o1, b, o2, c, j1, j2);
    SummandsThree(s, a, o1, b, o2, c, j1, j2);
  }

  /** Each operand of an additive chain is a factor of its own. */
  lemma LooseFactors(s: string, a: Expr, o1: Operation, b: Expr, o2: Operation, c: Expr, j1: nat, j2: nat)
    requires ChainReads(s, a, o1, b, o2, c, j1, j2) && !Multiplicative(o1) && !Multiplicative(o2)
    ensures j1 < j2 < |s|
    ensures ParseFactors(s, 0) == Ok((a, j1)) && ParseFactors(s, j1 + 1) == Ok((b, j2))
    ensures ParseFactors(s, j2 + 1) == Ok((c, |s|))
  {
    FactorsUntilAdditive(s, 0, a, j1, o1);
    FactorsUntilAdditive(s, j1 + 1, b, j2, o2);
    FactorsToEnd(s, j2 + 1, c);
  }

  /** Three operands and two operators: '*' and '/' bind tighter than '+'
      and '-', and operators of one level associate to the left. */
  lemma Chain(s: string, a: Expr, o1: Operation, b: Expr, o2: Operation, c: Expr, j1: nat, j2: nat)
    requires ChainReads(s, a, o1, b, o2, c, j1, j2)
    ensures ParseExpression(s) == Ok(ChainTree(a, o1, b, o2, c))
  {
    if Multiplicative(o1) && Multiplicative(o2) {
      ChainBothTight(s, a, o1, b, o2, c, j1, j2);
    } else if Multiplicative(o1) {
      ChainTightLoose(s, a, o1, b, o2, c, j1, j2);
    } else if Multiplicative(o2) {
      ChainLooseTight(s, a, o1, b, o2, c, j1, j2);
    } else {
      ChainBothLoose(s, a, o1, b, o2, c, j1, j2);
    }
    ExpressionOfSummands(s, ChainTree(a, o1, b, o2, c));
  }

  // ------------------------------------------------------------------ placing printed parts

  /** A whole text sits at its own start. */
  lemma Whole(s: string)
    ensures At(s, 0, s)
  {
    SliceAt(s, 0, |s|);
    assert s[0..|s|] == s;
  }

  /** Where the parts of `p + q` sit. */
  lemma Placed2(s: string, p: string, q: string)
    requires At(s, 0, p + q)
    ensures At(s, 0, p) && At(s, |p|, q)
  {
    AtConcat(s, 0, p, q);
  }

  /** Where the parts of `pa o1 pb o2 pc` sit. */
  lemma Placed5(s: string, pa: string, c1: char, pb: string, c2: char, pc: string)
    requires At(s, 0, pa + [c1] + pb + [c2] + pc)
    ensures At(s, 0, pa)
    ensures At(s, |pa| + 1, pb)
    ensures At(s, |pa| + 1 + |pb| + 1, pc)
    ensures |pa| < |s| && s[|pa|] == c1
    ensures |pa| + 1 + |pb| < |s| && s[|pa| + 1 + |pb|] == c2
  {
    AtConcat(s, 0, pa + [c1] + pb + [c2], pc);
    AtConcat(s, 0, pa + [c1] + pb, [c2]);
    AtConcat(s, 0, pa + [c1], pb);
    AtConcat(s, 0, pa, [c1]);
    AtChar(s, |pa|, [c1], 0);
    AtChar(s, |pa| + 1 + |pb|, [c2], 0);
  }

  /** The operands of `a o1 b o2 c` read off its text, one lemma each;
      `j1` and `j2` are where the operators stand. */
  lemma ChainFirst(s: string, a: Expr, o1: Operation, pb: string, c2: char, pc: string, j1: nat)
    requires Canonical(a) && At(s, 0, Print(a) + [OpChar(o1)] + pb + [c2] + pc) && j1 == |Print(a)|
    ensures j1 < |s| && s[j1] == OpChar(o1) && AtomReads(s, 0, a, j1)
  {
    Placed5(s, Print(a), OpChar(o1), pb, c2, pc);
    OperandBefore(s, 0, a, o1, j1);
  }

  lemma ChainSecond(s: string, pa: string, c1: char, b: Expr, o2: Operation, pc: string, j1: nat, j2: nat)
    requires Canonical(b) && At(s, 0, pa + [c1] + Print(b) + [OpChar(o2)] + pc)
    requires j1 == |pa| && j2 == j1 + 1 + |Print(b)|
    ensures j2 < |s| && s[j2] == OpChar(o2) && AtomReads(s, j1 + 1, b, j2)
  {
    Placed5(s, pa, c1, Print(b), OpChar(o2), pc);
    OperandBefore(s, j1 + 1, b, o2, j2);
  }

  /** A printed operand followed by an operator at `j` is one atom ending at `j`. */
  lemma OperandBefore(s: string, i: nat, e: Expr, op: Operation, j: nat)
    requires Canonical(e) && At(s, i, Print(e)) && j == i + |Print(e)| && j < |s| && s[j] == OpChar(op)
    ensures AtomReads(s, i, e, j)
  {
    OperatorChar(op);
    PrintedAtom(s, i, e);
  }

  lemma ChainThird(s: string, pa: string, c1: char, pb: string, c2: char, c: Expr, j2: nat)
    requires Canonical(c) && s == pa + [c1] + pb + [c2] + Print(c) && j2 == |pa| + 1 + |pb|
    ensures AtomReads(s, j2 + 1, c, |s|)
  {
    assert j2 + 1 + |Print(c)| == |s|;
    Whole(s);
    Placed5(s, pa, c1, pb, c2, Print(c));
    PrintedAtomToEnd(s, j2 + 1, c);
  }

  /** A printed operand that ends the text is one atom. */
  lemma PrintedAtomToEnd(s: string, i: nat, e: Expr)
    requires Canonical(e) && At(s, i, Print(e)) && i + |Print(e)| == |s|
    ensures AtomReads(s, i, e, |s|)
  {
    PrintedAtom(s, i, e);
  }

  /** The law on printed operands: for any canonical `a`, `b`, `c` and any
      two operators, the text `a o1 b o2 c` parses to `ChainTree`. */
  lemma PrintedChain(a: Expr, o1: Operation, b: Expr, o2: Operation, c: Expr)
    requires Canonical(a) && Canonical(b) && Canonical(c)
    ensures ParseExpression(Print(a) + [OpChar(o1)] + Print(b) + [OpChar(o2)] + Print(c)) == Ok(ChainTree(a, o1, b, o2, c))
  {
    var s := Print(a) + [OpChar(o1)] + Print(b) + [OpChar(o2)] + Print(c);
    var j1 := |Print(a)|;
    var j2 := j1 + 1 + |Print(b)|;
    Whole(s);
    ChainFirst(s, a, o1, Print(b), OpChar(o2), Print(c), j1);
    ChainSecond(s, Print(a), OpChar(o1), b, o2, Print(c), j1, j2);
    ChainThird(s, Print(a), OpChar(o1), Print(b), OpChar(o2), c, j2);
    Chain(s, a, o1, b, o2, c, j1, j2);
  }

  // ------------------------------------------------------------------ malformed texts

  /** A printed operand followed by a character that is not part of it. */
  lemma PrintedThenChar(s: string, e: Expr, c: char)
    requires Canonical(e) && s == Print(e) + [c] && EndsAtom(s, |Print(e)|)
    ensures |s| == |Print(e)| + 1 && s[|Print(e)|] == c
    ensures AtomReads(s, 0, e, |Print(e)|)
  {
    Whole(s);
    Placed2(s, Print(e), [c]);
    AtChar(s, |Print(e)|, [c], 0);
    PrintedAtom(s, 0, e);
  }

  /** An operator with nothing after it: a number was expected. */
  lemma MissingOperand(e: Expr, op: Operation)
    requires Canonical(e)
    ensures ParseExpression(Print(e) + [OpChar(op)]) == Err(ExpectedNumber)
  {
    var s := Print(e) + [OpChar(op)];
    OperatorChar(op);
    PrintedThenChar(s, e, OpChar(op));
    FactorsOfAtom(s, 0, e, |Print(e)|);
    if Multiplicative(op) {
      MissingFactor(s, e, |Print(e)|);
    } else {
      MissingSummand(s, e, |Print(e)|);
    }
  }

  lemma NothingAtEnd(s: string)
    ensures ParseAtom(s, |s|) == Err(ExpectedNumber)
  {
    assert SkipWhitespaceAt(s, |s|) == |s|;
  }

  lemma MissingFactor(s: string, e: Expr, k: nat)
    requires k + 1 == |s| && (s[k] == '*' || s[k] == '/') && ParseFactors(s, 0) == FactorsLoop(s, e, k)
    ensures ParseExpression(s) == Err(ExpectedNumber)
  {
    NothingAtEnd(s);
    assert ParseFactors(s, 0) == Err(ExpectedNumber);
  }

  lemma MissingSummand(s: string, e: Expr, k: nat)
    requires k + 1 == |s| && (s[k] == '+' || s[k] == '-') && ParseFactors(s, 0) == FactorsLoop(s, e, k)
    ensures ParseExpression(s) == Err(ExpectedNumber)
  {
    NothingAtEnd(s);
    assert ParseFactors(s, k + 1) == Err(ExpectedNumber);
    SummandsOfFactors(s, 0, e, k);
  }

  /** A closing parenthesis with no opening one is a wrong character. */
  lemma StrayCloser(e: Expr)
    requires Canonical(e)
    ensures ParseExpression(Print(e) + ")") == Err(WrongChar)
  {
    var s := Print(e) + ")";
    PrintedThenChar(s, e, ')');
    StopsBeforeCloser(s, e, |Print(e)|);
  }

  lemma StopsBeforeCloser(s: string, e: Expr, k: nat)
    requires k < |s| && s[k] == ')' && AtomReads(s, 0, e, k)
    ensures ParseExpression(s) == Err(WrongChar)
  {
    FactorsOfAtom(s, 0, e, k);
    SummandsOfFactors(s, 0, e, k);
  }

  /** An opening parenthesis that is never closed. */
  lemma MissingCloser(e: Expr)
    requires Canonical(e)
    ensures ParseExpression("(" + Print(e)) == Err(Parenthesis)
  {
    var s := "(" + Print(e);
    Whole(s);
    Placed2(s, "(", Print(e));
    PrintedAtom(s, 1, e);
    UnclosedGroup(s, e);
  }

  lemma UnclosedGroup(s: string, e: Expr)
    requires |s| > 0 && s[0] == '(' && AtomReads(s, 1, e, |s|)
    ensures ParseExpression(s) == Err(Parenthesis)
  {
    FactorsOfAtom(s, 1, e, |s|);
    SummandsOfFactors(s, 1, e, |s|);
    assert ParseParenthesised(s, 0) == Err(Parenthesis);
    assert SkipWhitespaceAt(s, 0) == 0 && ReadSignsAt(s, 0) == (false, 0);
    assert ParseAtom(s, 0) == Err(Parenthesis);
    assert ParseFactors(s, 0) == Err(Parenthesis);
    assert ParseSummands(s, 0) == Err(Parenthesis);
  }

  /** A letter where an operand should be names a function, and no
      function is defined. */
  lemma IdentifierIsUnknownFunction(s: string)
    requires |s| > 0 && IsIdentifierChar(s[0]) && !IsNumberChar(s[0])
    ensures ParseExpression(s) == Err(UnknownFunction(s, 0))
  {
    assert s[0] != '"' && s[0] != '(';
    assert SkipWhitespaceAt(s, 0) == 0 && ReadSignsAt(s, 0) == (false, 0);
    assert ParseSingle(s, 0) == Err(UnknownFunction(s, 0));
    assert ParseAtom(s, 0) == Err(UnknownFunction(s, 0));
    assert ParseFactors(s, 0) == Err(UnknownFunction(s, 0));
  }

  // ------------------------------------------------------------------ the front end's examples

  function Int(n: int): Expr {
    Const(IntConst(n))
  }

  lemma DigitText(d: nat)
    requires d < 10
    ensures Print(Int(d)) == [DigitChar(d)]
  {
  }

  /** "1+2*3" is 1 + (2 * 3), which is 7. */
  lemma PrecedenceExample(s: string)
    requires s == "1" + "+" + "2" + "*" + "3"
    ensures ParseExpression(s) == Ok(MathOp(Add, Int(1), MathOp(Multiply, Int(2), Int(3))))
    ensures Evaluate(MathOp(Add, Int(1), MathOp(Multiply, Int(2), Int(3)))) == Ok(Int(7))
  {
    DigitText(1);
    DigitText(2);
    DigitText(3);
    PrintedChain(Int(1), Add, Int(2), Multiply, Int(3));
  }

  /** "8-3-2" is (8 - 3) - 2, which is 3. */
  lemma AssociativityExample(s: string)
    requires s == "8" + "-" + "3" + "-" + "2"
    ensures ParseExpression(s) == Ok(MathOp(Subtract, MathOp(Subtract, Int(8), Int(3)), Int(2)))
    ensures Evaluate(MathOp(Subtract, MathOp(Subtract, Int(8), Int(3)), Int(2))) == Ok(Int(3))
  {
    DigitText(8);
    DigitText(3);
    DigitText(2);
    PrintedChain(Int(8), Subtract, Int(3), Subtract, Int(2));
  }

  /** "--2" is 2. */
  lemma DoubleMinusExample(s: string)
    requires s == "--" + "2"
    ensures ParseExpression(s) == Ok(Int(2))
  {
    DigitText(2);
    SliceAt(s, 0, |s|);
    assert s[0..|s|] == s;
    assert Count('-', "--") == 2;
    SignedAtom(s, 0, "--", Int(2));
    ExpressionOfAtom(s, Int(2));
  }

  /** A digit and an operator start the text. */
  lemma DigitFirst(s: string, a: nat, op: Operation, rest: string)
    requires a < 10 && At(s, 0, [DigitChar(a)] + [OpChar(op)] + rest)
    ensures 1 < |s| && s[1] == OpChar(op) && AtomReads(s, 0, Int(a), 1) && At(s, 2, rest)
  {
    DigitText(a);
    AtConcat(s, 0, [DigitChar(a)] + [OpChar(op)], rest);
    AtConcat(s, 0, [DigitChar(a)], [OpChar(op)]);
    AtChar(s, 1, [OpChar(op)], 0);
    OperatorChar(op);
    PrintedAtom(s, 0, Int(a));
  }

  /** Signs and an operand that end the text are one atom. */
  lemma SignedLast(s: string, i: nat, signs: string, x: Expr)
    requires Unsigned(x) && IsSignRun(signs) && At(s, i, signs + Print(x)) && i + |signs| + |Print(x)| == |s|
    ensures AtomReads(s, i, Signed(Count('-', signs) % 2 == 1, x), |s|)
  {
    SignedAtom(s, i, signs, x);
  }

  /** An operand, an operator, then signs and an operand. */
  lemma SignedSecondOperand(s: string, a: nat, op: Operation, signs: string, b: nat)
    requires a < 10 && b < 10 && IsSignRun(signs)
    requires s == [DigitChar(a)] + [OpChar(op)] + (signs + [DigitChar(b)])
    ensures ParseExpression(s) == Ok(MathOp(op, Int(a), Signed(Count('-', signs) % 2 == 1, Int(b))))
  {
    DigitText(b);
    assert |s| == 2 + |signs| + |Print(Int(b))|;
    Whole(s);
    DigitFirst(s, a, op, signs + Print(Int(b)));
    SignedLast(s, 2, signs, Int(b));
    Binary(s, Int(a), op, Signed(Count('-', signs) % 2 == 1, Int(b)), 1);
  }

  /** "2---2" is 2 - 2, "2-+-2" is 2 - (-2) and "1+-2" is 1 + (-2). */
  lemma SignRunExamples(s1: string, s2: string, s3: string)
    requires s1 == "2" + "-" + ("--" + "2")
    requires s2 == "2" + "-" + ("+-" + "2")
    requires s3 == "1" + "+" + ("-" + "2")
    ensures ParseExpression(s1) == Ok(MathOp(Subtract, Int(2), Int(2)))
    ensures ParseExpression(s2) == Ok(MathOp(Subtract, Int(2), Int(-2)))
    ensures ParseExpression(s3) == Ok(MathOp(Add, Int(1), Int(-2)))
    ensures Evaluate(MathOp(Subtract, Int(2), Int(2))) == Ok(Int(0))
    ensures Evaluate(MathOp(Subtract, Int(2), Int(-2))) == Ok(Int(4))
    ensures Evaluate(MathOp(Add, Int(1), Int(-2))) == Ok(Int(-1))
  {
    assert Count('-', "--") == 2 && Count('-', "+-") == 1 && Count('-', "-") == 1;
    SignedSecondOperand(s1, 2, Subtract, "--", 2);
    SignedSecondOperand(s2, 2, Subtract, "+-", 2);
    SignedSecondOperand(s3, 1, Add, "-", 2);
  }

  /** A printed digit that ends the text is one atom. */
  lemma DigitLast(s: string, pre: string, b: nat, k: nat)
    requires b < 10 && s == pre + [DigitChar(b)] && k == |pre|
    ensures AtomReads(s, k, Int(b), |s|)
  {
    DigitText(b);
    Whole(s);
    Placed2(s, pre, Print(Int(b)));
    PrintedAtomToEnd(s, k, Int(b));
  }

  /** Signs and an operand, then an operator: the signed operand is the
      first atom, and the operator stands at `j`. */
  lemma SignedFirst(s: string, signs: string, x: Expr, op: Operation, rest: string, j: nat)
    requires Unsigned(x) && IsSignRun(signs) && At(s, 0, signs + Print(x) + [OpChar(op)] + rest)
    requires j == |signs| + |Print(x)|
    ensures j < |s| && s[j] == OpChar(op) && AtomReads(s, 0, Signed(Count('-', signs) % 2 == 1, x), j)
  {
    CharAfter(s, signs + Print(x), OpChar(op), rest, j);
    OperatorChar(op);
    SignedAtom(s, 0, signs, x);
  }

  /** Text `w`, then the character `c`, at the start: `c` stands at `|w|`. */
  lemma CharAfter(s: string, w: string, c: char, rest: string, j: nat)
    requires At(s, 0, w + [c] + rest) && j == |w|
    ensures At(s, 0, w) && j < |s| && s[j] == c
  {
    AtConcat(s, 0, w + [c], rest);
    AtConcat(s, 0, w, [c]);
    AtChar(s, j, [c], 0);
  }

  /** A signed operand, an operator and a digit. */
  lemma SignedThenDigit(s: string, signs: string, x: Expr, op: Operation, b: nat)
    requires Unsigned(x) && IsSignRun(signs) && b < 10
    requires s == signs + Print(x) + [OpChar(op)] + [DigitChar(b)]
    ensures ParseExpression(s) == Ok(MathOp(op, Signed(Count('-', signs) % 2 == 1, x), Int(b)))
  {
    var j := |signs| + |Print(x)|;
    Whole(s);
    SignedFirst(s, signs, x, op, [DigitChar(b)], j);
    DigitLast(s, signs + Print(x) + [OpChar(op)], b, j + 1);
    Binary(s, Signed(Count('-', signs) % 2 == 1, x), op, Int(b), j);
  }

  /** "-(2+1)*4" is -(2 + 1) * 4, which is -12. */
  lemma NegatedGroupExample(s: string)
    requires s == "-" + "(2+1)" + "*" + "4"
    ensures ParseExpression(s) == Ok(MathOp(Multiply, Negate(MathOp(Add, Int(2), Int(1))), Int(4)))
    ensures Evaluate(MathOp(Multiply, Negate(MathOp(Add, Int(2), Int(1))), Int(4))) == Ok(Int(-12))
  {
    var group := MathOp(Add, Int(2), Int(1));
    DigitText(2);
    DigitText(1);
    assert Print(group) == "(2+1)";
    assert Count('-', "-") == 1;
    assert s == "-" + Print(group) + [OpChar(Multiply)] + [DigitChar(4)];
    SignedThenDigit(s, "-", group, Multiply, 4);
  }
}

=== FILE: expression_laws.dfy ===
/** A fully parenthesised printer for expressions and the proof that the
    parser reads its output back. The positional facts proved here (what
    text sits where, and what each parsing rule reads there) are reused by
    the grammar laws in ExpressionGrammar. */
module ExpressionLaws {
  import opened Results
  import opened Text
  import opened ParserPrimitives
  import opened Expressions

  function OpChar(op: Operation): char {
    match op
    case Add => '+'
    case Subtract => '-'
    case Multiply => '*'
    case Divide => '/'
  }

  function IntText(i: int): string {
    if i < 0 then "-" + NatToDecimal(-i) else NatToDecimal(i)
  }

  function Print(e: Expr): string {
    match e
    case Const(IntConst(i)) => IntText(i)
    case Const(FloatConst(l, n)) => (if n then "-" else "") + l
    case Const(StringConst(s)) => "\"" + s + "\""
    case MathOp(op, l, r) => "(" + Print(l) + [OpChar(op)] + Print(r) + ")"
    case Negate(x) => "-" + Print(x)
  }

  /** Literal text the number reader takes whole and reads as a float. */
  predicate FloatText(l: string) {
    FloatPrefixValid(l) && '.' in l && forall i :: 0 <= i < |l| ==> IsNumberChar(l[i])
  }

  /** The expressions the printer round-trips: numeric constants are never
      wrapped in `Negate` (the parser folds their sign), nor is a `Negate`
      (a double sign read before an atom cancels). */
  predicate Canonical(e: Expr) {
    match e
    case Const(IntConst(_)) => true
    case Const(FloatConst(l, _)) => FloatText(l)
    case Const(StringConst(s)) => '"' !in s
    case MathOp(_, l, r) => Canonical(l) && Canonical(r)
    case Negate(x) => (x.MathOp? || (x.Const? && x.c.StringConst?)) && Canonical(x)
  }

  /** The text `w` sits in `s` at position `i`, character by character. */
  predicate At(s: string, i: nat, w: string)
    decreases |w|
  {
    if |w| == 0 then i <= |s| else i < |s| && s[i] == w[0] && At(s, i + 1, w[1..])
  }

  /** What may follow an atom without being read into it: the end, a
      closing parenthesis or an operator. */
  predicate EndsAtom(s: string, k: nat) {
    k >= |s| || s[k] == ')' || s[k] == '+' || s[k] == '-' || s[k] == '*' || s[k] == '/'
  }

  lemma {:induction false} AtBounds(s: string, i: nat, w: string)
    requires At(s, i, w)
    ensures i + |w| <= |s|
    decreases |w|
  {
    if |w| > 0 {
      AtBounds(s, i + 1, w[1..]);
    }
  }

  lemma {:induction false} AtConcat(s: string, i: nat, a: string, b: string)
    requires At(s, i, a + b)
    ensures At(s, i, a) && At(s, i + |a|, b)
    decreases |a|
  {
    if |a| == 0 {
      assert a + b == b;
    } else {
      assert (a + b)[1..] == a[1..] + b;
      AtConcat(s, i + 1, a[1..], b);
    }
  }

  lemma {:induction false} AtChar(s: string, i: nat, w: string, k: nat)
    requires At(s, i, w) && k < |w|
    ensures i + k < |s| && s[i + k] == w[k]
    decreases k
  {
    if k > 0 {
      AtChar(s, i + 1, w[1..], k - 1);
    }
  }

  /** `At` agrees with the slice of `s` it names. */
  lemma {:induction false} AtSlice(s: string, i: nat, w: string)
    requires At(s, i, w)
    ensures i + |w| <= |s| && s[i..i + |w|] == w
  {
    AtBounds(s, i, w);
    forall k | 0 <= k < |w| ensures s[i..i + |w|][k] == w[k] {
      AtChar(s, i, w, k);
    }
  }

  lemma {:induction false} SliceAt(s: string, i: nat, j: nat)
    requires i <= j <= |s|
    ensures At(s, i, s[i..j])
    decreases j - i
  {
    if i < j {
      assert s[i..j][1..] == s[i + 1..j];
      SliceAt(s, i + 1, j);
    }
  }

  // ------------------------------------------------------------------ where the printer puts things

  /** The length of the printed text, counted without building it. */
  function Width(e: Expr): (w: nat)
    ensures w > 0
  {
    match e
    case Const(IntConst(n)) => if n < 0 then 1 + |NatToDecimal(-n)| else |NatToDecimal(n)|
    case Const(FloatConst(l, negated)) => (if negated then 1 else 0) + |l| + (if |l| == 0 then 1 else 0)
    case Const(StringConst(x)) => |x| + 2
    case MathOp(_, l, r) => Width(l) + Width(r) + 3
    case Negate(x) => Width(x) + 1
  }

  /** Decimal digits from `k` up to `j`. */
  predicate DigitRun(s: string, k: nat, j: nat) {
    k < j <= |s| && AllDigits(s[k..j])
  }

  /** A quoted text from `k` to the closing quote at `j`. */
  predicate QuotedRun(s: string, k: nat, j: nat) {
    k < j < |s| && s[k] == '"' && s[j] == '"' && forall m :: k < m < j ==> s[m] != '"'
  }

  /** The parts of `e` sit in `s` from `i` on where the printer puts them:
      a literal's characters, or '(' , the left operand, the operator, the
      right operand and ')', or '-' and the negated operand. Only the
      shapes the parser produces have a layout. */
  predicate Layout(s: string, i: nat, e: Expr)
    decreases e
  {
    i + Width(e) <= |s| &&
    match e
    case Const(IntConst(n)) =>
      if n < 0 then s[i] == '-' && DigitRun(s, i + 1, i + Width(e)) && DecimalValue(s[i + 1..i + Width(e)]) == -n
      else DigitRun(s, i, i + Width(e)) && DecimalValue(s[i..i + Width(e)]) == n
    case Const(FloatConst(l, negated)) =>
      FloatText(l) && if negated then s[i] == '-' && s[i + 1..i + Width(e)] == l else s[i..i + Width(e)] == l
    case Const(StringConst(x)) =>
      QuotedRun(s, i, i + Width(e) - 1) && s[i + 1..i + Width(e) - 1] == x
    case MathOp(op, l, r) =>
      s[i] == '(' && Layout(s, i + 1, l) && s[i + 1 + Width(l)] == OpChar(op)
      && Layout(s, i + 2 + Width(l), r) && s[i + 2 + Width(l) + Width(r)] == ')'
    case Negate(x) =>
      (x.MathOp? || (x.Const? && x.c.StringConst?)) && s[i] == '-' && Layout(s, i + 1, x)
  }

  lemma IntLayout(n: int, s: string, i: nat)
    requires At(s, i, Print(Const(IntConst(n))))
    ensures |Print(Const(IntConst(n)))| == Width(Const(IntConst(n)))
    ensures Layout(s, i, Const(IntConst(n)))
  {
    var d := NatToDecimal(if n < 0 then -n else n);
    var k := if n < 0 then i + 1 else i;
    if n < 0 {
      AtConcat(s, i, "-", d);
      AtChar(s, i, "-", 0);
    }
    AtSlice(s, k, d);
    DecimalRoundTrip(if n < 0 then -n else n);
  }

  lemma FloatLayout(l: string, negated: bool, s: string, i: nat)
    requires FloatText(l) && At(s, i, Print(Const(FloatConst(l, negated))))
    ensures |Print(Const(FloatConst(l, negated)))| == Width(Const(FloatConst(l, negated)))
    ensures Layout(s, i, Const(FloatConst(l, negated)))
  {
    assert |l| > 0;
    var k := if negated then i + 1 else i;
    assert Width(Const(FloatConst(l, negated))) == k - i + |l|;
    if negated {
      AtConcat(s, i, "-", l);
      AtChar(s, i, "-", 0);
    } else {
      assert Print(Const(FloatConst(l, negated))) == l;
    }
    AtSlice(s, k, l);
  }

  lemma StringLayout(x: string, s: string, i: nat)
    requires '"' !in x && At(s, i, Print(Const(StringConst(x))))
    ensures |Print(Const(StringConst(x)))| == Width(Const(StringConst(x)))
    ensures Layout(s, i, Const(StringConst(x)))
  {
    AtConcat(s, i, "\"" + x, "\"");
    AtConcat(s, i, "\"", x);
    AtChar(s, i, "\"", 0);
    AtChar(s, i + 1 + |x|, "\"", 0);
    AtSlice(s, i + 1, x);
    forall m | i < m < i + 1 + |x| ensures s[m] != '"' {
      AtChar(s, i + 1, x, m - i - 1);
    }
  }

  /** The parts of a printed operation, each at its place. */
  lemma MathOpParts(s: string, i: nat, op: Operation, l: Expr, r: Expr)
    requires At(s, i, Print(MathOp(op, l, r)))
    ensures i + |Print(l)| + |Print(r)| + 3 <= |s|
    ensures s[i] == '(' && At(s, i + 1, Print(l))
    ensures s[i + 1 + |Print(l)|] == OpChar(op) && At(s, i + 2 + |Print(l)|, Print(r))
    ensures s[i + 2 + |Print(l)| + |Print(r)|] == ')'
    ensures |Print(MathOp(op, l, r))| == |Print(l)| + |Print(r)| + 3
  {
    var pl, pr := Print(l), Print(r);
    assert Print(MathOp(op, l, r)) == "(" + pl + [OpChar(op)] + pr + ")";
    AtConcat(s, i, "(" + pl + [OpChar(op)] + pr, ")");
    AtConcat(s, i, "(" + pl + [OpChar(op)], pr);
    AtConcat(s, i, "(" + pl, [OpChar(op)]);
    AtConcat(s, i, "(", pl);
    AtChar(s, i, "(", 0);
    AtChar(s, i + 1 + |pl|, [OpChar(op)], 0);
    AtChar(s, i + 2 + |pl| + |pr|, ")", 0);
    AtBounds(s, i, Print(MathOp(op, l, r)));
  }

  /** Printed text has the layout of the expression it prints. */
  lemma {:induction false} PrintLayout(e: Expr, s: string, i: nat)
    requires Canonical(e) && At(s, i, Print(e))
    ensures |Print(e)| == Width(e) && Layout(s, i, e)
    decreases e
  {
    match e
    case Const(IntConst(n)) => IntLayout(n, s, i);
    case Const(FloatConst(l, negated)) => FloatLayout(l, negated, s, i);
    case Const(StringConst(x)) => StringLayout(x, s, i);
    case MathOp(op, l, r) =>
      MathOpParts(s, i, op, l, r);
      PrintLayout(l, s, i + 1);
      PrintLayout(r, s, i + 2 + |Print(l)|);
      AtBounds(s, i, Print(e));
    case Negate(x) =>
      AtConcat(s, i, "-", Print(x));
      AtChar(s, i, "-", 0);
      PrintLayout(x, s, i + 1);
      AtBounds(s, i, Print(e));
  }

  // ------------------------------------------------------------------ literals read back

  lemma DigitRunSingle(s: string, k: nat, j: nat)
    requires DigitRun(s, k, j) && EndsAtom(s, j)
    ensures ParseSingle(s, k) == Ok((Const(IntConst(DecimalValue(s[k..j]))), j))
  {
    forall m | k <= m < j ensures IsNumberChar(s[m]) {
      assert s[m] == s[k..j][m - k];
    }
    ScanWhileEnds(s, k, IsNumberChar, j);
    assert '.' !in s[k..j];
  }

  lemma FloatRunSingle(s: string, k: nat, j: nat, l: string)
    requires k < j <= |s| && s[k..j] == l && FloatText(l) && EndsAtom(s, j)
    ensures ParseSingle(s, k) == Ok((Const(FloatConst(l, false)), j))
  {
    forall m | k <= m < j ensures IsNumberChar(s[m]) {
      assert s[m] == l[m - k];
    }
    ScanWhileEnds(s, k, IsNumberChar, j);
  }

  lemma QuotedRunSingle(s: string, k: nat, j: nat)
    requires QuotedRun(s, k, j)
    ensures ParseSingle(s, k) == Ok((Const(StringConst(s[k + 1..j])), j + 1))
  {
    ScanWhileEnds(s, k + 1, IsNotQuote, j);
  }

  // ------------------------------------------------------------------ the atom's prefix

  /** A character that ends the atom's whitespace-and-sign prefix. */
  predicate StartsBody(c: char) {
    !IsWhitespace(c) && c != '-' && c != '+'
  }

  lemma AtomOfSingle(s: string, i: nat, e: Expr, j: nat)
    requires i < |s| && StartsBody(s[i]) && s[i] != '('
    requires ParseSingle(s, i) == Ok((e, j))
    ensures ParseAtom(s, i) == Ok((e, j))
  {
    assert SkipWhitespaceAt(s, i) == i;
    assert ReadSignsAt(s, i) == (false, i);
  }

  lemma AtomOfNegatedSingle(s: string, i: nat, e: Expr, j: nat)
    requires i + 1 < |s| && s[i] == '-' && StartsBody(s[i + 1]) && s[i + 1] != '('
    requires ParseSingle(s, i + 1) == Ok((e, j))
    ensures ParseAtom(s, i) == Ok((NegateExpression(e), j))
  {
    assert SkipWhitespaceAt(s, i) == i;
    var t := ReadSignsAt(s, i + 1);
    assert t == (false, i + 1);
    assert ReadSignsAt(s, i) == ((s[i] == '-') != t.0, t.1);
  }

  lemma AtomOfParenthesised(s: string, i: nat, e: Expr, j: nat)
    requires i < |s| && s[i] == '('
    requires ParseParenthesised(s, i) == Ok((e, j))
    ensures ParseAtom(s, i) == Ok((e, j))
  {
    assert SkipWhitespaceAt(s, i) == i;
    assert ReadSignsAt(s, i) == (false, i);
  }

  lemma AtomOfNegatedParenthesised(s: string, i: nat, e: Expr, j: nat)
    requires i + 1 < |s| && s[i] == '-' && s[i + 1] == '('
    requires ParseParenthesised(s, i + 1) == Ok((e, j))
    ensures ParseAtom(s, i) == Ok((NegateExpression(e), j))
  {
    assert SkipWhitespaceAt(s, i) == i;
    var t := ReadSignsAt(s, i + 1);
    assert t == (false, i + 1);
    assert ReadSignsAt(s, i) == ((s[i] == '-') != t.0, t.1);
  }

  // ------------------------------------------------------------------ the descent, one step at a time

  lemma FactorsOfAtom(s: string, i: nat, e: Expr, j: nat)
    requires i <= j <= |s| && ParseAtom(s, i) == Ok((e, j))
    requires j == |s| || !IsWhitespace(s[j])
    ensures ParseFactors(s, i) == FactorsLoop(s, e, j)
  {
    assert SkipWhitespaceAt(s, j) == j;
  }

  lemma FactorsStep(s: string, k: nat, acc: Expr, e: Expr, j: nat)
    requires k < |s| && (s[k] == '*' || s[k] == '/')
    requires k < j <= |s| && ParseAtom(s, k + 1) == Ok((e, j))
    requires j == |s| || !IsWhitespace(s[j])
    ensures FactorsLoop(s, acc, k) == FactorsLoop(s, MathOp(if s[k] == '/' then Divide else Multiply, acc, e), j)
  {
    assert SkipWhitespaceAt(s, j) == j;
  }

  lemma SummandsOfFactors(s: string, i: nat, e: Expr, j: nat)
    requires i <= j <= |s| && ParseFactors(s, i) == Ok((e, j))
    ensures ParseSummands(s, i) == SummandsLoop(s, e, j)
  {
  }

  lemma SummandsStep(s: string, k: nat, acc: Expr, e: Expr, j: nat)
    requires k < |s| && (s[k] == '+' || s[k] == '-')
    requires k < j <= |s| && ParseFactors(s, k + 1) == Ok((e, j))
    requires j == |s| || !IsWhitespace(s[j])
    ensures SummandsLoop(s, acc, k) == SummandsLoop(s, MathOp(if s[k] == '-' then Subtract else Add, acc, e), j)
  {
    assert SkipWhitespaceAt(s, j) == j;
  }

  lemma CloseParenthesis(s: string, i: nat, e: Expr, d: nat)
    requires i < |s| && s[i] == '(' && i < d < |s| && s[d] == ')'
    requires ParseSummands(s, i + 1) == Ok((e, d))
    ensures ParseParenthesised(s, i) == Ok((e, d + 1))
  {
    assert SkipWhitespaceAt(s, d) == d;
  }

  // ------------------------------------------------------------------ the round trip

  predicate AtomReads(s: string, i: nat, e: Expr, j: nat) {
    i <= |s| && ParseAtom(s, i) == Ok((e, j))
  }

  predicate ParenReads(s: string, i: nat, e: Expr, j: nat) {
    i < |s| && s[i] == '(' && ParseParenthesised(s, i) == Ok((e, j))
  }

  /** A parenthesised operation whose operands read back reads back whole:
      '(' at `i`, the operator at `b`, the right operand from `c`, ')' at `d`. */
  lemma ParenOfAtoms(s: string, i: nat, e: Expr, b: nat, c: nat, d: nat)
    requires e.MathOp? && i + 1 < b && c == b + 1 && c < d < |s|
    requires s[i] == '(' && s[b] == OpChar(e.op) && s[d] == ')'
    requires AtomReads(s, i + 1, e.left, b) && AtomReads(s, c, e.right, d)
    ensures ParenReads(s, i, e, d + 1)
  {
    if e.op == Multiply || e.op == Divide {
      ProductBody(s, i + 1, e, b, c, d);
    } else {
      SumBody(s, i + 1, e, b, c, d);
    }
    CloseParenthesis(s, i, e, d);
  }

  /** The body of a parenthesised product: atom, operator, atom, ')'. */
  lemma ProductBody(s: string, a: nat, e: Expr, b: nat, c: nat, d: nat)
    requires e.MathOp? && (e.op == Multiply || e.op == Divide)
    requires a < b && c == b + 1 && c < d < |s| && s[b] == OpChar(e.op) && s[d] == ')'
    requires AtomReads(s, a, e.left, b) && AtomReads(s, c, e.right, d)
    ensures ParseSummands(s, a) == Ok((e, d))
  {
    FactorsOfAtom(s, a, e.left, b);
    ProductStep(s, e, b, c, d);
    SummandsOfFactors(s, a, e, d);
  }

  /** The operator at `b` and the atom after it complete the product `e`. */
  lemma ProductStep(s: string, e: Expr, b: nat, c: nat, d: nat)
    requires e.MathOp? && (e.op == Multiply || e.op == Divide)
    requires b < |s| && c == b + 1 && c < d < |s| && s[b] == OpChar(e.op) && s[d] == ')'
    requires AtomReads(s, c, e.right, d)
    ensures FactorsLoop(s, e.left, b) == Ok((e, d))
  {
    FactorsStep(s, b, e.left, e.right, d);
  }

  /** The body of a parenthesised sum: atom, operator, atom, ')'. */
  lemma SumBody(s: string, a: nat, e: Expr, b: nat, c: nat, d: nat)
    requires e.MathOp? && (e.op == Add || e.op == Subtract)
    requires a < b && c == b + 1 && c < d < |s| && s[b] == OpChar(e.op) && s[d] == ')'
    requires AtomReads(s, a, e.left, b) && AtomReads(s, c, e.right, d)
    ensures ParseSummands(s, a) == Ok((e, d))
  {
    FactorsOfAtom(s, a, e.left, b);
    SummandsOfFactors(s, a, e.left, b);
    SumStep(s, e, b, c, d);
  }

  /** The operator at `b` and the atom after it complete the sum `e`. */
  lemma SumStep(s: string, e: Expr, b: nat, c: nat, d: nat)
    requires e.MathOp? && (e.op == Add || e.op == Subtract)
    requires b < |s| && c == b + 1 && c < d < |s| && s[b] == OpChar(e.op) && s[d] == ')'
    requires AtomReads(s, c, e.right, d)
    ensures SummandsLoop(s, e.left, b) == Ok((e, d))
  {
    FactorsOfAtom(s, c, e.right, d);
    SummandsStep(s, b, e.left, e.right, d);
  }

  lemma IntAtom(e: Expr, s: string, i: nat)
    requires e.Const? && e.c.IntConst? && Layout(s, i, e) && EndsAtom(s, i + Width(e))
    ensures AtomReads(s, i, e, i + Width(e))
  {
    var end := i + Width(e);
    if e.c.i >= 0 {
      NaturalAtom(e, s, i, end);
    } else {
      NegativeAtom(e, s, i, end);
    }
  }

  lemma NaturalAtom(e: Expr, s: string, i: nat, end: nat)
    requires e.Const? && e.c.IntConst? && e.c.i >= 0
    requires DigitRun(s, i, end) && DecimalValue(s[i..end]) == e.c.i && EndsAtom(s, end)
    ensures AtomReads(s, i, e, end)
  {
    DigitRunSingle(s, i, end);
    AtomOfSingle(s, i, e, end);
  }

  lemma NegativeAtom(e: Expr, s: string, i: nat, end: nat)
    requires e.Const? && e.c.IntConst? && e.c.i < 0
    requires i < |s| && s[i] == '-' && DigitRun(s, i + 1, end) && DecimalValue(s[i + 1..end]) == -e.c.i
    requires EndsAtom(s, end)
    ensures AtomReads(s, i, e, end)
  {
    DigitRunSingle(s, i + 1, end);
    AtomOfNegatedSingle(s, i, Const(IntConst(-e.c.i)), end);
  }

  lemma FloatAtom(e: Expr, s: string, i: nat)
    requires e.Const? && e.c.FloatConst? && Layout(s, i, e) && EndsAtom(s, i + Width(e))
    ensures AtomReads(s, i, e, i + Width(e))
  {
    var end := i + Width(e);
    if e.c.negated {
      NegativeFloatAtom(e, s, i, end);
    } else {
      PlainFloatAtom(e, s, i, end);
    }
  }

  lemma PlainFloatAtom(e: Expr, s: string, i: nat, end: nat)
    requires e.Const? && e.c.FloatConst? && !e.c.negated && FloatText(e.c.literal)
    requires i < end <= |s| && s[i..end] == e.c.literal && EndsAtom(s, end)
    ensures AtomReads(s, i, e, end)
  {
    FloatRunSingle(s, i, end, e.c.literal);
    assert s[i] == e.c.literal[0];
    AtomOfSingle(s, i, e, end);
  }

  lemma NegativeFloatAtom(e: Expr, s: string, i: nat, end: nat)
    requires e.Const? && e.c.FloatConst? && e.c.negated && FloatText(e.c.literal)
    requires i + 1 < end <= |s| && s[i] == '-' && s[i + 1..end] == e.c.literal && EndsAtom(s, end)
    ensures AtomReads(s, i, e, end)
  {
    var l := e.c.literal;
    FloatRunSingle(s, i + 1, end, l);
    assert s[i + 1] == l[0];
    AtomOfNegatedSingle(s, i, Const(FloatConst(l, false)), end);
  }

  lemma StringAtom(e: Expr, s: string, i: nat)
    requires e.Const? && e.c.StringConst? && Layout(s, i, e)
    ensures AtomReads(s, i, e, i + Width(e))
  {
    QuotedRunSingle(s, i, i + |e.c.s| + 1);
    AtomOfSingle(s, i, e, i + |e.c.s| + 2);
  }

  lemma NegatedStringAtom(e: Expr, s: string, i: nat)
    requires e.Negate? && e.input.Const? && e.input.c.StringConst? && Layout(s, i, e)
    ensures AtomReads(s, i, e, i + Width(e))
  {
    var x := e.input.c.s;
    QuotedRunSingle(s, i + 1, i + |x| + 2);
    AtomOfNegatedSingle(s, i, e.input, i + |x| + 3);
  }

  lemma NegatedParenAtom(e: Expr, s: string, i: nat, j: nat)
    requires e.Negate? && e.input.MathOp? && j == i + 1 + Width(e.input)
    requires i < |s| && s[i] == '-' && ParenReads(s, i + 1, e.input, j)
    ensures AtomReads(s, i, e, i + Width(e))
  {
    AtomOfNegatedParenthesised(s, i, e.input, j);
  }

  lemma ParenAtom(e: Expr, s: string, i: nat)
    requires e.MathOp? && ParenReads(s, i, e, i + Width(e))
    ensures AtomReads(s, i, e, i + Width(e))
  {
    AtomOfParenthesised(s, i, e, i + Width(e));
  }

  /** An atom laid out at `i`, followed by a stop, reads back as `e`. */
  lemma {:induction false} AtomRoundTrip(e: Expr, s: string, i: nat)
    requires Layout(s, i, e) && EndsAtom(s, i + Width(e))
    ensures AtomReads(s, i, e, i + Width(e))
    decreases e, 1
  {
    if e.MathOp? {
      ParenRoundTrip(e, s, i);
      ParenAtom(e, s, i);
    } else if e.Negate? && e.input.MathOp? {
      ParenRoundTrip(e.input, s, i + 1);
      NegatedParenAtom(e, s, i, i + 1 + Width(e.input));
    } else if e.Negate? {
      NegatedStringAtom(e, s, i);
    } else if e.c.IntConst? {
      IntAtom(e, s, i);
    } else if e.c.FloatConst? {
      FloatAtom(e, s, i);
    } else {
      StringAtom(e, s, i);
    }
  }

  /** An operation laid out at `i` reads back through the parenthesised rule. */
  lemma {:induction false} ParenRoundTrip(e: Expr, s: string, i: nat)
    requires e.MathOp? && Layout(s, i, e)
    ensures ParenReads(s, i, e, i + Width(e))
    decreases e, 0
  {
    var l, r := e.left, e.right;
    var b, c := i + 1 + Width(l), i + 2 + Width(l);
    var d := c + Width(r);
    OperationLayout(s, i, e, b, c, d);
    AtomRoundTrip(l, s, i + 1);
    AtomRoundTrip(r, s, c);
    ParenOfAtoms(s, i, e, b, c, d);
  }

  /** Where the parts of an operation's layout sit: '(' at `i`, the operator
      at `b`, the right operand from `c`, ')' at `d`. */
  lemma OperationLayout(s: string, i: nat, e: Expr, b: nat, c: nat, d: nat)
    requires e.MathOp? && Layout(s, i, e)
    requires b == i + 1 + Width(e.left) && c == i + 2 + Width(e.left) && d == c + Width(e.right)
    ensures i + 1 < b && c == b + 1 && c < d < |s| && d + 1 == i + Width(e)
    ensures s[i] == '(' && s[b] == OpChar(e.op) && s[d] == ')'
    ensures Layout(s, i + 1, e.left) && EndsAtom(s, b) && Layout(s, c, e.right) && EndsAtom(s, d)
  {
  }

  /** A whole text that is one atom is one expression. */
  lemma ExpressionOfAtom(s: string, e: Expr)
    requires |s| > 0 && ParseAtom(s, 0) == Ok((e, |s|))
    ensures ParseExpression(s) == Ok(e)
  {
    FactorsOfAtom(s, 0, e, |s|);
    SummandsOfFactors(s, 0, e, |s|);
  }

  /** The parser reads back what the printer writes. */
  lemma ParsePrintRoundTrip(e: Expr)
    requires Canonical(e)
    ensures ParseExpression(Print(e)) == Ok(e)
  {
    var s := Print(e);
    SliceAt(s, 0, |s|);
    assert s[0..|s|] == s;
    PrintLayout(e, s, 0);
    AtomRoundTrip(e, s, 0);
    ExpressionOfAtom(s, e);
  }
}

=== FILE: expressions.dfy ===
/** The recursive-descent expression parser of the front end and its
    constant folder. `ParseSummands` reads sums of `ParseFactors`, which
    reads products of `ParseAtom`; an atom is a run of signs followed by a
    parenthesised sum or a single literal. `Evaluate` folds constant
    sub-expressions bottom-up. The function table is empty, so every
    identifier is an unknown function. */
module Expressions {
  import opened Results
  import opened Text
  import opened ParserPrimitives

  const WrongChar: string := "EEE_WRONG_CHAR"
  const Parenthesis: string := "EEE_PARENTHESIS"
  const ExpectedNumber: string := "Expected number"
  const DivideByZero: string := "EEE_DIVIDE_BY_ZERO"
  const ArithmeticsFailed: string := "Arithmetics failed."
  const InvalidArgument: string := "std::invalid_argument"
  const FloatNotModelled: string := "float arithmetic is not modelled"

  datatype Operation = Add | Subtract | Multiply | Divide

  /** A float literal is kept as its source text plus a sign. */
  datatype Constant =
    | IntConst(i: int)
    | FloatConst(literal: string, negated: bool)
    | StringConst(s: string)

  datatype Expr =
    | Const(c: Constant)
    | MathOp(op: Operation, left: Expr, right: Expr)
    | Negate(input: Expr)

  // ------------------------------------------------------------------ negation

  /** Numeric constants are negated in place; anything else is wrapped. */
  function NegateExpression(e: Expr): (r: Expr)
    ensures e.Const? && e.c.IntConst? ==> r == Const(IntConst(-e.c.i))
    ensures e.Const? && e.c.FloatConst? ==> r == Const(FloatConst(e.c.literal, !e.c.negated))
    ensures !(e.Const? && (e.c.IntConst? || e.c.FloatConst?)) ==> r == Negate(e)
  {
    match e
    case Const(IntConst(i)) => Const(IntConst(-i))
    case Const(FloatConst(l, n)) => Const(FloatConst(l, !n))
    case _ => Negate(e)
  }

  /** Negating a number twice gives it back. */
  lemma NegateNumberTwice(e: Expr)
    requires e.Const? && !e.c.StringConst?
    ensures NegateExpression(NegateExpression(e)) == e
  {
  }

  /** The position after a run of whitespace and signs starting at `i`; the
      run makes the atom negative iff it holds an odd number of '-'. */
  function ReadSignsAt(s: string, i: nat): (r: (bool, nat))
    requires i <= |s|
    ensures i <= r.1 <= |s|
    ensures forall k :: i <= k < r.1 ==> IsWhitespace(s[k]) || s[k] == '-' || s[k] == '+'
    ensures r.1 == |s| || !(IsWhitespace(s[r.1]) || s[r.1] == '-' || s[r.1] == '+')
    ensures r.0 <==> Count('-', s[i..r.1]) % 2 == 1
    decreases |s| - i
  {
    if i < |s| && (IsWhitespace(s[i]) || s[i] == '-' || s[i] == '+') then
      var t := ReadSignsAt(s, i + 1);
      assert s[i..t.1][1..] == s[i + 1..t.1];
      ((s[i] == '-') != t.0, t.1)
    else
      (false, i)
  }

  // ------------------------------------------------------------------ literals

  /** Whether `strtof` finds a number at the start of a run of digits and dots. */
  predicate FloatPrefixValid(text: string) {
    |text| > 0 && (IsDigit(text[0]) || (|text| > 1 && text[0] == '.' && IsDigit(text[1])))
  }

  function FloatLiteral(text: string): (r: Result<Constant>)
    ensures r.Ok? <==> FloatPrefixValid(text)
    ensures r.Ok? ==> r.value == FloatConst(text, false)
    ensures r.Err? ==> r.msg == InvalidArgument
  {
    if FloatPrefixValid(text) then Ok(FloatConst(text, false)) else Err(InvalidArgument)
  }

  lemma DigitsOnly(t: string)
    requires forall i :: 0 <= i < |t| ==> IsNumberChar(t[i])
    requires '.' !in t
    ensures AllDigits(t)
  {
    forall i | 0 <= i < |t| ensures IsDigit(t[i]) {
      assert IsNumberChar(t[i]) && t[i] != '.';
    }
  }

  predicate IsNotQuote(c: char) {
    c != '"'
  }

  /** A double-quoted string at `i`: the text up to the next quote. A
      missing closing quote makes the final substring out of range. */
  function ParseStringAt(s: string, i: nat): (r: Result<(Expr, nat)>)
    requires i < |s| && s[i] == '"'
    ensures r.Ok? <==> '"' in s[i + 1..]
    ensures r.Ok? ==> i + 2 <= r.value.1 <= |s| && s[r.value.1 - 1] == '"'
    ensures r.Ok? ==> r.value.0 == Const(StringConst(s[i + 1..r.value.1 - 1]))
    ensures r.Ok? ==> '"' !in s[i + 1..r.value.1 - 1]
    ensures r.Err? ==> r.msg == OutOfRange
  {
    var j := ScanWhile(s, i + 1, IsNotQuote);
    if j == |s| then
      Err(OutOfRange)
    else
      assert s[i + 1..][j - i - 1] == '"';
      Ok((Const(StringConst(s[i + 1..j])), j + 1))
  }

  /** A run of digits and dots at `i`: an int (as `atoi` reads it) when it
      has no dot, else a float literal. */
  function ParseNumberAt(s: string, i: nat): (r: Result<(Expr, nat)>)
    requires i < |s| && IsNumberChar(s[i])
    ensures r.Ok? ==> i < r.value.1 <= |s| && r.value.0.Const?
    ensures r.Ok? ==> forall k :: i <= k < r.value.1 ==> IsNumberChar(s[k])
    ensures r.Ok? ==> r.value.1 == |s| || !IsNumberChar(s[r.value.1])
    ensures r.Ok? && r.value.0.c.IntConst? ==>
      AllDigits(s[i..r.value.1]) && r.value.0.c.i == DecimalValue(s[i..r.value.1])
    ensures r.Ok? && !r.value.0.c.IntConst? ==>
      '.' in s[i..r.value.1] && r.value.0.c == FloatConst(s[i..r.value.1], false)
    ensures r.Err? ==> r.msg == InvalidArgument
  {
    var j := ScanWhile(s, i, IsNumberChar);
    var text := s[i..j];
    if '.' in text then
      var lit :- FloatLiteral(text);
      Ok((Const(lit), j))
    else
      DigitsOnly(text);
      Ok((Const(IntConst(DecimalValue(text))), j))
  }

  /** The error for an identifier at `i`: no function is defined. */
  function UnknownFunction(s: string, i: nat): string
    requires i <= |s|
  {
    "Unknown function \"" + s[i..ScanWhile(s, i, IsIdentifierChar)] + "\""
  }

  /** A string literal, a number, or an identifier (a call of an unknown
      function); anything else is a wrong character. */
  function ParseSingle(s: string, i: nat): (r: Result<(Expr, nat)>)
    requires i < |s|
    ensures r.Ok? ==> i < r.value.1 <= |s| && r.value.0.Const?
    ensures s[i] == '"' ==> r == ParseStringAt(s, i)
    ensures IsNumberChar(s[i]) ==> r == ParseNumberAt(s, i)
    ensures s[i] != '"' && !IsNumberChar(s[i]) ==> r.Err?
    ensures s[i] != '"' && !IsNumberChar(s[i]) && !IsIdentifierChar(s[i]) ==> r == Err(WrongChar)
  {
    if s[i] == '"' then ParseStringAt(s, i)
    else if IsNumberChar(s[i]) then ParseNumberAt(s, i)
    else if IsIdentifierChar(s[i]) then Err(UnknownFunction(s, i))
    else Err(WrongChar)
  }

  // ------------------------------------------------------------------ recursive descent

  /** Whitespace, signs, then a parenthesised sum or a single literal. */
  function ParseAtom(s: string, i: nat): (r: Result<(Expr, nat)>)
    requires i <= |s|
    ensures r.Ok? ==> i < r.value.1 <= |s|
    decreases |s| - i, 1
  {
    var p := SkipWhitespaceAt(s, i);
    var signs := ReadSignsAt(s, p);
    var j := signs.1;
    if j < |s| then
      var a :- if s[j] == '(' then ParseParenthesised(s, j) else ParseSingle(s, j);
      Ok((if signs.0 then NegateExpression(a.0) else a.0, a.1))
    else
      Err(ExpectedNumber)
  }

  /** '(' at `j`, a sum, then ')'; the closer must follow the sum directly. */
  function ParseParenthesised(s: string, j: nat): (r: Result<(Expr, nat)>)
    requires j < |s| && s[j] == '('
    ensures r.Ok? ==> j < r.value.1 <= |s|
    decreases |s| - j, 0
  {
    var inner :- ParseSummands(s, j + 1);
    if !(inner.1 < |s| && s[inner.1] == ')') then Err(Parenthesis)
    else Ok((inner.0, SkipWhitespaceAt(s, inner.1) + 1))
  }

  /** Atoms joined by '*' and '/', associating to the left. */
  function ParseFactors(s: string, i: nat): (r: Result<(Expr, nat)>)
    requires i <= |s|
    ensures r.Ok? ==> i < r.value.1 <= |s|
    decreases |s| - i, 2
  {
    var a :- ParseAtom(s, i);
    FactorsLoop(s, a.0, SkipWhitespaceAt(s, a.1))
  }

  function FactorsLoop(s: string, acc: Expr, k: nat): (r: Result<(Expr, nat)>)
    requires k <= |s|
    ensures r.Ok? ==> k <= r.value.1 <= |s|
    ensures r.Ok? ==> r.value.1 == |s| || (s[r.value.1] != '*' && s[r.value.1] != '/')
    ensures !(k < |s| && (s[k] == '*' || s[k] == '/')) ==> r == Ok((acc, k))
    decreases |s| - k, 0
  {
    if k < |s| && (s[k] == '*' || s[k] == '/') then
      var b :- ParseAtom(s, k + 1);
      var op := if s[k] == '/' then Divide else Multiply;
      FactorsLoop(s, MathOp(op, acc, b.0), SkipWhitespaceAt(s, b.1))
    else
      Ok((acc, k))
  }

  /** Factors joined by '+' and '-', associating to the left. */
  function ParseSummands(s: string, i: nat): (r: Result<(Expr, nat)>)
    requires i <= |s|
    ensures r.Ok? ==> i < r.value.1 <= |s|
    decreases |s| - i, 3
  {
    var f :- ParseFactors(s, i);
    SummandsLoop(s, f.0, f.1)
  }

  function SummandsLoop(s: string, acc: Expr, k: nat): (r: Result<(Expr, nat)>)
    requires k <= |s|
    ensures r.Ok? ==> k <= r.value.1 <= |s|
    ensures r.Ok? ==> r.value.1 == |s| || (s[r.value.1] != '+' && s[r.value.1] != '-')
    ensures !(k < |s| && (s[k] == '+' || s[k] == '-')) ==> r == Ok((acc, k))
    decreases |s| - k, 0
  {
    if k < |s| && (s[k] == '+' || s[k] == '-') then
      var b :- ParseFactors(s, k + 1);
      var op := if s[k] == '-' then Subtract else Add;
      SummandsLoop(s, MathOp(op, acc, b.0), SkipWhitespaceAt(s, b.1))
    else
      Ok((acc, k))
  }

  /** A whole expression: empty text and left-over text are wrong characters. */
  function ParseExpression(s: string): (r: Result<Expr>)
    ensures |s| == 0 ==> r == Err(WrongChar)
    ensures r.Ok? <==> |s| > 0 && ParseSummands(s, 0).Ok? && ParseSummands(s, 0).value.1 == |s|
    ensures r.Ok? ==> r.value == ParseSummands(s, 0).value.0
  {
    if |s| == 0 then Err(WrongChar)
    else
      var p :- ParseSummands(s, 0);
      if p.1 < |s| then Err(WrongChar) else Ok(p.0)
  }

  // ------------------------------------------------------------------ constant folding

  function Abs(x: int): nat {
    if x < 0 then -x else x
  }

  /** Integer division as C does it: the quotient is truncated toward zero. */
  function CDiv(a: int, b: int): (q: int)
    requires b != 0
    ensures Abs(a - q * b) < Abs(b)
    ensures a - q * b == 0 || (a - q * b < 0 <==> a < 0)
  {
    var q := Abs(a) / Abs(b);
    if (a < 0) == (b < 0) then q else -q
  }

  /** One operation on two constants. */
  function Arithmetic(op: Operation, a: Constant, b: Constant): (r: Result<Expr>)
    ensures r.Ok? ==> r.value.Const?
    ensures r.Ok? <==> (a.IntConst? && b.IntConst? && !(op == Divide && b.i == 0))
                       || (a.StringConst? && b.StringConst? && op == Add)
    ensures a.IntConst? && b.IntConst? && op == Add ==> r == Ok(Const(IntConst(a.i + b.i)))
    ensures a.IntConst? && b.IntConst? && op == Subtract ==> r == Ok(Const(IntConst(a.i - b.i)))
    ensures a.IntConst? && b.IntConst? && op == Multiply ==> r == Ok(Const(IntConst(a.i * b.i)))
    ensures a.IntConst? && b.IntConst? && op == Divide && b.i != 0 ==> r == Ok(Const(IntConst(CDiv(a.i, b.i))))
    ensures a.IntConst? && b.IntConst? && op == Divide && b.i == 0 ==> r == Err(DivideByZero)
    ensures a.FloatConst? && b.FloatConst? ==> r == Err(FloatNotModelled)
    ensures a.StringConst? && b.StringConst? && op == Add ==> r == Ok(Const(StringConst(a.s + b.s)))
    ensures a.IntConst? != b.IntConst? || a.StringConst? != b.StringConst? ==> r == Err(ArithmeticsFailed)
  {
    if a.IntConst? && b.IntConst? then
      match op
      case Add => Ok(Const(IntConst(a.i + b.i)))
      case Subtract => Ok(Const(IntConst(a.i - b.i)))
      case Multiply => Ok(Const(IntConst(a.i * b.i)))
      case Divide => if b.i == 0 then Err(DivideByZero) else Ok(Const(IntConst(CDiv(a.i, b.i))))
    else if a.FloatConst? && b.FloatConst? then
      Err(FloatNotModelled)
    else if a.StringConst? && b.StringConst? then
      if op == Add then Ok(Const(StringConst(a.s + b.s))) else Err(ArithmeticsFailed)
    else
      Err(ArithmeticsFailed)
  }

  function NegateConstant(c: Constant): (r: Result<Expr>)
    ensures r.Ok? <==> !c.StringConst?
    ensures r.Ok? ==> r.value == NegateExpression(Const(c))
    ensures r.Err? ==> r.msg == ArithmeticsFailed
  {
    match c
    case IntConst(i) => Ok(Const(IntConst(-i)))
    case FloatConst(l, n) => Ok(Const(FloatConst(l, !n)))
    case StringConst(_) => Err(ArithmeticsFailed)
  }

  /** Folds constants bottom-up, left operand first. Without variables
      every expression folds to one constant or fails. */
  function Evaluate(e: Expr): (r: Result<Expr>)
    ensures r.Ok? ==> r.value.Const?
    ensures e.Const? ==> r == Ok(e)
    decreases e
  {
    match e
    case Const(_) => Ok(e)
    case MathOp(op, l, rt) =>
      var a :- Evaluate(l);
      var b :- Evaluate(rt);
      Arithmetic(op, a.c, b.c)
    case Negate(x) =>
      var a :- Evaluate(x);
      NegateConstant(a.c)
  }

  // ------------------------------------------------------------------ integer meaning

  /** Every literal in the expression is an integer. */
  predicate IntOnly(e: Expr) {
    match e
    case Const(c) => c.IntConst?
    case MathOp(_, l, r) => IntOnly(l) && IntOnly(r)
    case Negate(x) => IntOnly(x)
  }

  /** The integer an integer expression denotes, computed directly on `int`
      with C's truncating division; `None` when some divisor is zero or a
      literal is not an integer. */
  function IntMeaning(e: Expr): Option<int> {
    match e
    case Const(c) => if c.IntConst? then Some(c.i) else None
    case Negate(x) =>
      (match IntMeaning(x)
       case Some(v) => Some(-v)
       case None => None)
    case MathOp(op, l, r) =>
      (match (IntMeaning(l), IntMeaning(r))
       case (Some(x), Some(y)) =>
         (match op
          case Add => Some(x + y)
          case Subtract => Some(x - y)
          case Multiply => Some(x * y)
          case Divide => if y == 0 then None else Some(CDiv(x, y)))
       case _ => None)
  }

  /** On integer expressions the folder yields exactly the integer the
      expression denotes, and fails with the divide-by-zero error exactly
      when some divisor evaluates to zero. */
  lemma {:induction false} EvaluateComputesIntMeaning(e: Expr)
    requires IntOnly(e)
    ensures IntMeaning(e).Some? ==> Evaluate(e) == Ok(Const(IntConst(IntMeaning(e).value)))
    ensures IntMeaning(e).None? ==> Evaluate(e) == Err(DivideByZero)
    decreases e
  {
    match e
    case Const(_) =>
    case Negate(x) => EvaluateComputesIntMeaning(x);
    case MathOp(_, l, r) =>
      EvaluateComputesIntMeaning(l);
      EvaluateComputesIntMeaning(r);
  }

  lemma EvaluateExamples()
    ensures Evaluate(MathOp(Divide, Const(IntConst(-7)), Const(IntConst(2)))) == Ok(Const(IntConst(-3)))
    ensures Evaluate(MathOp(Add, Const(IntConst(1)), MathOp(Divide, Const(IntConst(1)), Const(IntConst(0)))))
            == Err(DivideByZero)
  {
  }
}

=== FILE: interpreter.dfy ===
/** The bridge between the dynamic value and the bytecode interpreter's own
    value representation, plus the two entry points that use it: global
    lookup and calling `main`. A bytecode value is a type plus a payload;
    vectors and dicts of bool, int or double may be packed as raw 64-bit
    words ("pods"), everything else is held as objects. */
module Interpreter {
  import opened Results
  import opened Json
  import opened Typeids
  import opened Values

  /** A raw 64-bit word, read as the type it was written with. */
  datatype Pod64 = PodBool(b: bool) | PodInt(i: int64) | PodDouble(d: real)

  datatype PodEntry = PodEntry(key: string, pod: Pod64)

  /** An object handle holds a payload only; its type comes from the
      container that holds it. */
  datatype ObjectEntry = ObjectEntry(key: string, payload: BcPayload)

  datatype BcPayload =
    | NoPayload
    | PodPayload(pod: Pod64)
    | StringPayload(s: string)
    | JsonPayload(j: Json)
    | TypeidPayload(t: Typeid)
    | StructPayload(members: seq<BcValue>)
    | VectorPayload(pods: seq<Pod64>, objects: seq<BcPayload>)
    | DictPayload(podEntries: seq<PodEntry>, objectEntries: seq<ObjectEntry>)
    | FunctionPayload(id: int)

  datatype BcValue = BcValue(bcType: Typeid, payload: BcPayload)

  const InvalidBytecodeValue: string := "Invalid bytecode value."
  const CannotFindGlobal: string := "Cannot find global."

  // ------------------------------------------------------------------ bytecode to value

  /** Reads a pod as a value of the scalar type `t`. */
  function PodToValue(t: Typeid, pod: Pod64): (r: Result<Value>)
    ensures r.Ok? ==> IsPod(t) && TypeOf(r.value) == t
  {
    match t
    case TBool => if pod.PodBool? then Ok(VBool(pod.b)) else Err(InvalidBytecodeValue)
    case TInt => if pod.PodInt? then Ok(VInt(pod.i)) else Err(InvalidBytecodeValue)
    case TDouble => if pod.PodDouble? then Ok(VDouble(pod.d)) else Err(InvalidBytecodeValue)
    case _ => Err(InvalidBytecodeValue)
  }

  function UnpackPods(t: Typeid, pods: seq<Pod64>): (r: Result<seq<Value>>)
    ensures r.Ok? ==> |r.value| == |pods|
    ensures r.Ok? ==> forall i :: 0 <= i < |pods| ==> PodToValue(t, pods[i]) == Ok(r.value[i])
    decreases |pods|
  {
    if |pods| == 0 then Ok([])
    else
      var v :- PodToValue(t, pods[0]);
      var rest :- UnpackPods(t, pods[1..]);
      Ok([v] + rest)
  }

  function UnpackPodEntries(t: Typeid, entries: seq<PodEntry>): (r: Result<seq<DictEntry>>)
    ensures r.Ok? ==> |r.value| == |entries|
    ensures r.Ok? ==> forall i :: 0 <= i < |entries| ==>
      r.value[i].key == entries[i].key && PodToValue(t, entries[i].pod) == Ok(r.value[i].value)
    decreases |entries|
  {
    if |entries| == 0 then Ok([])
    else
      var v :- PodToValue(t, entries[0].pod);
      var rest :- UnpackPodEntries(t, entries[1..]);
      Ok([DictEntry(entries[0].key, v)] + rest)
  }

  /** The value a payload denotes when read as type `t`; the result has
      type `t`. Vectors and dicts of pod types are read from their pod
      storage, all others from their object storage. */
  function PayloadToValue(t: Typeid, p: BcPayload): (r: Result<Value>)
    ensures r.Ok? ==> TypeOf(r.value) == t
    decreases p
  {
    match t
    case TUndefined => Ok(VUndefined)
    case TAny => Ok(VAny)
    case TVoid => Ok(VVoid)
    case TBool => if p.PodPayload? then PodToValue(t, p.pod) else Err(InvalidBytecodeValue)
    case TInt => if p.PodPayload? then PodToValue(t, p.pod) else Err(InvalidBytecodeValue)
    case TDouble => if p.PodPayload? then PodToValue(t, p.pod) else Err(InvalidBytecodeValue)
    case TString => if p.StringPayload? then Ok(VString(p.s)) else Err(InvalidBytecodeValue)
    case TJson => if p.JsonPayload? then Ok(VJson(p.j)) else Err(InvalidBytecodeValue)
    case TTypeid => if p.TypeidPayload? then Ok(VTypeid(p.t)) else Err(InvalidBytecodeValue)
    case TStruct(_) =>
      if !p.StructPayload? then Err(InvalidBytecodeValue)
      else
        var members :- MembersToValues(p.members);
        Ok(VStruct(t, members))
    case TVector(e) =>
      if !p.VectorPayload? then Err(InvalidBytecodeValue)
      else
        var elements :- if IsPod(e) then UnpackPods(e, p.pods) else ObjectsToValues(e, p.objects);
        Ok(VVector(e, elements))
    case TDict(vt) =>
      if !p.DictPayload? then Err(InvalidBytecodeValue)
      else
        var entries :- if IsPod(vt) then UnpackPodEntries(vt, p.podEntries) else ObjectEntriesToValues(vt, p.objectEntries);
        Ok(VDict(vt, entries))
    case TFunction(_, _, _) => if p.FunctionPayload? then Ok(VFunction(t, p.id)) else Err(InvalidBytecodeValue)
    case TUnresolved(_) => Err("std::exception")
  }

  function MembersToValues(ms: seq<BcValue>): (r: Result<seq<Value>>)
    ensures r.Ok? ==> |r.value| == |ms|
    ensures r.Ok? ==> forall i :: 0 <= i < |ms| ==> BcToValue(ms[i]) == Ok(r.value[i])
    decreases ms
  {
    if |ms| == 0 then Ok([])
    else
      var v :- BcToValue(ms[0]);
      var rest :- MembersToValues(ms[1..]);
      Ok([v] + rest)
  }

  function ObjectsToValues(t: Typeid, os: seq<BcPayload>): (r: Result<seq<Value>>)
    ensures r.Ok? ==> |r.value| == |os|
    ensures r.Ok? ==> forall i :: 0 <= i < |os| ==> PayloadToValue(t, os[i]) == Ok(r.value[i])
    decreases os
  {
    if |os| == 0 then Ok([])
    else
      var v :- PayloadToValue(t, os[0]);
      var rest :- ObjectsToValues(t, os[1..]);
      Ok([v] + rest)
  }

  function ObjectEntriesToValues(t: Typeid, os: seq<ObjectEntry>): (r: Result<seq<DictEntry>>)
    ensures r.Ok? ==> |r.value| == |os|
    ensures r.Ok? ==> forall i :: 0 <= i < |os| ==>
      r.value[i].key == os[i].key && PayloadToValue(t, os[i].payload) == Ok(r.value[i].value)
    decreases os
  {
    if |os| == 0 then Ok([])
    else
      var v :- PayloadToValue(t, os[0].payload);
      var rest :- ObjectEntriesToValues(t, os[1..]);
      Ok([DictEntry(os[0].key, v)] + rest)
  }

  /** Converts a bytecode value back to a value of the same type. */
  function BcToValue(b: BcValue): (r: Result<Value>)
    ensures r.Ok? ==> TypeOf(r.value) == b.bcType
    ensures b.bcType.TUnresolved? ==> r.Err?
    decreases b
  {
    PayloadToValue(b.bcType, b.payload)
  }

  // ------------------------------------------------------------------ value to bytecode

  /** Writes a scalar of type `t` as a pod; the value must have that type. */
  function ValueToPod(t: Typeid, v: Value): (r: Result<Pod64>)
    requires IsPod(t)
    ensures r.Ok? <==> BaseTypeOf(v) == BaseOf(t)
    ensures r.Ok? ==> PodToValue(t, r.value) == Ok(v)
  {
    match t
    case TBool => var b :- GetBoolValue(v); Ok(PodBool(b))
    case TInt => var i :- GetIntValue(v); Ok(PodInt(i))
    case TDouble => var d :- GetDoubleValue(v); Ok(PodDouble(d))
  }

  function PackPods(t: Typeid, vs: seq<Value>): (r: Result<seq<Pod64>>)
    requires IsPod(t)
    ensures r.Ok? <==> forall i :: 0 <= i < |vs| ==> BaseTypeOf(vs[i]) == BaseOf(t)
    ensures r.Ok? ==> |r.value| == |vs| && forall i :: 0 <= i < |vs| ==> ValueToPod(t, vs[i]) == Ok(r.value[i])
    decreases |vs|
  {
    if |vs| == 0 then Ok([])
    else
      var p :- ValueToPod(t, vs[0]);
      var rest :- PackPods(t, vs[1..]);
      assert forall i :: 1 <= i < |vs| ==> vs[i] == vs[1..][i - 1];
      Ok([p] + rest)
  }

  function PackPodEntries(t: Typeid, es: seq<DictEntry>): (r: Result<seq<PodEntry>>)
    requires IsPod(t)
    ensures r.Ok? <==> forall i :: 0 <= i < |es| ==> BaseTypeOf(es[i].value) == BaseOf(t)
    ensures r.Ok? ==> |r.value| == |es| && forall i :: 0 <= i < |es| ==>
      r.value[i].key == es[i].key && ValueToPod(t, es[i].value) == Ok(r.value[i].pod)
    decreases |es|
  {
    if |es| == 0 then Ok([])
    else
      var p :- ValueToPod(t, es[0].value);
      var rest :- PackPodEntries(t, es[1..]);
      assert forall i :: 1 <= i < |es| ==> es[i] == es[1..][i - 1];
      Ok([PodEntry(es[0].key, p)] + rest)
  }

  /** The conversion, with the dict packing rule as a switch: when
      `packDictPods` is false, dicts always go to object storage. */
  function ValueToBcWith(v: Value, packDictPods: bool): (r: Result<BcValue>)
    ensures r.Ok? ==> r.value.bcType == TypeOf(v)
    decreases v
  {
    match v
    case VUndefined => Ok(BcValue(TUndefined, NoPayload))
    case VAny => Ok(BcValue(TAny, NoPayload))
    case VVoid => Ok(BcValue(TVoid, NoPayload))
    case VBool(b) => Ok(BcValue(TBool, PodPayload(PodBool(b))))
    case VInt(i) => Ok(BcValue(TInt, PodPayload(PodInt(i))))
    case VDouble(d) => Ok(BcValue(TDouble, PodPayload(PodDouble(d))))
    case VString(s) => Ok(BcValue(TString, StringPayload(s)))
    case VJson(j) => Ok(BcValue(TJson, JsonPayload(j)))
    case VTypeid(t) => Ok(BcValue(TTypeid, TypeidPayload(t)))
    case VStruct(t, ms) =>
      var members :- ValuesToBcsWith(ms, packDictPods);
      Ok(BcValue(t, StructPayload(members)))
    case VVector(e, es) =>
      if IsPod(e) then
        var pods :- PackPods(e, es);
        Ok(BcValue(TVector(e), VectorPayload(pods, [])))
      else
        var objects :- ValuesToObjects(es, packDictPods);
        Ok(BcValue(TVector(e), VectorPayload([], objects)))
    case VDict(vt, es) =>
      if packDictPods && IsPod(vt) then
        var pods :- PackPodEntries(vt, es);
        Ok(BcValue(TDict(vt), DictPayload(pods, [])))
      else
        var objects :- EntriesToObjects(es, packDictPods);
        Ok(BcValue(TDict(vt), DictPayload([], objects)))
    case VFunction(t, id) => Ok(BcValue(t, FunctionPayload(id)))
  }

  function ValuesToBcsWith(vs: seq<Value>, packDictPods: bool): (r: Result<seq<BcValue>>)
    ensures r.Ok? ==> |r.value| == |vs|
    ensures r.Ok? ==> forall i :: 0 <= i < |vs| ==> ValueToBcWith(vs[i], packDictPods) == Ok(r.value[i])
    decreases vs
  {
    if |vs| == 0 then Ok([])
    else
      var b :- ValueToBcWith(vs[0], packDictPods);
      var rest :- ValuesToBcsWith(vs[1..], packDictPods);
      Ok([b] + rest)
  }

  function ValuesToObjects(vs: seq<Value>, packDictPods: bool): (r: Result<seq<BcPayload>>)
    ensures r.Ok? ==> |r.value| == |vs|
    ensures r.Ok? ==> forall i :: 0 <= i < |vs| ==>
      ValueToBcWith(vs[i], packDictPods).Ok? && ValueToBcWith(vs[i], packDictPods).value.payload == r.value[i]
    decreases vs
  {
    if |vs| == 0 then Ok([])
    else
      var b :- ValueToBcWith(vs[0], packDictPods);
      var rest :- ValuesToObjects(vs[1..], packDictPods);
      Ok([b.payload] + rest)
  }

  function EntriesToObjects(es: seq<DictEntry>, packDictPods: bool): (r: Result<seq<ObjectEntry>>)
    ensures r.Ok? ==> |r.value| == |es|
    ensures r.Ok? ==> forall i :: 0 <= i < |es| ==>
      r.value[i].key == es[i].key && ValueToBcWith(es[i].value, packDictPods).Ok?
      && ValueToBcWith(es[i].value, packDictPods).value.payload == r.value[i].payload
    decreases es
  {
    if |es| == 0 then Ok([])
    else
      var b :- ValueToBcWith(es[0].value, packDictPods);
      var rest :- EntriesToObjects(es[1..], packDictPods);
      Ok([ObjectEntry(es[0].key, b.payload)] + rest)
  }

  /** The conversion as the interpreter writes it: dict payloads are always
      objects, even for bool, int and double values. */
  function ValueToBcAsWritten(v: Value): (r: Result<BcValue>)
    ensures r.Ok? ==> r.value.bcType == TypeOf(v)
  {
    ValueToBcWith(v, false)
  }

  /** The conversion the reader expects: vectors and dicts of bool, int and
      double are packed as pods. */
  function ValueToBc(v: Value): (r: Result<BcValue>)
    ensures r.Ok? ==> r.value.bcType == TypeOf(v)
  {
    ValueToBcWith(v, true)
  }

  /** `values_to_bcs`: the conversion as written, element by element. */
  function ValuesToBcs(vs: seq<Value>): (r: Result<seq<BcValue>>)
    ensures r.Ok? <==> forall i :: 0 <= i < |vs| ==> ValueToBcAsWritten(vs[i]).Ok?
    ensures r.Ok? ==> |r.value| == |vs|
    ensures r.Ok? ==> forall i :: 0 <= i < |vs| ==> ValueToBcAsWritten(vs[i]) == Ok(r.value[i])
  {
    ValuesToBcsAsWrittenOk(vs);
    ValuesToBcsWith(vs, false)
  }

  lemma {:induction false} ValuesToBcsAsWrittenOk(vs: seq<Value>)
    ensures ValuesToBcsWith(vs, false).Ok? <==> forall i :: 0 <= i < |vs| ==> ValueToBcAsWritten(vs[i]).Ok?
    decreases vs
  {
    if |vs| > 0 {
      ValuesToBcsAsWrittenOk(vs[1..]);
      assert forall i :: 1 <= i < |vs| ==> vs[i] == vs[1..][i - 1];
    }
  }

  // ------------------------------------------------------------------ round trip

  /** No dict anywhere inside the value has a bool, int or double value type. */
  predicate NoPodDicts(v: Value) {
    match v
    case VStruct(_, ms) => forall i :: 0 <= i < |ms| ==> NoPodDicts(ms[i])
    case VVector(_, es) => forall i :: 0 <= i < |es| ==> NoPodDicts(es[i])
    case VDict(vt, es) => !IsPod(vt) && forall i :: 0 <= i < |es| ==> NoPodDicts(es[i].value)
    case _ => true
  }

  predicate Convertible(v: Value, packDictPods: bool) {
    WellFormed(v) && (packDictPods || NoPodDicts(v))
  }

  /** A well-formed value whose type is a pod type is a scalar of that type. */
  lemma PodTypedIsScalar(v: Value)
    requires WellFormed(v) && IsPod(TypeOf(v))
    ensures BaseTypeOf(v) == BaseOf(TypeOf(v))
  {
  }

  lemma PodsRoundTrip(t: Typeid, vs: seq<Value>)
    requires IsPod(t) && forall i :: 0 <= i < |vs| ==> BaseTypeOf(vs[i]) == BaseOf(t)
    ensures PackPods(t, vs).Ok? && UnpackPods(t, PackPods(t, vs).value) == Ok(vs)
  {
    var pods := PackPods(t, vs).value;
    var back := UnpackPods(t, pods);
    assert back.Ok? by {
      if !back.Ok? {
        UnpackPodsFails(t, pods);
        assert false;
      }
    }
    assert back.value == vs;
  }

  /** Unpacking fails only at a pod that cannot be read. */
  lemma {:induction false} UnpackPodsFails(t: Typeid, pods: seq<Pod64>)
    requires UnpackPods(t, pods).Err?
    ensures exists i :: 0 <= i < |pods| && PodToValue(t, pods[i]).Err?
    decreases |pods|
  {
    if PodToValue(t, pods[0]).Ok? {
      UnpackPodsFails(t, pods[1..]);
      var i :| 0 <= i < |pods[1..]| && PodToValue(t, pods[1..][i]).Err?;
      assert pods[i + 1] == pods[1..][i];
    }
  }

  lemma {:induction false} UnpackPodEntriesFails(t: Typeid, entries: seq<PodEntry>)
    requires UnpackPodEntries(t, entries).Err?
    ensures exists i :: 0 <= i < |entries| && PodToValue(t, entries[i].pod).Err?
    decreases |entries|
  {
    if PodToValue(t, entries[0].pod).Ok? {
      UnpackPodEntriesFails(t, entries[1..]);
      var i :| 0 <= i < |entries[1..]| && PodToValue(t, entries[1..][i].pod).Err?;
      assert entries[i + 1] == entries[1..][i];
    }
  }

  lemma PodEntriesRoundTrip(t: Typeid, es: seq<DictEntry>)
    requires IsPod(t) && forall i :: 0 <= i < |es| ==> BaseTypeOf(es[i].value) == BaseOf(t)
    ensures PackPodEntries(t, es).Ok? && UnpackPodEntries(t, PackPodEntries(t, es).value) == Ok(es)
  {
    var pods := PackPodEntries(t, es).value;
    var back := UnpackPodEntries(t, pods);
    assert back.Ok? by {
      if !back.Ok? {
        UnpackPodEntriesFails(t, pods);
        assert false;
      }
    }
    assert back.value == es;
  }

  /** Every well-formed value (with no pod dict when dicts are not packed)
      converts, and converting back gives the same value. */
  lemma {:induction false} ValueRoundTrip(v: Value, packDictPods: bool)
    requires Convertible(v, packDictPods)
    ensures ValueToBcWith(v, packDictPods).Ok?
    ensures PayloadToValue(TypeOf(v), ValueToBcWith(v, packDictPods).value.payload) == Ok(v)
    decreases v, 2
  {
    match v
    case VStruct(t, ms) =>
      StructRoundTrip(t, ms, packDictPods);
    case VVector(e, es) =>
      VectorRoundTrip(e, es, packDictPods);
    case VDict(vt, es) =>
      DictRoundTrip(vt, es, packDictPods);
    case _ =>
      ScalarRoundTrip(v, packDictPods);
  }

  lemma ScalarRoundTrip(v: Value, packDictPods: bool)
    requires Convertible(v, packDictPods) && !v.VStruct? && !v.VVector? && !v.VDict?
    ensures ValueToBcWith(v, packDictPods).Ok?
    ensures PayloadToValue(TypeOf(v), ValueToBcWith(v, packDictPods).value.payload) == Ok(v)
  {
  }

  lemma {:induction false} StructRoundTrip(t: Typeid, ms: seq<Value>, packDictPods: bool)
    requires Convertible(VStruct(t, ms), packDictPods)
    ensures ValueToBcWith(VStruct(t, ms), packDictPods).Ok?
    ensures PayloadToValue(t, ValueToBcWith(VStruct(t, ms), packDictPods).value.payload) == Ok(VStruct(t, ms))
    decreases VStruct(t, ms), 0
  {
    MembersRoundTrip(ms, packDictPods);
  }

  lemma {:induction false} VectorRoundTrip(e: Typeid, es: seq<Value>, packDictPods: bool)
    requires Convertible(VVector(e, es), packDictPods)
    ensures ValueToBcWith(VVector(e, es), packDictPods).Ok?
    ensures PayloadToValue(TVector(e), ValueToBcWith(VVector(e, es), packDictPods).value.payload) == Ok(VVector(e, es))
    decreases VVector(e, es), 1
  {
    if IsPod(e) {
      PodVectorRoundTrip(e, es, packDictPods);
    } else {
      ObjectVectorRoundTrip(e, es, packDictPods);
    }
  }

  lemma PodVectorRoundTrip(e: Typeid, es: seq<Value>, packDictPods: bool)
    requires IsPod(e) && WellFormed(VVector(e, es))
    ensures ValueToBcWith(VVector(e, es), packDictPods).Ok?
    ensures PayloadToValue(TVector(e), ValueToBcWith(VVector(e, es), packDictPods).value.payload) == Ok(VVector(e, es))
  {
    forall i | 0 <= i < |es| ensures BaseTypeOf(es[i]) == BaseOf(e) {
      PodTypedIsScalar(es[i]);
    }
    PodsRoundTrip(e, es);
    var pods := PackPods(e, es).value;
    VectorPodsWritten(e, es, packDictPods, pods);
    VectorPodsRead(e, pods, es);
  }

  lemma VectorPodsWritten(e: Typeid, es: seq<Value>, packDictPods: bool, pods: seq<Pod64>)
    requires IsPod(e) && PackPods(e, es) == Ok(pods)
    ensures ValueToBcWith(VVector(e, es), packDictPods) == Ok(BcValue(TVector(e), VectorPayload(pods, [])))
  {
  }

  lemma VectorPodsRead(e: Typeid, pods: seq<Pod64>, es: seq<Value>)
    requires IsPod(e) && UnpackPods(e, pods) == Ok(es)
    ensures PayloadToValue(TVector(e), VectorPayload(pods, [])) == Ok(VVector(e, es))
  {
  }

  lemma {:induction false} ObjectVectorRoundTrip(e: Typeid, es: seq<Value>, packDictPods: bool)
    requires Convertible(VVector(e, es), packDictPods) && !IsPod(e)
    ensures ValueToBcWith(VVector(e, es), packDictPods).Ok?
    ensures PayloadToValue(TVector(e), ValueToBcWith(VVector(e, es), packDictPods).value.payload) == Ok(VVector(e, es))
    decreases VVector(e, es), 0
  {
    VectorElementsConvertible(e, es, packDictPods);
    ObjectsRoundTrip(e, es, packDictPods);
    var os := ValuesToObjects(es, packDictPods).value;
    VectorObjectsWritten(e, es, packDictPods, os);
    VectorObjectsRead(e, os, es);
  }

  /** The elements of a convertible vector are convertible values of its
      element type. */
  lemma VectorElementsConvertible(e: Typeid, es: seq<Value>, packDictPods: bool)
    requires Convertible(VVector(e, es), packDictPods)
    ensures forall i :: 0 <= i < |es| ==> Convertible(es[i], packDictPods) && TypeOf(es[i]) == e
  {
  }

  lemma VectorObjectsWritten(e: Typeid, es: seq<Value>, packDictPods: bool, os: seq<BcPayload>)
    requires !IsPod(e) && ValuesToObjects(es, packDictPods) == Ok(os)
    ensures ValueToBcWith(VVector(e, es), packDictPods) == Ok(BcValue(TVector(e), VectorPayload([], os)))
  {
  }

  lemma VectorObjectsRead(e: Typeid, os: seq<BcPayload>, es: seq<Value>)
    requires !IsPod(e) && ObjectsToValues(e, os) == Ok(es)
    ensures PayloadToValue(TVector(e), VectorPayload([], os)) == Ok(VVector(e, es))
  {
  }

  lemma {:induction false} DictRoundTrip(vt: Typeid, es: seq<DictEntry>, packDictPods: bool)
    requires Convertible(VDict(vt, es), packDictPods)
    ensures ValueToBcWith(VDict(vt, es), packDictPods).Ok?
    ensures PayloadToValue(TDict(vt), ValueToBcWith(VDict(vt, es), packDictPods).value.payload) == Ok(VDict(vt, es))
    decreases VDict(vt, es), 1
  {
    if packDictPods && IsPod(vt) {
      PodDictRoundTrip(vt, es);
    } else {
      ObjectDictRoundTrip(vt, es, packDictPods);
    }
  }

  lemma {:induction false} ObjectDictRoundTrip(vt: Typeid, es: seq<DictEntry>, packDictPods: bool)
    requires Convertible(VDict(vt, es), packDictPods) && !(packDictPods && IsPod(vt))
    ensures ValueToBcWith(VDict(vt, es), packDictPods).Ok?
    ensures PayloadToValue(TDict(vt), ValueToBcWith(VDict(vt, es), packDictPods).value.payload) == Ok(VDict(vt, es))
    decreases VDict(vt, es), 0
  {
    DictEntriesConvertible(vt, es, packDictPods);
    ObjectEntriesRoundTrip(vt, es, packDictPods);
    var os := EntriesToObjects(es, packDictPods).value;
    DictObjectsWritten(vt, es, packDictPods, os);
    DictObjectsRead(vt, os, es);
  }

  lemma DictObjectsWritten(vt: Typeid, es: seq<DictEntry>, packDictPods: bool, os: seq<ObjectEntry>)
    requires !(packDictPods && IsPod(vt)) && EntriesToObjects(es, packDictPods) == Ok(os)
    ensures ValueToBcWith(VDict(vt, es), packDictPods) == Ok(BcValue(TDict(vt), DictPayload([], os)))
  {
  }

  lemma DictObjectsRead(vt: Typeid, os: seq<ObjectEntry>, es: seq<DictEntry>)
    requires !IsPod(vt) && ObjectEntriesToValues(vt, os) == Ok(es)
    ensures PayloadToValue(TDict(vt), DictPayload([], os)) == Ok(VDict(vt, es))
  {
  }

  /** The entries of a convertible dict are convertible values of its value
      type, and the dict holds objects unless pod dicts are packed. */
  lemma DictEntriesConvertible(vt: Typeid, es: seq<DictEntry>, packDictPods: bool)
    requires Convertible(VDict(vt, es), packDictPods)
    ensures forall i :: 0 <= i < |es| ==> Convertible(es[i].value, packDictPods) && TypeOf(es[i].value) == vt
    ensures !packDictPods ==> !IsPod(vt)
  {
  }

  lemma PodDictRoundTrip(vt: Typeid, es: seq<DictEntry>)
    requires IsPod(vt) && WellFormed(VDict(vt, es))
    ensures ValueToBcWith(VDict(vt, es), true).Ok?
    ensures PayloadToValue(TDict(vt), ValueToBcWith(VDict(vt, es), true).value.payload) == Ok(VDict(vt, es))
  {
    forall i | 0 <= i < |es| ensures BaseTypeOf(es[i].value) == BaseOf(vt) {
      PodTypedIsScalar(es[i].value);
    }
    PodEntriesRoundTrip(vt, es);
    var pods := PackPodEntries(vt, es).value;
    DictPodsWritten(vt, es, pods);
    DictPodsRead(vt, pods, es);
  }

  lemma DictPodsWritten(vt: Typeid, es: seq<DictEntry>, pods: seq<PodEntry>)
    requires IsPod(vt) && PackPodEntries(vt, es) == Ok(pods)
    ensures ValueToBcWith(VDict(vt, es), true) == Ok(BcValue(TDict(vt), DictPayload(pods, [])))
  {
  }

  lemma DictPodsRead(vt: Typeid, pods: seq<PodEntry>, es: seq<DictEntry>)
    requires IsPod(vt) && UnpackPodEntries(vt, pods) == Ok(es)
    ensures PayloadToValue(TDict(vt), DictPayload(pods, [])) == Ok(VDict(vt, es))
  {
  }

  lemma {:induction false} MembersRoundTrip(vs: seq<Value>, packDictPods: bool)
    requires forall i :: 0 <= i < |vs| ==> Convertible(vs[i], packDictPods)
    ensures ValuesToBcsWith(vs, packDictPods).Ok?
    ensures MembersToValues(ValuesToBcsWith(vs, packDictPods).value) == Ok(vs)
    decreases vs
  {
    if |vs| > 0 {
      ValueRoundTrip(vs[0], packDictPods);
      MembersRoundTrip(vs[1..], packDictPods);
      MembersStep(vs, packDictPods);
    }
  }

  /** A first member and a tail that round-trip make a whole that does. */
  lemma MembersStep(vs: seq<Value>, packDictPods: bool)
    requires |vs| > 0
    requires ValueToBcWith(vs[0], packDictPods).Ok?
    requires BcToValue(ValueToBcWith(vs[0], packDictPods).value) == Ok(vs[0])
    requires ValuesToBcsWith(vs[1..], packDictPods).Ok?
    requires MembersToValues(ValuesToBcsWith(vs[1..], packDictPods).value) == Ok(vs[1..])
    ensures ValuesToBcsWith(vs, packDictPods).Ok?
    ensures MembersToValues(ValuesToBcsWith(vs, packDictPods).value) == Ok(vs)
  {
    var b, rest := ValueToBcWith(vs[0], packDictPods).value, ValuesToBcsWith(vs[1..], packDictPods).value;
    assert ([b] + rest)[1..] == rest;
    assert [vs[0]] + vs[1..] == vs;
  }

  lemma {:induction false} ObjectsRoundTrip(t: Typeid, vs: seq<Value>, packDictPods: bool)
    requires forall i :: 0 <= i < |vs| ==> Convertible(vs[i], packDictPods) && TypeOf(vs[i]) == t
    ensures ValuesToObjects(vs, packDictPods).Ok?
    ensures ObjectsToValues(t, ValuesToObjects(vs, packDictPods).value) == Ok(vs)
    decreases vs
  {
    if |vs| > 0 {
      ValueRoundTrip(vs[0], packDictPods);
      ObjectsRoundTrip(t, vs[1..], packDictPods);
      ObjectsStep(t, vs, packDictPods);
    }
  }

  /** A first element and a tail that round-trip make a whole that does. */
  lemma ObjectsStep(t: Typeid, vs: seq<Value>, packDictPods: bool)
    requires |vs| > 0
    requires ValueToBcWith(vs[0], packDictPods).Ok?
    requires PayloadToValue(t, ValueToBcWith(vs[0], packDictPods).value.payload) == Ok(vs[0])
    requires ValuesToObjects(vs[1..], packDictPods).Ok?
    requires ObjectsToValues(t, ValuesToObjects(vs[1..], packDictPods).value) == Ok(vs[1..])
    ensures ValuesToObjects(vs, packDictPods).Ok?
    ensures ObjectsToValues(t, ValuesToObjects(vs, packDictPods).value) == Ok(vs)
  {
    var os := ValuesToObjects(vs, packDictPods).value;
    assert os[1..] == ValuesToObjects(vs[1..], packDictPods).value;
    assert [vs[0]] + vs[1..] == vs;
  }

  lemma {:induction false} ObjectEntriesRoundTrip(t: Typeid, es: seq<DictEntry>, packDictPods: bool)
    requires forall i :: 0 <= i < |es| ==> Convertible(es[i].value, packDictPods) && TypeOf(es[i].value) == t
    ensures EntriesToObjects(es, packDictPods).Ok?
    ensures ObjectEntriesToValues(t, EntriesToObjects(es, packDictPods).value) == Ok(es)
    decreases es
  {
    if |es| > 0 {
      ValueRoundTrip(es[0].value, packDictPods);
      ObjectEntriesRoundTrip(t, es[1..], packDictPods);
      ObjectEntriesStep(t, es, packDictPods, ValueToBcWith(es[0].value, packDictPods).value,
        EntriesToObjects(es[1..], packDictPods).value);
    }
  }

  /** A first entry and a tail that round-trip make a whole that does. */
  lemma ObjectEntriesStep(t: Typeid, es: seq<DictEntry>, packDictPods: bool, b: BcValue, rest: seq<ObjectEntry>)
    requires |es| > 0
    requires ValueToBcWith(es[0].value, packDictPods) == Ok(b)
    requires PayloadToValue(t, b.payload) == Ok(es[0].value)
    requires EntriesToObjects(es[1..], packDictPods) == Ok(rest)
    requires ObjectEntriesToValues(t, rest) == Ok(es[1..])
    ensures EntriesToObjects(es, packDictPods) == Ok([ObjectEntry(es[0].key, b.payload)] + rest)
    ensures ObjectEntriesToValues(t, [ObjectEntry(es[0].key, b.payload)] + rest) == Ok(es)
  {
    assert ([ObjectEntry(es[0].key, b.payload)] + rest)[1..] == rest;
    assert [DictEntry(es[0].key, es[0].value)] + es[1..] == es;
  }

  /** The corrected conversion round-trips every well-formed value. */
  lemma BcRoundTrip(v: Value)
    requires WellFormed(v)
    ensures ValueToBc(v).Ok? && BcToValue(ValueToBc(v).value) == Ok(v)
  {
    ValueRoundTrip(v, true);
  }

  /** The conversion as written round-trips every well-formed value without
      a dict of bool, int or double inside. */
  lemma AsWrittenRoundTrip(v: Value)
    requires WellFormed(v) && NoPodDicts(v)
    ensures ValueToBcAsWritten(v).Ok? && BcToValue(ValueToBcAsWritten(v).value) == Ok(v)
  {
    ValueRoundTrip(v, false);
  }

  /** As written, a dict of bool, int or double comes back empty: its
      entries are stored as objects but read from pod storage. */
  lemma AsWrittenEmptiesPodDicts(vt: Typeid, es: seq<DictEntry>)
    requires IsPod(vt) && WellFormed(VDict(vt, es))
    ensures ValueToBcAsWritten(VDict(vt, es)).Ok?
    ensures BcToValue(ValueToBcAsWritten(VDict(vt, es)).value) == Ok(VDict(vt, []))
  {
    forall i | 0 <= i < |es| ensures BaseTypeOf(es[i].value) == BaseOf(vt) {
      PodTypedIsScalar(es[i].value);
    }
    ScalarEntriesConvert(es, vt);
  }

  lemma {:induction false} ScalarEntriesConvert(es: seq<DictEntry>, vt: Typeid)
    requires IsPod(vt) && forall i :: 0 <= i < |es| ==> BaseTypeOf(es[i].value) == BaseOf(vt)
    ensures EntriesToObjects(es, false).Ok?
    decreases |es|
  {
    if |es| > 0 {
      ScalarEntriesConvert(es[1..], vt);
    }
  }

  /** The smallest case: `{"a": 1}` of type dict<int> reads back as `{}`. */
  lemma PodDictCounterexample()
    ensures ValueToBcAsWritten(VDict(TInt, [DictEntry("a", VInt(1))])).Ok?
    ensures BcToValue(ValueToBcAsWritten(VDict(TInt, [DictEntry("a", VInt(1))])).value) == Ok(VDict(TInt, []))
    ensures BcToValue(ValueToBc(VDict(TInt, [DictEntry("a", VInt(1))])).value) == Ok(VDict(TInt, [DictEntry("a", VInt(1))]))
  {
    var v := VDict(TInt, [DictEntry("a", VInt(1))]);
    assert WellFormed(v);
    AsWrittenEmptiesPodDicts(TInt, [DictEntry("a", VInt(1))]);
    BcRoundTrip(v);
  }

  // ------------------------------------------------------------------ globals and calls

  /** The interpreter state as far as lookup is concerned: global names and
      their bytecode values. */
  datatype Vm = Vm(globals: map<string, BcValue>)

  function GetGlobal(vm: Vm, name: string): (r: Result<Value>)
    ensures name !in vm.globals ==> r == Err(CannotFindGlobal)
    ensures name in vm.globals ==> r == BcToValue(vm.globals[name])
    ensures r.Ok? ==> name in vm.globals && TypeOf(r.value) == vm.globals[name].bcType
  {
    if name !in vm.globals then Err(CannotFindGlobal) else BcToValue(vm.globals[name])
  }

  /** A global stored from a well-formed value reads back as that value. */
  lemma GlobalRoundTrip(vm: Vm, name: string, v: Value)
    requires WellFormed(v) && ValueToBc(v).Ok? && name in vm.globals && vm.globals[name] == ValueToBc(v).value
    ensures GetGlobal(vm, name) == Ok(v)
  {
    BcRoundTrip(v);
  }

  /** The bytecode-level call, which this model does not execute. */
  type BcCall = (Vm, BcValue, seq<BcValue>) -> Result<BcValue>

  /** Converts the function and its arguments with the interpreter's own
      conversion (dicts always as objects), makes the bytecode call and
      converts the result back. */
  function CallFunction(vm: Vm, f: Value, args: seq<Value>, call: BcCall): (r: Result<Value>)
    ensures ValueToBcAsWritten(f).Err? || ValuesToBcsWith(args, false).Err? ==> r.Err?
    ensures r.Ok? ==> (
      && ValueToBcAsWritten(f).Ok? && ValuesToBcsWith(args, false).Ok?
      && call(vm, ValueToBcAsWritten(f).value, ValuesToBcsWith(args, false).value).Ok?
      && BcToValue(call(vm, ValueToBcAsWritten(f).value, ValuesToBcsWith(args, false).value).value) == r)
  {
    var f2 :- ValueToBcAsWritten(f);
    var args2 :- ValuesToBcsWith(args, false);
    var result :- call(vm, f2, args2);
    BcToValue(result)
  }

  /** A bytecode function body that hands back its first argument. */
  function ReturnFirstArgument(vm: Vm, f: BcValue, xs: seq<BcValue>): Result<BcValue> {
    if |xs| > 0 then Ok(xs[0]) else Err("no argument")
  }

  /** A bytecode function that hands back its first argument gives the
      caller that argument unchanged, as long as no dict inside it holds
      bool, int or double values. */
  lemma CallPassesArgumentsThrough(vm: Vm, f: Value, a: Value)
    requires WellFormed(f) && NoPodDicts(f) && WellFormed(a) && NoPodDicts(a)
    ensures CallFunction(vm, f, [a], ReturnFirstArgument) == Ok(a)
  {
    AsWrittenRoundTrip(f);
    AsWrittenRoundTrip(a);
    MembersRoundTrip([a], false);
  }

  /** A dict of ints passed through such a call comes back empty: the
      conversion stores its entries as objects and the reader looks for
      pods. */
  lemma CallDropsPodDictEntries(vm: Vm, f: Value)
    requires WellFormed(f) && NoPodDicts(f)
    ensures CallFunction(vm, f, [VDict(TInt, [DictEntry("a", VInt(1))])], ReturnFirstArgument)
            == Ok(VDict(TInt, []))
  {
    AsWrittenRoundTrip(f);
    PodDictCounterexample();
    var a := VDict(TInt, [DictEntry("a", VInt(1))]);
    var b := ValueToBcAsWritten(a).value;
    assert ValueToBcWith(a, false) == Ok(b);
    assert [a][1..] == [] && [b] + [] == [b];
    assert ValuesToBcsWith([a], false) == Ok([b]);
  }

  /** Runs `main` with the arguments if the program defines it, and yields
      undefined otherwise. */
  function RunProgram(vm: Vm, args: seq<Value>, call: BcCall): (r: Result<Value>)
    ensures "main" !in vm.globals ==> r == Ok(VUndefined)
    ensures "main" in vm.globals && r.Ok? ==> BcToValue(vm.globals["main"]).Ok?
  {
    if "main" in vm.globals then
      var mainFunction :- BcToValue(vm.globals["main"]);
      CallFunction(vm, mainFunction, args, call)
    else Ok(VUndefined)
  }
}

=== FILE: json.dfy ===
/** The JSON document type the value bridge and the AST decoder work on.
    Objects keep their members in ascending key order, as the source's
    map-backed JSON object does; numbers are exact reals. */
module Json {
  import opened Results
  import opened Text

  datatype Json =
    | JNull
    | JBool(b: bool)
    | JNumber(n: real)
    | JString(s: string)
    | JArray(elements: seq<Json>)
    | JObject(members: seq<JMember>)

  datatype JMember = JMember(key: string, value: Json)

  predicate KeysAscending(ms: seq<JMember>) {
    forall i, j :: 0 <= i < j < |ms| ==> StrLess(ms[i].key, ms[j].key)
  }

  /** Every object, at every depth, has strictly ascending keys. */
  predicate JsonWellFormed(j: Json) {
    match j
    case JArray(es) => forall i :: 0 <= i < |es| ==> JsonWellFormed(es[i])
    case JObject(ms) => KeysAscending(ms) && forall i :: 0 <= i < |ms| ==> JsonWellFormed(ms[i].value)
    case _ => true
  }

  /** Position of `key` among the members, if present. */
  function FindKey(ms: seq<JMember>, key: string): (r: Option<nat>)
    ensures r.Some? ==> r.value < |ms| && ms[r.value].key == key
    ensures r.Some? ==> forall k :: 0 <= k < r.value ==> ms[k].key != key
    ensures r.None? <==> forall i :: 0 <= i < |ms| ==> ms[i].key != key
    decreases |ms|
  {
    if |ms| == 0 then None
    else if ms[0].key == key then Some(0)
    else match FindKey(ms[1..], key)
      case None => None
      case Some(i) => Some(i + 1)
  }

  /** A key that does not occur earlier is found at its own position. */
  lemma FindFirstKey(ms: seq<JMember>, i: nat)
    requires i < |ms| && forall k :: 0 <= k < i ==> ms[k].key != ms[i].key
    ensures FindKey(ms, ms[i].key) == Some(i)
  {
  }

  function DoesObjectElementExist(j: Json, key: string): bool {
    j.JObject? && FindKey(j.members, key).Some?
  }

  function GetObjectElement(j: Json, key: string): (r: Result<Json>)
    ensures r.Ok? <==> DoesObjectElementExist(j, key)
    ensures r.Ok? ==> exists i :: 0 <= i < |j.members| && j.members[i] == JMember(key, r.value)
  {
    if !j.JObject? then Err("JSON value is not an object")
    else match FindKey(j.members, key)
      case None => Err("JSON object has no member \"" + key + "\"")
      case Some(i) => Ok(j.members[i].value)
  }

  function GetArrayN(j: Json, n: nat): (r: Result<Json>)
    ensures r.Ok? <==> j.JArray? && n < |j.elements|
    ensures r.Ok? ==> r.value == j.elements[n]
  {
    if j.JArray? && n < |j.elements| then Ok(j.elements[n]) else Err("JSON array index out of range")
  }

  function GetString(j: Json): (r: Result<string>)
    ensures r.Ok? <==> j.JString?
    ensures r.Ok? ==> r.value == j.s
  {
    if j.JString? then Ok(j.s) else Err("JSON value is not a string")
  }

  function GetNumber(j: Json): (r: Result<real>)
    ensures r.Ok? <==> j.JNumber?
    ensures r.Ok? ==> r.value == j.n
  {
    if j.JNumber? then Ok(j.n) else Err("JSON value is not a number")
  }

  function GetArray(j: Json): (r: Result<seq<Json>>)
    ensures r.Ok? <==> j.JArray?
    ensures r.Ok? ==> r.value == j.elements
  {
    if j.JArray? then Ok(j.elements) else Err("JSON value is not an array")
  }
}

=== FILE: parser_primitives.dfy ===
/** Text-parsing primitives of the front end: splitting a string at the
    first character in (or out of) a set, skipping whitespace, reading
    single characters, and cutting off a balanced bracket group. A split is
    a pair (consumed, rest) whose concatenation is the input. */
module ParserPrimitives {
  import opened Results
  import opened Text

  const Whitespace: string := " \n\t"
  /** Letters, digits and the underscore, in the order a-z, A-Z, 0-9, _. */
  const IdentifierChars: string := CharSpan('a', 'z') + CharSpan('A', 'Z') + CharSpan('0', '9') + "_"
  const Brackets: string := "(){}[]<>"
  const TypeChars: string := IdentifierChars + Brackets
  const NumberChars: string := "0123456789."

  const Unbalanced: string := "unbalanced ([{< >}])"
  const OutOfRange: string := "std::out_of_range"

  /** Space, newline or tab. */
  predicate IsWhitespace(c: char) {
    c == ' ' || c == '\n' || c == '\t'
  }

  /** A digit or a dot. */
  predicate IsNumberChar(c: char) {
    IsDigit(c) || c == '.'
  }

  /** A letter, a digit or an underscore. */
  predicate IsIdentifierChar(c: char) {
    'a' <= c <= 'z' || 'A' <= c <= 'Z' || '0' <= c <= '9' || c == '_'
  }

  /** The characters from `lo` to `hi` in order. */
  function CharSpan(lo: char, hi: char): (r: string)
    requires lo <= hi < 128 as char
    ensures forall c :: c in r <==> lo <= c <= hi
    decreases hi as int - lo as int
  {
    if lo == hi then [lo] else [lo] + CharSpan((lo as int + 1) as char, hi)
  }

  /** The predicates name exactly the characters of the sets. */
  lemma WhitespaceIsSet()
    ensures forall c :: IsWhitespace(c) <==> c in Whitespace
  {
  }

  lemma NumberCharIsSet()
    ensures forall c :: IsNumberChar(c) <==> c in NumberChars
  {
    forall c | IsDigit(c) ensures c in NumberChars {
      assert c == NumberChars[DigitValue(c)];
    }
  }

  lemma IdentifierCharIsSet()
    ensures forall c :: IsIdentifierChar(c) <==> c in IdentifierChars
  {
  }

  /** Putting the first character back in front of a split of the rest. */
  lemma ConsSplit(s: string, a: string, b: string)
    requires |s| > 0 && a + b == s[1..]
    ensures ([s[0]] + a) + b == s
    ensures forall i :: 0 < i < |a| + 1 ==> ([s[0]] + a)[i] == a[i - 1]
  {
    assert s == [s[0]] + s[1..];
  }

  /** The longest prefix made of characters in `m`, and the rest. */
  function ReadWhile(s: string, m: string): (r: (string, string))
    ensures r.0 + r.1 == s
    ensures forall i :: 0 <= i < |r.0| ==> r.0[i] in m
    ensures |r.1| == 0 || r.1[0] !in m
    decreases |s|
  {
    if |s| == 0 || s[0] !in m then ("", s)
    else
      var t := ReadWhile(s[1..], m);
      ConsSplit(s, t.0, t.1);
      ([s[0]] + t.0, t.1)
  }

  /** The longest prefix free of characters in `m`, and the rest. */
  function ReadUntil(s: string, m: string): (r: (string, string))
    ensures r.0 + r.1 == s
    ensures forall i :: 0 <= i < |r.0| ==> r.0[i] !in m
    ensures |r.1| == 0 || r.1[0] in m
    decreases |s|
  {
    if |s| == 0 || s[0] in m then ("", s)
    else
      var t := ReadUntil(s[1..], m);
      ConsSplit(s, t.0, t.1);
      ([s[0]] + t.0, t.1)
  }

  /** The three properties of `ReadWhile` pin the split down: any split
      with them is the one `ReadWhile` returns. */
  lemma {:induction false} ReadWhileUnique(s: string, m: string, a: string, b: string)
    requires a + b == s
    requires forall i :: 0 <= i < |a| ==> a[i] in m
    requires |b| == 0 || b[0] !in m
    ensures ReadWhile(s, m) == (a, b)
    decreases |s|
  {
    if |a| > 0 {
      assert s[0] == a[0];
      assert a[1..] + b == s[1..];
      ReadWhileUnique(s[1..], m, a[1..], b);
      assert [s[0]] + a[1..] == a;
    } else {
      assert b == s;
    }
  }

  lemma {:induction false} ReadUntilUnique(s: string, m: string, a: string, b: string)
    requires a + b == s
    requires forall i :: 0 <= i < |a| ==> a[i] !in m
    requires |b| == 0 || b[0] in m
    ensures ReadUntil(s, m) == (a, b)
    decreases |s|
  {
    if |a| > 0 {
      assert s[0] == a[0];
      assert a[1..] + b == s[1..];
      ReadUntilUnique(s[1..], m, a[1..], b);
      assert [s[0]] + a[1..] == a;
    } else {
      assert b == s;
    }
  }

  /** The text after the leading spaces, tabs and newlines. */
  function SkipWhitespace(s: string): (r: string)
    ensures |r| <= |s| && s[|s| - |r|..] == r
    ensures forall i :: 0 <= i < |s| - |r| ==> IsWhitespace(s[i])
    ensures |r| == 0 || !IsWhitespace(r[0])
  {
    var t := ReadWhile(s, Whitespace);
    assert s[|t.0|..] == t.1;
    WhitespaceIsSet();
    t.1
  }

  lemma SkipWhitespaceIdempotent(s: string)
    ensures SkipWhitespace(SkipWhitespace(s)) == SkipWhitespace(s)
  {
    var r := SkipWhitespace(s);
    ReadWhileUnique(r, Whitespace, "", r);
  }

  /** Text that does not start with whitespace is left alone. */
  lemma SkipWhitespaceNoop(s: string)
    requires |s| == 0 || !IsWhitespace(s[0])
    ensures SkipWhitespace(s) == s
  {
    WhitespaceIsSet();
    ReadWhileUnique(s, Whitespace, "", s);
  }

  lemma SkipWhitespaceExamples()
    ensures SkipWhitespace("") == ""
    ensures SkipWhitespace("\t\t\t int blob()") == "int blob()"
    ensures SkipWhitespace("int blob()") == "int blob()"
  {
    ReadWhileUnique("\t\t\t int blob()", Whitespace, "\t\t\t ", "int blob()");
    SkipWhitespaceNoop("int blob()");
  }

  function ReadChar(s: string): (r: Result<(char, string)>)
    ensures r.Ok? <==> |s| > 0
    ensures r.Ok? ==> [r.value.0] + r.value.1 == s
    ensures r.Err? ==> r.msg == "expected character."
  {
    if |s| > 0 then Ok((s[0], s[1..])) else Err("expected character.")
  }

  /** Consumes `ch`, which must come first. */
  function ReadRequiredChar(s: string, ch: char): (r: Result<string>)
    ensures r.Ok? <==> |s| > 0 && s[0] == ch
    ensures r.Ok? ==> [ch] + r.value == s
    ensures r.Err? ==> r.msg == "expected character '" + [ch] + "'."
  {
    if |s| > 0 && s[0] == ch then Ok(s[1..]) else Err("expected character '" + [ch] + "'.")
  }

  /** Consumes `ch` if it comes first, and otherwise returns the input. */
  function ReadOptionalChar(s: string, ch: char): (r: (bool, string))
    ensures r.0 <==> |s| > 0 && s[0] == ch
    ensures r.0 ==> [ch] + r.1 == s
    ensures !r.0 ==> r.1 == s
  {
    if |s| > 0 && s[0] == ch then (true, s[1..]) else (false, s)
  }

  predicate PeekCompareChar(s: string, ch: char) {
    |s| > 0 && s[0] == ch
  }

  /** Whether `p` is a prefix of `s`. */
  function PeekString(s: string, p: string): (r: bool)
    ensures r <==> exists t :: s == p + t
  {
    if |s| >= |p| && s[..|p|] == p then
      assert s == p + s[|p|..];
      true
    else
      forall t ensures s != p + t {
        assert (p + t)[..|p|] == p;
      }
      false
  }

  lemma PeekStringExamples()
    ensures PeekString("", "") && PeekString("abc", "ab") && PeekString("abc", "abc")
    ensures !PeekString("", "b") && !PeekString("abc", "abx") && !PeekString("a", "b")
  {
    assert "abc" == "ab" + "c";
    assert "abc" == "abc" + "";
    assert "" == "" + "";
    assert "abc"[..3][2] != "abx"[2];
    assert "a"[..1][0] != "b"[0];
  }

  /** Leading whitespace skipped, then the longest run of type characters. */
  function GetType(s: string): (r: (string, string))
    ensures r.0 + r.1 == SkipWhitespace(s)
    ensures forall i :: 0 <= i < |r.0| ==> r.0[i] in TypeChars
    ensures |r.1| == 0 || r.1[0] !in TypeChars
  {
    ReadWhile(SkipWhitespace(s), TypeChars)
  }

  /** Leading whitespace skipped, then the longest run of identifier characters. */
  function GetIdentifier(s: string): (r: (string, string))
    ensures r.0 + r.1 == SkipWhitespace(s)
    ensures forall i :: 0 <= i < |r.0| ==> r.0[i] in IdentifierChars
    ensures |r.1| == 0 || r.1[0] !in IdentifierChars
  {
    ReadWhile(SkipWhitespace(s), IdentifierChars)
  }

  /** An identifier is required: an empty one fails. */
  function ReadRequiredIdentifier(s: string): (r: Result<(string, string)>)
    ensures r.Ok? <==> |GetIdentifier(s).0| > 0
    ensures r.Ok? ==> r.value == GetIdentifier(s) && r.value.0 + r.value.1 == SkipWhitespace(s)
    ensures r.Err? ==> r.msg == "missing identifier"
  {
    var t := GetIdentifier(s);
    if |t.0| == 0 then Err("missing identifier") else Ok(t)
  }

  predicate IsStartChar(c: char) {
    c == '(' || c == '[' || c == '{' || c == '<'
  }

  predicate IsEndChar(c: char) {
    c == ')' || c == ']' || c == '}' || c == '>'
  }

  function StartCharToEndChar(c: char): (r: char)
    requires IsStartChar(c)
    ensures IsEndChar(r)
  {
    match c
    case '(' => ')'
    case '[' => ']'
    case '{' => '}'
    case '<' => '>'
  }

  /** Each opener has its own closer. */
  lemma StartEndPairing(a: char, b: char)
    requires IsStartChar(a) && IsStartChar(b)
    ensures StartCharToEndChar(a) == StartCharToEndChar(b) <==> a == b
  {
  }

  /** Bracket depth after reading the first `k` characters: openers of any
      kind count up, closers of any kind count down. */
  function Depth(s: string, k: nat): int
    requires k <= |s|
  {
    if k == 0 then 0
    else Depth(s, k - 1) + (if IsStartChar(s[k - 1]) then 1 else if IsEndChar(s[k - 1]) then -1 else 0)
  }

  /** The scan stops at position k when k is at depth 1 and holds the closer. */
  predicate StopsAt(s: string, closer: char, k: nat)
    requires k < |s|
  {
    Depth(s, k) == 1 && s[k] == closer
  }

  /** Position k holds a closer at depth 0 and the scan has not stopped
      before it: the first stray closer. */
  predicate StrayCloserAt(s: string, closer: char, k: nat)
    requires k < |s|
  {
    IsEndChar(s[k]) && Depth(s, k) == 0 && forall j :: 0 <= j < k ==> !StopsAt(s, closer, j)
  }

  /** Scans from `pos` at the current depth for the closer that brings the
      depth from 1 back out; a closer seen at depth 0 is an error. Gives the
      stop position, or |s| when the text runs out. */
  function ScanBalanced(s: string, closer: char, pos: nat): (r: Result<nat>)
    requires pos <= |s|
    requires forall k :: 0 <= k < pos ==> Depth(s, k) >= 0 && !StopsAt(s, closer, k) && !(IsEndChar(s[k]) && Depth(s, k) == 0)
    ensures r.Ok? ==> pos <= r.value <= |s|
    ensures r.Ok? ==> forall k :: 0 <= k < r.value ==> !StopsAt(s, closer, k) && !(IsEndChar(s[k]) && Depth(s, k) == 0)
    ensures r.Ok? && r.value < |s| ==> StopsAt(s, closer, r.value)
    ensures r.Err? ==> r.msg == Unbalanced && exists k :: pos <= k < |s| && StrayCloserAt(s, closer, k)
    decreases |s| - pos
  {
    if pos == |s| then Ok(pos)
    else if StopsAt(s, closer, pos) then Ok(pos)
    else if IsEndChar(s[pos]) && Depth(s, pos) == 0 then assert StrayCloserAt(s, closer, pos); Err(Unbalanced)
    else ScanBalanced(s, closer, pos + 1)
  }

  /** Splits off the bracket group that `s` starts with: the group ends at
      the first closer matching the opener that is reached at depth 1. A
      closer at depth 0 is "unbalanced"; running out of text makes the
      final substring out of range. */
  function GetBalanced(s: string): (r: Result<(string, string)>)
    requires |s| > 0 && IsStartChar(s[0])
    ensures r.Ok? ==> r.value.0 + r.value.1 == s
    ensures r.Ok? ==> 2 <= |r.value.0| && r.value.0[|r.value.0| - 1] == StartCharToEndChar(s[0])
    ensures r.Ok? ==> StopsAt(s, StartCharToEndChar(s[0]), |r.value.0| - 1)
    ensures r.Ok? ==> forall k :: 0 <= k < |r.value.0| - 1 ==> !StopsAt(s, StartCharToEndChar(s[0]), k)
    ensures r.Err? ==> r.msg == Unbalanced || r.msg == OutOfRange
    ensures r == Err(Unbalanced) <==> exists k :: 0 <= k < |s| && StrayCloserAt(s, StartCharToEndChar(s[0]), k)
    ensures r == Err(OutOfRange) <==> forall k :: 0 <= k < |s| ==>
      !StopsAt(s, StartCharToEndChar(s[0]), k) && !(IsEndChar(s[k]) && Depth(s, k) == 0)
  {
    var closer := StartCharToEndChar(s[0]);
    var scan := ScanBalanced(s, closer, 0);
    if scan.Ok? then
      NoStrayCloserBeforeStop(s, closer, scan.value);
      var pos := scan.value;
      if pos == |s| then Err(OutOfRange)
      else
        assert Depth(s, 0) == 0;
        assert s[..pos + 1] + s[pos + 1..] == s;
        Ok((s[..pos + 1], s[pos + 1..]))
    else
      Err(scan.msg)
  }

  /** Where the scan stops (or runs out), no stray closer came first. */
  lemma NoStrayCloserBeforeStop(s: string, closer: char, pos: nat)
    requires pos <= |s|
    requires pos == |s| || StopsAt(s, closer, pos)
    requires forall k :: 0 <= k < pos ==> !StopsAt(s, closer, k) && !(IsEndChar(s[k]) && Depth(s, k) == 0)
    ensures forall k :: 0 <= k < |s| ==> !StrayCloserAt(s, closer, k)
  {
  }

  lemma GetBalancedExamples()
    ensures GetBalanced("()") == Ok(("()", ""))
    ensures GetBalanced("(abc)def") == Ok(("(abc)", "def"))
  {
    assert "()"[..2] == "()";
    assert "(abc)def"[..5] == "(abc)";
  }

  lemma GetBalancedNestedExample()
    ensures GetBalanced("((abc)[])def") == Ok(("((abc)[])", "def"))
  {
    var s := "((abc)[])def";
    assert Depth(s, 2) == 2;
    assert Depth(s, 5) == 2;
    assert Depth(s, 7) == 2;
    assert Depth(s, 8) == 1;
    assert s[..9] == "((abc)[])";
  }

  lemma GetBalancedErrorExamples()
    ensures GetBalanced("(]]") == Err(Unbalanced)
    ensures GetBalanced("(abc") == Err(OutOfRange)
  {
  }

  /** A bracket group with no brackets inside is cut right after its closer. */
  lemma GetBalancedFlat(open: char, inner: string, rest: string)
    requires IsStartChar(open)
    requires forall i :: 0 <= i < |inner| ==> !IsStartChar(inner[i]) && !IsEndChar(inner[i])
    ensures GetBalanced([open] + inner + [StartCharToEndChar(open)] + rest)
      == Ok(([open] + inner + [StartCharToEndChar(open)], rest))
  {
    var closer := StartCharToEndChar(open);
    var s := [open] + inner + [closer] + rest;
    var e := |inner| + 1;
    assert s[0] == open && s[e] == closer;
    assert forall k :: 1 <= k < e ==> s[k] == inner[k - 1];
    FlatDepth(s, e);
    FlatPrefix(s, closer, 1, e);
    ScanFlat(s, closer, 1, e);
    assert ScanBalanced(s, closer, 0) == ScanBalanced(s, closer, 1);
    assert s[..e + 1] == [open] + inner + [closer];
    assert s[e + 1..] == rest;
  }

  /** After an opener, the depth stays 1 across characters that are not brackets. */
  lemma {:induction false} FlatDepth(s: string, e: nat)
    requires 0 < e < |s| && IsStartChar(s[0])
    requires forall k :: 1 <= k < e ==> !IsStartChar(s[k]) && !IsEndChar(s[k])
    ensures forall k :: 1 <= k <= e ==> Depth(s, k) == 1
    decreases e
  {
    if e > 1 {
      FlatDepth(s, e - 1);
      assert Depth(s, e) == Depth(s, e - 1);
    }
  }

  /** Before the closer of a flat group the scan finds nothing to stop at. */
  lemma FlatPrefix(s: string, closer: char, pos: nat, e: nat)
    requires 1 <= pos <= e < |s| && IsEndChar(closer) && IsStartChar(s[0])
    requires forall k :: 1 <= k <= e ==> Depth(s, k) == 1
    requires forall k :: 1 <= k < e ==> !IsStartChar(s[k]) && !IsEndChar(s[k])
    ensures forall k :: 0 <= k < pos ==> Depth(s, k) >= 0 && !StopsAt(s, closer, k) && !(IsEndChar(s[k]) && Depth(s, k) == 0)
  {
    assert Depth(s, 0) == 0;
    forall k | 0 <= k < pos
      ensures Depth(s, k) >= 0 && !StopsAt(s, closer, k) && !(IsEndChar(s[k]) && Depth(s, k) == 0)
    {
      if k > 0 {
        assert Depth(s, k) == 1 && !IsEndChar(s[k]);
      }
    }
  }

  lemma {:induction false} ScanFlat(s: string, closer: char, pos: nat, e: nat)
    requires 1 <= pos <= e < |s| && s[e] == closer && IsEndChar(closer) && IsStartChar(s[0])
    requires forall k :: 1 <= k <= e ==> Depth(s, k) == 1
    requires forall k :: 1 <= k < e ==> !IsStartChar(s[k]) && !IsEndChar(s[k])
    requires forall k :: 0 <= k < pos ==> Depth(s, k) >= 0 && !StopsAt(s, closer, k) && !(IsEndChar(s[k]) && Depth(s, k) == 0)
    ensures ScanBalanced(s, closer, pos) == Ok(e)
    decreases e - pos
  {
    if pos < e {
      FlatPrefix(s, closer, pos + 1, e);
      ScanFlat(s, closer, pos + 1, e);
      assert !IsEndChar(s[pos]) && Depth(s, pos) == 1;
    } else {
      assert StopsAt(s, closer, e);
    }
  }

  // ------------------------------------------------------------------ scans by position

  /** The position where the run of characters satisfying `p` that starts
      at `i` ends. With `p` the membership test of a set this is `ReadWhile`
      told as a position; with its negation, `ReadUntil`. */
  function ScanWhile(s: string, i: nat, p: char -> bool): (j: nat)
    requires i <= |s|
    ensures i <= j <= |s|
    ensures forall k :: i <= k < j ==> p(s[k])
    ensures j == |s| || !p(s[j])
    decreases |s| - i
  {
    if i < |s| && p(s[i]) then ScanWhile(s, i + 1, p) else i
  }

  /** A scan stops exactly at the first position that fails its test. */
  lemma ScanWhileEnds(s: string, i: nat, p: char -> bool, j: nat)
    requires i <= j <= |s|
    requires forall k :: i <= k < j ==> p(s[k])
    requires j == |s| || !p(s[j])
    ensures ScanWhile(s, i, p) == j
    decreases j - i
  {
    if i < j {
      ScanWhileEnds(s, i + 1, p, j);
    }
  }

  lemma ScanWhileIsReadWhile(s: string, i: nat, p: char -> bool, m: string)
    requires i <= |s|
    requires forall c :: p(c) <==> c in m
    ensures ReadWhile(s[i..], m) == (s[i..ScanWhile(s, i, p)], s[ScanWhile(s, i, p)..])
  {
    var j := ScanWhile(s, i, p);
    assert s[i..j] + s[j..] == s[i..];
    ReadWhileUnique(s[i..], m, s[i..j], s[j..]);
  }

  lemma ScanWhileIsReadUntil(s: string, i: nat, p: char -> bool, m: string)
    requires i <= |s|
    requires forall c :: p(c) <==> c !in m
    ensures ReadUntil(s[i..], m) == (s[i..ScanWhile(s, i, p)], s[ScanWhile(s, i, p)..])
  {
    var j := ScanWhile(s, i, p);
    assert s[i..j] + s[j..] == s[i..];
    ReadUntilUnique(s[i..], m, s[i..j], s[j..]);
  }

  /** The position after the whitespace that starts at `i`. */
  function SkipWhitespaceAt(s: string, i: nat): (j: nat)
    requires i <= |s|
    ensures i <= j <= |s|
    ensures forall k :: i <= k < j ==> IsWhitespace(s[k])
    ensures j == |s| || !IsWhitespace(s[j])
  {
    ScanWhile(s, i, IsWhitespace)
  }

  lemma SkipWhitespaceAtAgrees(s: string, i: nat)
    requires i <= |s|
    ensures SkipWhitespace(s[i..]) == s[SkipWhitespaceAt(s, i)..]
  {
    WhitespaceIsSet();
    ScanWhileIsReadWhile(s, i, IsWhitespace, Whitespace);
  }

  /** The text between the first and the last character. */
  function TrimEnds(s: string): (r: string)
    requires |s| >= 2
    ensures |r| == |s| - 2 && s == [s[0]] + r + [s[|s| - 1]]
  {
    s[1..|s| - 1]
  }
}

=== FILE: parser_types.dfy ===
/** The front end's type registry: the five base types, type definitions and
    the signature strings that name them, the default memory layout of a
    struct, and the collector that maps type identifiers (possibly through
    aliases) and signatures to definitions. Collectors are values: every
    operation returns a new one and leaves its argument as it was. */
module ParserTypes {
  import opened Results
  import opened Text

  datatype FrontendBaseType = Int32 | Bool | String | Struct | Vector

  function BaseTypeName(t: FrontendBaseType): string {
    match t
    case Int32 => "int32"
    case Bool => "bool"
    case String => "string"
    case Struct => "struct"
    case Vector => "vector"
  }

  /** Different base types have different names. */
  lemma BaseTypeNameInjective(a: FrontendBaseType, b: FrontendBaseType)
    ensures BaseTypeName(a) == BaseTypeName(b) <==> a == b
  {
    if a != b {
      assert BaseTypeName(a)[3] != BaseTypeName(b)[3] || BaseTypeName(a)[0] != BaseTypeName(b)[0];
    }
  }

  /** One struct member: the identifier of its type and its own name. */
  datatype Arg = Arg(argType: string, identifier: string)

  datatype StructDef = StructDef(members: seq<Arg>)

  /** A vector definition; its element type takes no part in the signature. */
  datatype VectorDef = VectorDef(valueTypeIdentifier: string)

  datatype TypeDefinition = TypeDefinition(baseType: FrontendBaseType, structDef: Option<StructDef>, vectorDef: Option<VectorDef>)

  /** A struct part is present exactly for structs, a vector part exactly for vectors. */
  predicate TypeDefinitionValid(t: TypeDefinition) {
    (t.structDef.Some? <==> t.baseType == Struct) && (t.vectorDef.Some? <==> t.baseType == Vector)
  }

  function SimpleType(b: FrontendBaseType): (t: TypeDefinition)
    requires b != Struct && b != Vector
    ensures TypeDefinitionValid(t) && t.baseType == b
  {
    TypeDefinition(b, None, None)
  }

  function StructType(sd: StructDef): (t: TypeDefinition)
    ensures TypeDefinitionValid(t) && t.baseType == Struct && t.structDef == Some(sd)
  {
    TypeDefinition(Struct, Some(sd), None)
  }

  // ------------------------------------------------------------------ signatures

  /** `<type>name` */
  function MemberSignature(a: Arg): (r: string)
    ensures |r| >= 2 && r[0] == '<'
  {
    "<" + a.argType + ">" + a.identifier
  }

  /** The members' signatures, each followed by a comma, in member order. */
  function MembersBody(ms: seq<Arg>): string
    decreases |ms|
  {
    if |ms| == 0 then "" else MemberSignature(ms[0]) + "," + MembersBody(ms[1..])
  }

  function DropTrailingComma(body: string): string {
    if |body| > 1 && body[|body| - 1] == ',' then body[..|body| - 1] else body
  }

  /** The signature naming a type: `<struct>{...}` listing the members,
      `<vector>[]`, or the base type's name in angle brackets. */
  function ToSignature(t: TypeDefinition): string
    requires TypeDefinitionValid(t)
  {
    match t.baseType
    case Struct => "<struct>" + "{" + DropTrailingComma(MembersBody(t.structDef.value.members)) + "}"
    case Vector => "<vector>" + "[" + "]"
    case _ => "<" + BaseTypeName(t.baseType) + ">"
  }

  function MemberSignatures(ms: seq<Arg>): (r: seq<string>)
    ensures |r| == |ms| && forall i :: 0 <= i < |ms| ==> r[i] == MemberSignature(ms[i])
  {
    seq(|ms|, i requires 0 <= i < |ms| => MemberSignature(ms[i]))
  }

  /** The comma-per-member body is the comma-joined member list plus one comma. */
  lemma {:induction false} MembersBodyIsJoin(ms: seq<Arg>)
    ensures |ms| > 0 ==> MembersBody(ms) == Join(",", MemberSignatures(ms)) + ","
    ensures |ms| == 0 ==> MembersBody(ms) == ""
    decreases |ms|
  {
    if |ms| > 1 {
      MembersBodyIsJoin(ms[1..]);
      assert MemberSignatures(ms)[1..] == MemberSignatures(ms[1..]);
    }
  }

  /** A struct signature lists the member signatures separated by commas,
      with no comma after the last. */
  lemma StructSignatureIsJoin(sd: StructDef)
    ensures ToSignature(StructType(sd)) == "<struct>{" + Join(",", MemberSignatures(sd.members)) + "}"
  {
    MembersBodyIsJoin(sd.members);
    if |sd.members| > 0 {
      var j := Join(",", MemberSignatures(sd.members));
      assert |j| >= 2 by {
        JoinStartsWithFirst(",", MemberSignatures(sd.members));
      }
      assert (j + ",")[..|j + ","| - 1] == j;
    }
  }

  lemma JoinStartsWithFirst(d: string, ps: seq<string>)
    requires |ps| > 0
    ensures |Join(d, ps)| >= |ps[0]|
  {
  }

  /** Signatures tell the base types apart. */
  lemma SignatureKeepsBaseType(a: TypeDefinition, b: TypeDefinition)
    requires TypeDefinitionValid(a) && TypeDefinitionValid(b)
    requires ToSignature(a) == ToSignature(b)
    ensures a.baseType == b.baseType
  {
    SignatureTag(a);
    SignatureTag(b);
  }

  /** The fifth character of a signature tells its base type. */
  function Tag(b: FrontendBaseType): char {
    match b
    case Int32 => '3'
    case Bool => 'l'
    case String => 'i'
    case Struct => 'u'
    case Vector => 't'
  }

  lemma SignatureTag(t: TypeDefinition)
    requires TypeDefinitionValid(t)
    ensures |ToSignature(t)| > 4 && ToSignature(t)[4] == Tag(t.baseType)
  {
  }

  lemma SignatureExamples()
    ensures ToSignature(SimpleType(Int32)) == "<int32>"
    ensures ToSignature(TypeDefinition(Vector, None, Some(VectorDef("int32")))) == "<vector>[]"
    ensures ToSignature(StructType(StructDef([]))) == "<struct>{}"
  {
  }

  lemma StructSignatureExample(ms: seq<Arg>)
    requires ms == [Arg("int32", "a"), Arg("string", "b")]
    ensures ToSignature(StructType(StructDef(ms))) == "<struct>{" + "<int32>a" + "," + "<string>b" + "}"
  {
    TwoMemberSignature(ms);
    assert MemberSignature(ms[0]) == "<int32>a" && MemberSignature(ms[1]) == "<string>b";
  }

  lemma TwoMemberSignature(ms: seq<Arg>)
    requires |ms| == 2
    ensures ToSignature(StructType(StructDef(ms))) == "<struct>{" + MemberSignature(ms[0]) + "," + MemberSignature(ms[1]) + "}"
  {
    var x, y := MemberSignature(ms[0]), MemberSignature(ms[1]);
    assert ms[1..][0] == ms[1] && ms[1..][1..] == [];
    assert MembersBody(ms[1..]) == y + "," + MembersBody(ms[1..][1..]);
    assert MembersBody(ms) == x + "," + (y + "," + "");
    assert x + "," + (y + "," + "") == (x + "," + y) + ",";
  }

  // ------------------------------------------------------------------ memory layout

  /** Rounds `pos` up to the next multiple of `alignment`. */
  function AlignPos(pos: nat, alignment: nat): (r: nat)
    requires alignment > 0
    ensures pos <= r < pos + alignment
    ensures r % alignment == 0
    ensures pos % alignment == 0 ==> r == pos
  {
    var rem := pos % alignment;
    RoundUpIsMultiple(pos, alignment);
    pos + (if rem == 0 then 0 else alignment - rem)
  }

  lemma RoundUpIsMultiple(pos: nat, a: nat)
    requires a > 0
    ensures pos % a != 0 ==> (pos + a - pos % a) % a == 0
  {
    var q := pos / a;
    assert pos + a - pos % a == a * (q + 1);
    MultipleMod(a, q + 1);
  }

  lemma MulNonneg(a: int, k: int)
    requires a >= 0 && k >= 0
    ensures a * k >= 0
  {
  }

  lemma MultipleMod(a: nat, q: nat)
    requires a > 0
    ensures (a * q) % a == 0
  {
    var x := a * q;
    var k := q - x / a;
    assert a * k == x % a;
    if k >= 1 {
      MulNonneg(a, k - 1);
    } else if k <= -1 {
      MulNonneg(a, -k - 1);
    }
  }

  /** No smaller aligned position lies at or after `pos`. */
  lemma AlignPosIsLeast(pos: nat, alignment: nat, m: nat)
    requires alignment > 0 && pos <= m && m % alignment == 0
    ensures AlignPos(pos, alignment) <= m
  {
    var r := AlignPos(pos, alignment);
    var k := r / alignment - m / alignment;
    assert alignment * k == r - m;
    if k >= 1 {
      MulNonneg(alignment, k - 1);
    } else {
      MulNonneg(alignment, -k);
    }
  }

  lemma AlignPosExamples()
    ensures AlignPos(0, 8) == 0 && AlignPos(1, 8) == 8 && AlignPos(7, 8) == 8
    ensures AlignPos(8, 8) == 8 && AlignPos(9, 8) == 16
  {
  }

  datatype ByteRange = ByteRange(start: nat, size: nat)

  function SlotSize(b: FrontendBaseType): nat {
    match b
    case Int32 => 4
    case Bool => 1
    case _ => 8
  }

  function SlotAlignment(b: FrontendBaseType): nat {
    match b
    case Int32 => 4
    case Bool => 1
    case _ => 8
  }

  /** Where a member of base type `b` starts when the previous one ends at
      `pos`: int32 rounds up to 4, bool takes the next byte, the rest round
      up to 8. */
  function Place(pos: nat, b: FrontendBaseType): (start: nat)
    ensures pos <= start < pos + SlotAlignment(b) && start % SlotAlignment(b) == 0
  {
    match b
    case Int32 => AlignPos(pos, 4)
    case Bool => pos
    case _ => AlignPos(pos, 8)
  }

  /** The ranges of `bases` placed one after another from `pos`. */
  function RangesFrom(pos: nat, bases: seq<FrontendBaseType>): seq<ByteRange>
    decreases |bases|
  {
    if |bases| == 0 then []
    else
      var start := Place(pos, bases[0]);
      [ByteRange(start, SlotSize(bases[0]))] + RangesFrom(start + SlotSize(bases[0]), bases[1..])
  }

  /** Where the last of `bases` ends when they are placed from `pos`. */
  function EndFrom(pos: nat, bases: seq<FrontendBaseType>): nat
    decreases |bases|
  {
    if |bases| == 0 then pos else EndFrom(Place(pos, bases[0]) + SlotSize(bases[0]), bases[1..])
  }

  /** The struct's own range, rounded up to 8, then the members' ranges. */
  function StructLayout(bases: seq<FrontendBaseType>): seq<ByteRange> {
    [ByteRange(0, AlignPos(EndFrom(0, bases), 8))] + RangesFrom(0, bases)
  }

  /** Member ranges have their type's size and alignment, start no later
      than their alignment requires, and end no later than the last member. */
  lemma {:induction false} RangesFromLaid(pos: nat, bases: seq<FrontendBaseType>)
    ensures |RangesFrom(pos, bases)| == |bases|
    ensures forall i :: 0 <= i < |bases| ==>
      RangesFrom(pos, bases)[i].size == SlotSize(bases[i]) && RangesFrom(pos, bases)[i].start % SlotAlignment(bases[i]) == 0
      && pos <= RangesFrom(pos, bases)[i].start
      && RangesFrom(pos, bases)[i].start + RangesFrom(pos, bases)[i].size <= EndFrom(pos, bases)
    ensures |bases| > 0 ==> RangesFrom(pos, bases)[0].start < pos + SlotAlignment(bases[0])
    ensures forall i :: 0 < i < |bases| ==>
      RangesFrom(pos, bases)[i].start < RangesFrom(pos, bases)[i - 1].start + RangesFrom(pos, bases)[i - 1].size + SlotAlignment(bases[i])
    ensures |bases| == 0 ==> EndFrom(pos, bases) == pos
    ensures |bases| > 0 ==> EndFrom(pos, bases) == RangesFrom(pos, bases)[|bases| - 1].start + SlotSize(bases[|bases| - 1])
    decreases |bases|
  {
    if |bases| > 0 {
      var next := Place(pos, bases[0]) + SlotSize(bases[0]);
      RangesFromLaid(next, bases[1..]);
      var rs, rest := RangesFrom(pos, bases), RangesFrom(next, bases[1..]);
      assert rs == [ByteRange(Place(pos, bases[0]), SlotSize(bases[0]))] + rest;
      assert EndFrom(pos, bases) == EndFrom(next, bases[1..]);
      if |bases| > 1 {
        assert rs[|bases| - 1] == rest[|bases| - 2] && bases[|bases| - 1] == bases[1..][|bases| - 2];
      }
      forall i | 0 <= i < |bases|
        ensures rs[i].size == SlotSize(bases[i]) && rs[i].start % SlotAlignment(bases[i]) == 0
        ensures pos <= rs[i].start && rs[i].start + rs[i].size <= EndFrom(pos, bases)
        ensures i > 0 ==> rs[i].start < rs[i - 1].start + rs[i - 1].size + SlotAlignment(bases[i])
      {
        if i > 0 {
          assert rs[i] == rest[i - 1] && bases[i] == bases[1..][i - 1];
          if i > 1 {
            assert rs[i - 1] == rest[i - 2];
          }
        }
      }
    }
  }

  /** Each member range ends before any later one starts. */
  lemma {:induction false} RangesFromDisjoint(pos: nat, bases: seq<FrontendBaseType>)
    ensures forall i, j :: 0 <= i < j < |RangesFrom(pos, bases)| ==>
      RangesFrom(pos, bases)[i].start + RangesFrom(pos, bases)[i].size <= RangesFrom(pos, bases)[j].start
    decreases |bases|
  {
    if |bases| > 0 {
      var next := Place(pos, bases[0]) + SlotSize(bases[0]);
      RangesFromDisjoint(next, bases[1..]);
      RangesFromLaid(next, bases[1..]);
      var rs, rest := RangesFrom(pos, bases), RangesFrom(next, bases[1..]);
      assert rs == [ByteRange(Place(pos, bases[0]), SlotSize(bases[0]))] + rest;
      forall i, j | 0 <= i < j < |rs|
        ensures rs[i].start + rs[i].size <= rs[j].start
      {
        if i > 0 {
          assert rs[i] == rest[i - 1];
        }
        assert rs[j] == rest[j - 1];
      }
    }
  }

  /** The default layout: entry 0 covers the whole struct, rounded up to 8
      and no more; then each member in order, aligned for its type, inside
      the struct and clear of the others. */
  lemma StructLayoutLaid(bases: seq<FrontendBaseType>)
    ensures |StructLayout(bases)| == |bases| + 1
    ensures StructLayout(bases)[0].start == 0 && StructLayout(bases)[0].size % 8 == 0
    ensures forall i :: 1 <= i <= |bases| ==>
      StructLayout(bases)[i].size == SlotSize(bases[i - 1]) && StructLayout(bases)[i].start % SlotAlignment(bases[i - 1]) == 0
      && StructLayout(bases)[i].start + StructLayout(bases)[i].size <= StructLayout(bases)[0].size
    ensures forall i, j :: 1 <= i < j <= |bases| ==>
      StructLayout(bases)[i].start + StructLayout(bases)[i].size <= StructLayout(bases)[j].start
    ensures |bases| > 0 ==>
      StructLayout(bases)[0].size < StructLayout(bases)[|bases|].start + StructLayout(bases)[|bases|].size + 8
  {
    RangesFromLaid(0, bases);
    RangesFromDisjoint(0, bases);
  }

  /** The layout of bool, int32, four bools, string, bool: the int32 and the
      string are padded to their alignment, and the total is 32. */
  lemma StructLayoutExample(bs: seq<FrontendBaseType>)
    requires bs == [Bool, Int32, Bool, Bool, Bool, Bool, String, Bool]
    ensures StructLayout(bs) ==
      [ByteRange(0, 32), ByteRange(0, 1), ByteRange(4, 4), ByteRange(8, 1), ByteRange(9, 1),
       ByteRange(10, 1), ByteRange(11, 1), ByteRange(16, 8), ByteRange(24, 1)]
  {
    var rs := [ByteRange(0, 1), ByteRange(4, 4), ByteRange(8, 1), ByteRange(9, 1),
               ByteRange(10, 1), ByteRange(11, 1), ByteRange(16, 8), ByteRange(24, 1)];
    ExampleRanges(bs, rs);
    RangesFromLaid(0, bs);
    ExamplePlacements();
  }

  lemma ExampleRanges(bs: seq<FrontendBaseType>, rs: seq<ByteRange>)
    requires bs == [Bool, Int32, Bool, Bool, Bool, Bool, String, Bool]
    requires rs == [ByteRange(0, 1), ByteRange(4, 4), ByteRange(8, 1), ByteRange(9, 1),
                    ByteRange(10, 1), ByteRange(11, 1), ByteRange(16, 8), ByteRange(24, 1)]
    ensures RangesFrom(0, bs) == rs
  {
    ExamplePlacements();
    assert RangesFrom(24, bs[7..]) == rs[7..];
    assert RangesFrom(12, bs[6..]) == rs[6..];
    assert RangesFrom(11, bs[5..]) == rs[5..];
    assert RangesFrom(10, bs[4..]) == rs[4..];
    assert RangesFrom(9, bs[3..]) == rs[3..];
    assert RangesFrom(8, bs[2..]) == rs[2..];
    assert RangesFrom(1, bs[1..]) == rs[1..];
  }

  lemma ExamplePlacements()
    ensures Place(1, Int32) == 4 && Place(12, String) == 16 && AlignPos(25, 8) == 32
  {
  }

  // ------------------------------------------------------------------ the collector

  const UnknownAliasTarget: string := "unknown type identifier to base alias on"
  const AlreadyDefined: string := "new type identifier already defined"

  /** An identifier is an alias of another identifier, or names a
      definition, or neither: a null definition, which only the as-written
      `AddTypeEntry` can store and which no valid collector holds. */
  datatype IdentifierData = IdentifierData(aliasTypeIdentifier: string, optionalDef: Option<TypeDefinition>)

  datatype Collector = Collector(identifiers: map<string, IdentifierData>, typeDefinitions: map<string, TypeDefinition>)

  /** Following aliases from `s` reaches an entry without one within `fuel` steps. */
  predicate ChainEnds(c: Collector, s: string, fuel: nat)
    decreases fuel
  {
    s in c.identifiers
    && (c.identifiers[s].aliasTypeIdentifier == ""
        || (fuel > 0 && ChainEnds(c, c.identifiers[s].aliasTypeIdentifier, fuel - 1)))
  }

  /** The collector invariant: identifiers are non-empty, every definition
      is stored under its own signature, every definition an identifier
      names is stored; in addition every identifier is fully defined and
      its alias chain ends. */
  predicate CollectorValid(c: Collector) {
    (forall k :: k in c.identifiers ==> k != "" && IsFullyDefinedData(c.identifiers[k]))
    && (forall sig :: sig in c.typeDefinitions ==>
          TypeDefinitionValid(c.typeDefinitions[sig]) && ToSignature(c.typeDefinitions[sig]) == sig)
    && (forall k :: k in c.identifiers ==> DefStored(c, c.identifiers[k].optionalDef))
    && (forall k {:trigger ChainEnds(c, k, |c.identifiers|)} :: k in c.identifiers ==> ChainEnds(c, k, |c.identifiers|))
  }

  /** `def` is kept under its own signature. */
  predicate Stored(c: Collector, def: TypeDefinition) {
    TypeDefinitionValid(def) && ToSignature(def) in c.typeDefinitions && c.typeDefinitions[ToSignature(def)] == def
  }

  predicate DefStored(c: Collector, d: Option<TypeDefinition>) {
    d.Some? ==> Stored(c, d.value)
  }

  predicate IsFullyDefinedData(d: IdentifierData) {
    d.aliasTypeIdentifier != "" || d.optionalDef.Some?
  }

  function IsTypeIdentifierFullyDefined(c: Collector, s: string): (r: bool)
    ensures r ==> s in c.identifiers
    ensures s in c.identifiers && !IsFullyDefinedData(c.identifiers[s]) ==> !r
    ensures CollectorValid(c) ==> (r <==> s in c.identifiers)
  {
    s in c.identifiers && IsFullyDefinedData(c.identifiers[s])
  }

  function LookupIdentifierShallow(c: Collector, s: string): (r: Option<IdentifierData>)
    ensures r.Some? <==> s in c.identifiers
    ensures r.Some? ==> r.value == c.identifiers[s]
  {
    if s in c.identifiers then Some(c.identifiers[s]) else None
  }

  /** Follows aliases from `s` for at most `fuel` steps; the entry found
      has no alias. */
  function LookupDeep(c: Collector, s: string, fuel: nat): (r: Option<IdentifierData>)
    ensures r.Some? ==> r.value.aliasTypeIdentifier == "" && exists k :: k in c.identifiers && c.identifiers[k] == r.value
    ensures s !in c.identifiers ==> r == None
    decreases fuel
  {
    if s !in c.identifiers then None
    else if c.identifiers[s].aliasTypeIdentifier == "" then Some(c.identifiers[s])
    else if fuel == 0 then None
    else LookupDeep(c, c.identifiers[s].aliasTypeIdentifier, fuel - 1)
  }

  /** An identifier's entry at the end of its alias chain. No chain is
      longer than the number of identifiers. */
  function LookupIdentifierDeep(c: Collector, s: string): (r: Option<IdentifierData>)
    requires CollectorValid(c)
    ensures r.Some? <==> s in c.identifiers
    ensures r.Some? ==> r.value.aliasTypeIdentifier == "" && r.value.optionalDef.Some?
  {
    if s !in c.identifiers then None
    else
      LookupEnds(c, s, |c.identifiers|);
      LookupDeep(c, s, |c.identifiers|)
  }

  /** The definition an identifier resolves to, or none for an unknown identifier. */
  function ResolveIdentifier(c: Collector, s: string): (r: Option<TypeDefinition>)
    requires CollectorValid(c)
    ensures r.Some? <==> s in c.identifiers
    ensures r.Some? ==> Stored(c, r.value) && TypeDefinitionValid(r.value)
  {
    var d := LookupIdentifierDeep(c, s);
    if d.None? then None else d.value.optionalDef
  }

  function LookupSignature(c: Collector, s: string): (r: Option<TypeDefinition>)
    requires CollectorValid(c)
    ensures r.Some? <==> s in c.typeDefinitions
    ensures r.Some? ==> TypeDefinitionValid(r.value) && ToSignature(r.value) == s
  {
    if s in c.typeDefinitions then Some(c.typeDefinitions[s]) else None
  }

  lemma {:induction false} LookupEnds(c: Collector, s: string, fuel: nat)
    requires ChainEnds(c, s, fuel)
    requires forall k :: k in c.identifiers ==> IsFullyDefinedData(c.identifiers[k])
    ensures LookupDeep(c, s, fuel).Some? && LookupDeep(c, s, fuel).value.optionalDef.Some?
    decreases fuel
  {
    if c.identifiers[s].aliasTypeIdentifier != "" {
      LookupEnds(c, c.identifiers[s].aliasTypeIdentifier, fuel - 1);
    }
  }

  /** More fuel than a chain needs changes nothing. */
  lemma {:induction false} MoreFuel(c: Collector, s: string, f: nat, g: nat)
    requires ChainEnds(c, s, f) && f <= g
    ensures ChainEnds(c, s, g) && LookupDeep(c, s, g) == LookupDeep(c, s, f)
    decreases f
  {
    if c.identifiers[s].aliasTypeIdentifier != "" {
      MoreFuel(c, c.identifiers[s].aliasTypeIdentifier, f - 1, g - 1);
    }
  }

  /** Adding identifiers leaves the chains of the old ones as they were. */
  lemma {:induction false} ExtendKeepsChain(c: Collector, d: Collector, s: string, f: nat)
    requires forall k :: k in c.identifiers ==> k in d.identifiers && d.identifiers[k] == c.identifiers[k]
    requires ChainEnds(c, s, f)
    ensures ChainEnds(d, s, f) && LookupDeep(d, s, f) == LookupDeep(c, s, f)
    decreases f
  {
    if c.identifiers[s].aliasTypeIdentifier != "" {
      ExtendKeepsChain(c, d, c.identifiers[s].aliasTypeIdentifier, f - 1);
    }
  }

  /** A collector with one more identifier whose chain ends resolves every
      old identifier as before. */
  lemma AddIdentifierKeeps(c: Collector, d: Collector, s: string)
    requires CollectorValid(c) && s !in c.identifiers
    requires d.identifiers.Keys == c.identifiers.Keys + {s}
    requires forall k :: k in c.identifiers ==> d.identifiers[k] == c.identifiers[k]
    ensures |d.identifiers| == |c.identifiers| + 1
    ensures forall k :: k in c.identifiers ==>
      ChainEnds(d, k, |d.identifiers|) && LookupDeep(d, k, |d.identifiers|) == LookupDeep(c, k, |c.identifiers|)
  {
    assert |d.identifiers.Keys| == |c.identifiers.Keys| + 1;
    forall k | k in c.identifiers
      ensures ChainEnds(d, k, |d.identifiers|) && LookupDeep(d, k, |d.identifiers|) == LookupDeep(c, k, |c.identifiers|)
    {
      MoreFuel(c, k, |c.identifiers|, |d.identifiers|);
      ExtendKeepsChain(c, d, k, |d.identifiers|);
    }
  }

  /** Adding a new identifier that is fully defined, whose definition is
      stored and whose alias (if any) is known keeps the collector valid;
      old identifiers look up as before and an alias looks up as its target. */
  lemma AddIdentifierValid(c: Collector, s: string, data: IdentifierData)
    requires CollectorValid(c) && s != "" && s !in c.identifiers
    requires IsFullyDefinedData(data) && DefStored(c, data.optionalDef)
    requires data.aliasTypeIdentifier != "" ==> data.aliasTypeIdentifier in c.identifiers
    ensures CollectorValid(c.(identifiers := c.identifiers[s := data]))
    ensures c.(identifiers := c.identifiers[s := data]).typeDefinitions == c.typeDefinitions
    ensures c.(identifiers := c.identifiers[s := data]).identifiers.Keys == c.identifiers.Keys + {s}
    ensures forall k :: k in c.identifiers ==>
      LookupDeep(c.(identifiers := c.identifiers[s := data]), k, |c.identifiers| + 1) == LookupDeep(c, k, |c.identifiers|)
    ensures |c.identifiers[s := data]| == |c.identifiers| + 1
    ensures data.aliasTypeIdentifier == "" ==>
      LookupDeep(c.(identifiers := c.identifiers[s := data]), s, |c.identifiers| + 1) == Some(data)
  {
    var d := c.(identifiers := c.identifiers[s := data]);
    AddIdentifierKeeps(c, d, s);
    if data.aliasTypeIdentifier != "" {
      ExtendKeepsChain(c, d, data.aliasTypeIdentifier, |c.identifiers|);
    }
    forall k | k in d.identifiers
      ensures k != "" && IsFullyDefinedData(d.identifiers[k])
      ensures DefStored(d, d.identifiers[k].optionalDef) && ChainEnds(d, k, |d.identifiers|)
    {
      if k != s {
        assert DefStored(c, c.identifiers[k].optionalDef);
      }
    }
    assert d.typeDefinitions == c.typeDefinitions;
  }

  /** The three built-in identifiers, each naming its own simple type. */
  function BuiltIns(): Collector {
    Collector(
      map["int32" := IdentifierData("", Some(SimpleType(Int32))), "bool" := IdentifierData("", Some(SimpleType(Bool))),
          "string" := IdentifierData("", Some(SimpleType(String)))],
      map["<int32>" := SimpleType(Int32), "<bool>" := SimpleType(Bool), "<string>" := SimpleType(String)])
  }

  lemma BuiltInsValid()
    ensures CollectorValid(BuiltIns())
  {
    var c := BuiltIns();
    assert ToSignature(SimpleType(Int32)) == "<int32>";
    assert ToSignature(SimpleType(Bool)) == "<bool>";
    assert ToSignature(SimpleType(String)) == "<string>";
    forall k | k in c.identifiers
      ensures k != "" && IsFullyDefinedData(c.identifiers[k]) && DefStored(c, c.identifiers[k].optionalDef)
      ensures ChainEnds(c, k, |c.identifiers|)
    {
      assert k == "int32" || k == "bool" || k == "string";
    }
    forall sig | sig in c.typeDefinitions
      ensures TypeDefinitionValid(c.typeDefinitions[sig]) && ToSignature(c.typeDefinitions[sig]) == sig
    {
      assert sig == "<int32>" || sig == "<bool>" || sig == "<string>";
    }
  }

  /** A new alias looks up as its target did. */
  lemma AddAliasLooksUpTarget(c: Collector, s: string, target: string)
    requires CollectorValid(c) && s != "" && s !in c.identifiers && target in c.identifiers
    ensures LookupDeep(c.(identifiers := c.identifiers[s := IdentifierData(target, None)]), s, |c.identifiers| + 1)
      == LookupDeep(c, target, |c.identifiers|)
  {
    var d := c.(identifiers := c.identifiers[s := IdentifierData(target, None)]);
    AddIdentifierKeeps(c, d, s);
    ExtendKeepsChain(c, d, target, |c.identifiers|);
  }

  /** A fresh collector knows int32, bool and string, each as its own base type. */
  function NewCollector(): (c: Collector)
    ensures CollectorValid(c)
    ensures c.identifiers.Keys == {"int32", "bool", "string"}
    ensures c.typeDefinitions.Keys == {"<int32>", "<bool>", "<string>"}
  {
    BuiltInsValid();
    BuiltIns()
  }

  /** Each built-in identifier resolves to its own simple type; other names resolve to nothing. */
  lemma NewCollectorResolves(c: Collector)
    requires c == NewCollector()
    ensures forall b :: b != Struct && b != Vector ==> ResolveIdentifier(c, BaseTypeName(b)) == Some(SimpleType(b))
  {
    forall b | b != Struct && b != Vector
      ensures ResolveIdentifier(c, BaseTypeName(b)) == Some(SimpleType(b))
    {
      assert c.identifiers[BaseTypeName(b)] == IdentifierData("", Some(SimpleType(b)));
      assert LookupDeep(c, BaseTypeName(b), 3) == Some(c.identifiers[BaseTypeName(b)]);
    }
  }

  /** Any other name is unknown to a fresh collector. */
  lemma NewCollectorUnknown(c: Collector, s: string)
    requires c == NewCollector() && s != "int32" && s != "bool" && s != "string"
    ensures ResolveIdentifier(c, s) == None
  {
  }

  /** `define_alias_identifier` on any collector: the target must exist and
      the new name must not be fully defined. */
  function AddAliasEntry(c: Collector, newIdentifier: string, existingIdentifier: string): (r: Result<Collector>)
    ensures r.Ok? <==> existingIdentifier in c.identifiers
                       && !(newIdentifier in c.identifiers && IsFullyDefinedData(c.identifiers[newIdentifier]))
    ensures existingIdentifier !in c.identifiers ==> r == Err(UnknownAliasTarget)
    ensures r.Ok? ==> r.value.typeDefinitions == c.typeDefinitions
    ensures r.Ok? ==> newIdentifier in r.value.identifiers
                      && r.value.identifiers[newIdentifier] == IdentifierData(existingIdentifier, None)
    ensures r.Ok? ==> forall k :: k in c.identifiers && k != newIdentifier ==>
                        k in r.value.identifiers && r.value.identifiers[k] == c.identifiers[k]
  {
    if existingIdentifier !in c.identifiers then Err(UnknownAliasTarget)
    else if IsTypeIdentifierFullyDefined(c, newIdentifier) then Err(AlreadyDefined)
    else Ok(c.(identifiers := c.identifiers[newIdentifier := IdentifierData(existingIdentifier, None)]))
  }

  /** `define_type_identifier` as written: the definition pointer may be
      null (`None`), and nothing checks it. */
  function AddTypeEntry(c: Collector, newIdentifier: string, def: Option<TypeDefinition>): (r: Result<Collector>)
    ensures r.Ok? <==> !(newIdentifier in c.identifiers && IsFullyDefinedData(c.identifiers[newIdentifier]))
    ensures r.Err? ==> r.msg == AlreadyDefined
    ensures r.Ok? ==> r.value.typeDefinitions == c.typeDefinitions
    ensures r.Ok? ==> newIdentifier in r.value.identifiers
                      && r.value.identifiers[newIdentifier] == IdentifierData("", def)
    ensures r.Ok? ==> forall k :: k in c.identifiers && k != newIdentifier ==>
                        k in r.value.identifiers && r.value.identifiers[k] == c.identifiers[k]
  {
    if IsTypeIdentifierFullyDefined(c, newIdentifier) then Err(AlreadyDefined)
    else Ok(c.(identifiers := c.identifiers[newIdentifier := IdentifierData("", def)]))
  }

  /** An identifier that is its own alias is never resolved, whatever the
      number of steps allowed. */
  lemma {:induction false} SelfAliasNeverEnds(c: Collector, s: string, fuel: nat)
    requires s in c.identifiers && c.identifiers[s].aliasTypeIdentifier == s && s != ""
    ensures LookupDeep(c, s, fuel) == None
    decreases fuel
  {
    if fuel > 0 {
      SelfAliasNeverEnds(c, s, fuel - 1);
    }
  }

  /** As written, a null definition leaves its name not fully defined, so
      the name can then be made an alias of itself; both calls succeed and
      the deep lookup of that name never reaches an entry. */
  lemma NullDefinitionAliasCycle(c: Collector, s: string)
    requires s != "" && s !in c.identifiers
    ensures AddTypeEntry(c, s, None).Ok?
    ensures AddAliasEntry(AddTypeEntry(c, s, None).value, s, s).Ok?
    ensures forall fuel: nat :: LookupDeep(AddAliasEntry(AddTypeEntry(c, s, None).value, s, s).value, s, fuel) == None
  {
    var c2 := AddAliasEntry(AddTypeEntry(c, s, None).value, s, s).value;
    forall fuel: nat
      ensures LookupDeep(c2, s, fuel) == None
    {
      SelfAliasNeverEnds(c2, s, fuel);
    }
  }

  /** The as-written entries can leave the collector invariant: a null
      definition is not fully defined, and the self-alias after it is a
      chain that never ends. */
  lemma NullDefinitionBreaksInvariant(c: Collector, s: string)
    requires s != "" && s !in c.identifiers
    ensures AddTypeEntry(c, s, None).Ok?
    ensures !CollectorValid(AddTypeEntry(c, s, None).value)
    ensures !IsTypeIdentifierFullyDefined(AddTypeEntry(c, s, None).value, s)
    ensures AddAliasEntry(AddTypeEntry(c, s, None).value, s, s).Ok?
    ensures !CollectorValid(AddAliasEntry(AddTypeEntry(c, s, None).value, s, s).value)
  {
    var c2 := AddAliasEntry(AddTypeEntry(c, s, None).value, s, s).value;
    NullDefinitionAliasCycle(c, s);
    if CollectorValid(c2) {
      LookupEnds(c2, s, |c2.identifiers|);
      assert false;
    }
  }

  /** Makes `newIdentifier` an alias of `existingIdentifier`. */
  function DefineAliasIdentifier(c: Collector, newIdentifier: string, existingIdentifier: string): (r: Result<Collector>)
    requires CollectorValid(c) && newIdentifier != "" && existingIdentifier != ""
    ensures r.Ok? <==> existingIdentifier in c.identifiers && newIdentifier !in c.identifiers
    ensures existingIdentifier !in c.identifiers ==> r == Err(UnknownAliasTarget)
    ensures existingIdentifier in c.identifiers && newIdentifier in c.identifiers ==> r == Err(AlreadyDefined)
    ensures r.Ok? ==> CollectorValid(r.value) && r.value.typeDefinitions == c.typeDefinitions
    ensures r.Ok? ==> r.value.identifiers.Keys == c.identifiers.Keys + {newIdentifier}
  {
    var r := AddAliasEntry(c, newIdentifier, existingIdentifier);
    if r.Ok? then
      AddIdentifierValid(c, newIdentifier, IdentifierData(existingIdentifier, None));
      assert r.value == c.(identifiers := c.identifiers[newIdentifier := IdentifierData(existingIdentifier, None)]);
      r
    else r
  }

  /** An alias resolves to what its target resolves to, and every identifier
      known before resolves as before. */
  lemma AliasResolvesLikeTarget(c: Collector, newIdentifier: string, existingIdentifier: string)
    requires CollectorValid(c) && newIdentifier != "" && existingIdentifier != ""
    requires DefineAliasIdentifier(c, newIdentifier, existingIdentifier).Ok?
    ensures ResolveIdentifier(DefineAliasIdentifier(c, newIdentifier, existingIdentifier).value, newIdentifier)
      == ResolveIdentifier(c, existingIdentifier)
    ensures forall k :: k in c.identifiers ==>
      ResolveIdentifier(DefineAliasIdentifier(c, newIdentifier, existingIdentifier).value, k) == ResolveIdentifier(c, k)
  {
    AddIdentifierValid(c, newIdentifier, IdentifierData(existingIdentifier, None));
    AddAliasLooksUpTarget(c, newIdentifier, existingIdentifier);
  }

  /** Names the definition `def`, which the collector already stores. */
  function DefineTypeIdentifier(c: Collector, newIdentifier: string, def: TypeDefinition): (r: Result<Collector>)
    requires CollectorValid(c) && newIdentifier != "" && Stored(c, def)
    ensures r.Ok? <==> newIdentifier !in c.identifiers
    ensures r.Err? ==> r.msg == AlreadyDefined
    ensures r.Ok? ==> CollectorValid(r.value) && r.value.typeDefinitions == c.typeDefinitions
    ensures r.Ok? ==> r.value.identifiers.Keys == c.identifiers.Keys + {newIdentifier}
  {
    var r := AddTypeEntry(c, newIdentifier, Some(def));
    if r.Ok? then
      AddIdentifierValid(c, newIdentifier, IdentifierData("", Some(def)));
      assert r.value == c.(identifiers := c.identifiers[newIdentifier := IdentifierData("", Some(def))]);
      r
    else r
  }

  /** A new type identifier resolves to its definition, and every identifier
      known before resolves as before. */
  lemma TypeIdentifierResolves(c: Collector, newIdentifier: string, def: TypeDefinition)
    requires CollectorValid(c) && newIdentifier != "" && Stored(c, def)
    requires DefineTypeIdentifier(c, newIdentifier, def).Ok?
    ensures ResolveIdentifier(DefineTypeIdentifier(c, newIdentifier, def).value, newIdentifier) == Some(def)
    ensures forall k :: k in c.identifiers ==>
      ResolveIdentifier(DefineTypeIdentifier(c, newIdentifier, def).value, k) == ResolveIdentifier(c, k)
  {
    AddIdentifierValid(c, newIdentifier, IdentifierData("", Some(def)));
  }

  /** Stores the struct definition under its signature unless a definition
      with that signature is already stored, in which case that one is
      returned and the collector is unchanged. */
  function DefineStructTypeDef(c: Collector, sd: StructDef): (r: (TypeDefinition, Collector))
    requires CollectorValid(c)
    ensures CollectorValid(r.1) && r.1.identifiers == c.identifiers && Stored(r.1, r.0)
    ensures ToSignature(r.0) == ToSignature(StructType(sd))
    ensures ToSignature(StructType(sd)) in c.typeDefinitions ==> r.1 == c
    ensures ToSignature(StructType(sd)) !in c.typeDefinitions ==>
      r.0 == StructType(sd) && r.1.typeDefinitions.Keys == c.typeDefinitions.Keys + {ToSignature(StructType(sd))}
      && forall k :: k in c.typeDefinitions ==> r.1.typeDefinitions[k] == c.typeDefinitions[k]
  {
    var def := StructType(sd);
    var signature := ToSignature(def);
    if signature in c.typeDefinitions then (c.typeDefinitions[signature], c)
    else
      var d := c.(typeDefinitions := c.typeDefinitions[signature := def]);
      SameIdentifiersKeepChains(c, d);
      (def, d)
  }

  /** Adding a definition under a new signature keeps every stored
      definition stored and every chain ending. */
  lemma SameIdentifiersKeepChains(c: Collector, d: Collector)
    requires CollectorValid(c) && d.identifiers == c.identifiers
    requires forall sig :: sig in c.typeDefinitions ==> sig in d.typeDefinitions && d.typeDefinitions[sig] == c.typeDefinitions[sig]
    ensures forall k :: k in d.identifiers ==> ChainEnds(d, k, |d.identifiers|) && DefStored(d, d.identifiers[k].optionalDef)
  {
    forall k | k in d.identifiers ensures ChainEnds(d, k, |d.identifiers|) && DefStored(d, d.identifiers[k].optionalDef) {
      ExtendKeepsChain(c, d, k, |c.identifiers|);
      assert DefStored(c, c.identifiers[k].optionalDef);
    }
  }

  /** Defining the same struct twice stores it once. */
  lemma DefineStructTypeDefIdempotent(c: Collector, sd: StructDef)
    requires CollectorValid(c)
    ensures DefineStructTypeDef(DefineStructTypeDef(c, sd).1, sd) == DefineStructTypeDef(c, sd)
  {
  }

  /** Stores the struct definition and, for a non-empty name, names it. */
  function DefineStructType(c: Collector, newIdentifier: string, sd: StructDef): (r: Result<Collector>)
    requires CollectorValid(c)
    ensures newIdentifier == "" ==> r == Ok(DefineStructTypeDef(c, sd).1)
    ensures r.Ok? <==> newIdentifier == "" || newIdentifier !in c.identifiers
    ensures r.Err? ==> r.msg == AlreadyDefined
    ensures r.Ok? ==> CollectorValid(r.value) && ToSignature(StructType(sd)) in r.value.typeDefinitions
  {
    var a := DefineStructTypeDef(c, sd);
    if newIdentifier == "" then Ok(a.1)
    else DefineTypeIdentifier(a.1, newIdentifier, a.0)
  }

  /** A named struct resolves to the definition stored under its signature. */
  lemma StructTypeResolves(c: Collector, newIdentifier: string, sd: StructDef)
    requires CollectorValid(c) && newIdentifier != "" && newIdentifier !in c.identifiers
    ensures ResolveIdentifier(DefineStructType(c, newIdentifier, sd).value, newIdentifier)
      == Some(DefineStructType(c, newIdentifier, sd).value.typeDefinitions[ToSignature(StructType(sd))])
  {
    var a := DefineStructTypeDef(c, sd);
    TypeIdentifierResolves(a.1, newIdentifier, a.0);
  }

  lemma AliasExample(c: Collector)
    requires c == NewCollector()
    ensures DefineAliasIdentifier(c, "my_int", "int32").Ok?
    ensures ResolveIdentifier(DefineAliasIdentifier(c, "my_int", "int32").value, "my_int") == Some(SimpleType(Int32))
  {
    NewCollectorResolves(c);
    assert ResolveIdentifier(c, BaseTypeName(Int32)) == Some(SimpleType(Int32));
    AliasResolvesLikeTarget(c, "my_int", "int32");
  }

  lemma AliasErrorExamples()
    ensures DefineAliasIdentifier(NewCollector(), "my_int", "float") == Err(UnknownAliasTarget)
    ensures DefineAliasIdentifier(NewCollector(), "bool", "int32") == Err(AlreadyDefined)
  {
  }

  lemma StructCollectorExample(ms: seq<Arg>)
    requires ms == [Arg("int32", "a"), Arg("string", "b")]
    ensures DefineStructType(NewCollector(), "struct3", StructDef(ms)).Ok?
    ensures ToSignature(ResolveIdentifier(DefineStructType(NewCollector(), "struct3", StructDef(ms)).value, "struct3").value)
      == "<struct>{" + "<int32>a" + "," + "<string>b" + "}"
  {
    StructSignatureExample(ms);
    StructTypeResolves(NewCollector(), "struct3", StructDef(ms));
  }

  lemma AnonymousStructExample()
    ensures DefineStructType(NewCollector(), "", StructDef([])).Ok?
    ensures LookupSignature(DefineStructType(NewCollector(), "", StructDef([])).value, "<struct>{}").Some?
  {
    SignatureExamples();
  }

  /** The base types of the members, each resolved through the collector. */
  function MemberBases(types: Collector, ms: seq<Arg>): (r: seq<FrontendBaseType>)
    requires CollectorValid(types)
    requires forall i :: 0 <= i < |ms| ==> ms[i].argType in types.identifiers
    ensures |r| == |ms|
    ensures forall i :: 0 <= i < |ms| ==> Some(r[i]) == MapBase(ResolveIdentifier(types, ms[i].argType))
  {
    seq(|ms|, i requires 0 <= i < |ms| => ResolveIdentifier(types, ms[i].argType).value.baseType)
  }

  function MapBase(d: Option<TypeDefinition>): Option<FrontendBaseType> {
    if d.None? then None else Some(d.value.baseType)
  }

  /** Lays out a struct's members in declaration order, resolving each
      member's type identifier through the collector. */
  method CalcStructDefaultMemoryLayout(types: Collector, s: TypeDefinition) returns (r: seq<ByteRange>)
    requires CollectorValid(types) && TypeDefinitionValid(s) && s.baseType == Struct
    requires forall i :: 0 <= i < |s.structDef.value.members| ==> s.structDef.value.members[i].argType in types.identifiers
    ensures r == StructLayout(MemberBases(types, s.structDef.value.members))
    ensures |r| == |s.structDef.value.members| + 1 && r[0].start == 0 && r[0].size % 8 == 0
    ensures forall i :: 1 <= i <= |s.structDef.value.members| ==>
      r[i].size == SlotSize(MemberBases(types, s.structDef.value.members)[i - 1])
      && r[i].start % SlotAlignment(MemberBases(types, s.structDef.value.members)[i - 1]) == 0
      && r[i].start + r[i].size <= r[0].size
    ensures forall i, j :: 1 <= i < j <= |s.structDef.value.members| ==> r[i].start + r[i].size <= r[j].start
  {
    var bases := MemberBases(types, s.structDef.value.members);
    r := LayOutMembers(bases);
    StructLayoutLaid(bases);
  }

  /** The placement loop: each member is aligned for its base type and
      placed after the previous one; the total is rounded up to 8 and put
      in front. */
  method LayOutMembers(bases: seq<FrontendBaseType>) returns (r: seq<ByteRange>)
    ensures r == StructLayout(bases)
  {
    var result: seq<ByteRange> := [];
    var pos: nat := 0;
    var k := 0;
    while k < |bases|
      invariant 0 <= k <= |bases|
      invariant result + RangesFrom(pos, bases[k..]) == RangesFrom(0, bases)
      invariant EndFrom(pos, bases[k..]) == EndFrom(0, bases)
    {
      ghost var before, start, rest := result, Place(pos, bases[k]), bases[k + 1..];
      assert bases[k..] == [bases[k]] + rest;
      if bases[k] == Int32 {
        pos := AlignPos(pos, 4);
        result := result + [ByteRange(pos, 4)];
        pos := pos + 4;
      } else if bases[k] == Bool {
        result := result + [ByteRange(pos, 1)];
        pos := pos + 1;
      } else {
        pos := AlignPos(pos, 8);
        result := result + [ByteRange(pos, 8)];
        pos := pos + 8;
      }
      StepKeepsLayout(before, result, start, pos, bases[k], rest);
      k := k + 1;
    }
    pos := AlignPos(pos, 8);
    r := [ByteRange(0, pos)] + result;
  }

  /** Appending the range placed for `b` moves it from the pending part to the done part. */
  lemma StepKeepsLayout(before: seq<ByteRange>, after: seq<ByteRange>, start: nat, pos: nat,
                        b: FrontendBaseType, rest: seq<FrontendBaseType>)
    requires after == before + [ByteRange(start, SlotSize(b))] && pos == start + SlotSize(b)
    ensures after + RangesFrom(pos, rest) == before + ([ByteRange(start, SlotSize(b))] + RangesFrom(pos, rest))
  {
  }
}

=== FILE: refcount.dfy ===
/** Sharing of out-of-line payloads. A value cell holds its scalar payload
    inline or points at a shared record carrying a reference count; copying a
    cell bumps the count, destroying one drops it and frees the record when
    it reaches zero, and assignment is copy-then-swap. */
module RefCounting {
  import opened Results
  import opened Json
  import opened Typeids
  import opened Values

  /** The shared record: one field per kind of out-of-line payload, of which
      only the one matching `extType` is populated. */
  datatype ExtRecord = ExtRecord(
    rc: int,
    extType: Typeid,
    str: string,
    jsonValue: Option<Json>,
    typeidValue: Typeid,
    structValue: Option<seq<Value>>,
    vectorElements: seq<Value>,
    dictEntries: seq<DictEntry>,
    functionId: int)

  /** The record invariant: a live count, and for each base type only its own
      payload field set (the function id is -1 exactly when not a function). */
  predicate ExtInvariant(e: ExtRecord) {
    && e.rc > 0
    && match BaseOf(e.extType)
       case String =>
         e.jsonValue.None? && e.typeidValue == TUndefined && e.structValue.None?
         && e.vectorElements == [] && e.dictEntries == [] && e.functionId == -1
       case JsonValue =>
         e.str == "" && e.jsonValue.Some? && e.typeidValue == TUndefined && e.structValue.None?
         && e.vectorElements == [] && e.dictEntries == [] && e.functionId == -1
         && JsonWellFormed(e.jsonValue.value)
       case TypeidType =>
         e.str == "" && e.jsonValue.None? && e.structValue.None?
         && e.vectorElements == [] && e.dictEntries == [] && e.functionId == -1
       case Struct =>
         e.str == "" && e.jsonValue.None? && e.typeidValue == TUndefined && e.structValue.Some?
         && e.vectorElements == [] && e.dictEntries == [] && e.functionId == -1
       case Vector =>
         e.str == "" && e.jsonValue.None? && e.typeidValue == TUndefined && e.structValue.None?
         && e.dictEntries == [] && e.functionId == -1
       case Dict =>
         e.str == "" && e.jsonValue.None? && e.typeidValue == TUndefined && e.structValue.None?
         && e.vectorElements == [] && e.functionId == -1
       case Function =>
         e.str == "" && e.jsonValue.None? && e.typeidValue == TUndefined && e.structValue.None?
         && e.vectorElements == [] && e.dictEntries == [] && e.functionId != -1
       case _ => false
  }

  /** An empty record of the given type, count one. */
  function Blank(t: Typeid): ExtRecord {
    ExtRecord(1, t, "", None, TUndefined, None, [], [], -1)
  }

  /** The freshly built record for an out-of-line value. */
  function ExtOf(v: Value): (e: ExtRecord)
    requires IsExt(BaseTypeOf(v))
    ensures e.rc == 1 && e.extType == TypeOf(v)
  {
    match v
    case VString(s) => Blank(TString).(str := s)
    case VJson(j) => Blank(TJson).(jsonValue := Some(j))
    case VTypeid(t) => Blank(TTypeid).(typeidValue := t)
    case VStruct(t, ms) => Blank(t).(structValue := Some(ms))
    case VVector(et, es) => Blank(TVector(et)).(vectorElements := es)
    case VDict(vt, es) => Blank(TDict(vt)).(dictEntries := es)
    case VFunction(t, id) => Blank(t).(functionId := id)
  }

  /** The value a record stands for. */
  function ValueOfExt(e: ExtRecord): Value
    requires ExtInvariant(e)
  {
    match e.extType
    case TString => VString(e.str)
    case TJson => VJson(e.jsonValue.value)
    case TTypeid => VTypeid(e.typeidValue)
    case TStruct(_) => VStruct(e.extType, e.structValue.value)
    case TVector(et) => VVector(et, e.vectorElements)
    case TDict(vt) => VDict(vt, e.dictEntries)
    case TFunction(_, _, _) => VFunction(e.extType, e.functionId)
  }

  /** Every well-formed out-of-line value yields a record meeting the record
      invariant, from which the value is recovered unchanged. */
  lemma ExtOfRoundTrip(v: Value)
    requires WellFormed(v) && IsExt(BaseTypeOf(v))
    ensures ExtInvariant(ExtOf(v))
    ensures ValueOfExt(ExtOf(v)) == v
  {
  }

  // ------------------------------------------------------------------ cells and the store

  /** A shared record as the store sees it: its count and the value it stands for. */
  datatype Block = Block(rc: nat, payload: Value)

  datatype Cell = Inline(v: Value) | Shared(handle: nat)

  datatype Store = Store(heap: map<nat, Block>, cells: seq<Cell>, next: nat)

  /** How many cells point at record `h`. */
  function Refs(cells: seq<Cell>, h: nat): nat {
    multiset(cells)[Shared(h)]
  }

  predicate GoodPayload(v: Value) {
    IsExt(BaseTypeOf(v)) && WellFormed(v)
  }

  predicate GoodInline(c: Cell) {
    c.Inline? ==> !IsExt(BaseTypeOf(c.v)) && WellFormed(c.v)
  }

  predicate HandlesLive(st: Store) {
    forall i :: 0 <= i < |st.cells| && st.cells[i].Shared? ==> st.cells[i].handle in st.heap
  }

  predicate InlineScalars(st: Store) {
    forall i :: 0 <= i < |st.cells| ==> GoodInline(st.cells[i])
  }

  predicate CountsExact(st: Store) {
    forall h :: h in st.heap ==> st.heap[h].rc == Refs(st.cells, h)
  }

  predicate RecordsGood(st: Store) {
    forall h :: h in st.heap ==> GoodPayload(st.heap[h].payload) && h < st.next
  }

  /** Counts are exact (hence positive for every live record), every handle
      is live, records hold out-of-line kinds and inline cells scalar ones. */
  predicate Valid(st: Store) {
    HandlesLive(st) && InlineScalars(st) && CountsExact(st) && RecordsGood(st)
  }

  lemma LiveCountPositive(st: Store, i: nat)
    requires Valid(st) && i < |st.cells| && st.cells[i].Shared?
    ensures st.heap[st.cells[i].handle].rc > 0
  {
    assert st.cells[i] in multiset(st.cells);
  }

  function Denote(st: Store, i: nat): Value
    requires Valid(st) && i < |st.cells|
  {
    match st.cells[i]
    case Inline(v) => v
    case Shared(h) => st.heap[h].payload
  }

  function Empty(): (st: Store)
    ensures Valid(st) && |st.cells| == 0
  {
    Store(map[], [], 0)
  }

  lemma RemoveMultiset(s: seq<Cell>, i: nat)
    requires i < |s|
    ensures multiset(s) == multiset(s[..i] + s[i + 1..]) + multiset{s[i]}
  {
    assert s == s[..i] + [s[i]] + s[i + 1..];
  }

  lemma RemoveShifts(s: seq<Cell>, i: nat, t: seq<Cell>)
    requires i < |s| && t == s[..i] + s[i + 1..]
    ensures |t| == |s| - 1
    ensures forall k :: 0 <= k < |t| ==> t[k] == s[if k < i then k else k + 1]
  {
  }

  lemma SwapMultiset(s: seq<Cell>, i: nat, j: nat)
    requires i < |s| && j < |s|
    ensures multiset(s[i := s[j]][j := s[i]]) == multiset(s)
  {
  }

  /** Appending a cell that points at a new record `h` (or holds a scalar)
      keeps the store valid. */
  lemma AppendValid(st: Store, c: Cell, p: Value, r: Store)
    requires Valid(st) && GoodInline(c)
    requires r.cells == st.cells + [c]
    requires c.Inline? ==> r.heap == st.heap && r.next == st.next
    requires c.Shared? ==>
      (c.handle == st.next && r.next == st.next + 1 && r.heap == st.heap[c.handle := Block(1, p)] && GoodPayload(p))
    ensures Valid(r)
  {
    assert forall k :: k in st.heap ==> Refs(r.cells, k) == Refs(st.cells, k);
    assert HandlesLive(r);
    assert InlineScalars(r);
    assert CountsExact(r);
    assert RecordsGood(r);
  }

  /** A new cell holding `v`; an out-of-line payload gets a fresh record
      with count one. */
  function Alloc(st: Store, v: Value): (r: Store)
    requires Valid(st) && WellFormed(v)
    ensures Valid(r)
    ensures |r.cells| == |st.cells| + 1 && Denote(r, |st.cells|) == v
    ensures forall i :: 0 <= i < |st.cells| ==> Denote(r, i) == Denote(st, i)
    ensures IsExt(BaseTypeOf(v)) ==> st.heap.Keys < r.heap.Keys && st.next in r.heap && r.heap[st.next].rc == 1
    ensures !IsExt(BaseTypeOf(v)) ==> r.heap == st.heap
  {
    if IsExt(BaseTypeOf(v)) then
      var r := Store(st.heap[st.next := Block(1, v)], st.cells + [Shared(st.next)], st.next + 1);
      AppendValid(st, Shared(st.next), v, r);
      AppendKeepsOthers(st, r);
      assert st.next !in st.heap && st.next in r.heap;
      r
    else
      var r := Store(st.heap, st.cells + [Inline(v)], st.next);
      AppendValid(st, Inline(v), v, r);
      AppendKeepsOthers(st, r);
      r
  }

  lemma AppendKeepsOthers(st: Store, r: Store)
    requires Valid(st) && Valid(r) && |r.cells| == |st.cells| + 1 && r.cells[..|st.cells|] == st.cells
    requires forall h :: h in st.heap ==> h in r.heap && r.heap[h].payload == st.heap[h].payload
    ensures forall i :: 0 <= i < |st.cells| ==> Denote(r, i) == Denote(st, i)
  {
    forall i | 0 <= i < |st.cells|
      ensures Denote(r, i) == Denote(st, i)
    {
      assert r.cells[i] == st.cells[i];
    }
  }

  /** Copy construction: a new cell sharing cell `i`'s payload. */
  function Copy(st: Store, i: nat): (r: Store)
    requires Valid(st) && i < |st.cells|
    ensures Valid(r)
    ensures |r.cells| == |st.cells| + 1 && Denote(r, |st.cells|) == Denote(st, i)
    ensures forall k :: 0 <= k < |st.cells| ==> Denote(r, k) == Denote(st, k)
    ensures r.heap.Keys == st.heap.Keys
    ensures st.cells[i].Shared? ==> r.heap[st.cells[i].handle].rc == st.heap[st.cells[i].handle].rc + 1
    ensures st.cells[i].Inline? ==> r.heap == st.heap
  {
    var c := st.cells[i];
    var cells := st.cells + [c];
    var r :=
      match c
      case Inline(_) => Store(st.heap, cells, st.next)
      case Shared(h) =>
        var b := st.heap[h];
        Store(st.heap[h := b.(rc := b.rc + 1)], cells, st.next);
    CopyValid(st, i, r);
    AppendKeepsOthers(st, r);
    r
  }

  /** Appending one cell adds one reference to the record it points at. */
  lemma AppendRefs(cells: seq<Cell>, c: Cell, t: seq<Cell>)
    requires t == cells + [c]
    ensures forall k :: Refs(t, k) == Refs(cells, k) + (if c == Shared(k) then 1 else 0)
  {
  }

  /** A copy of cell `i` appended, with its record's count bumped, keeps the
      store valid. */
  lemma CopyValid(st: Store, i: nat, r: Store)
    requires Valid(st) && i < |st.cells|
    requires r.cells == st.cells + [st.cells[i]] && r.next == st.next
    requires st.cells[i].Inline? ==> r.heap == st.heap
    requires st.cells[i].Shared? ==>
      var h := st.cells[i].handle;
      var b := st.heap[h];
      r.heap == st.heap[h := b.(rc := b.rc + 1)]
    ensures Valid(r)
  {
    AppendRefs(st.cells, st.cells[i], r.cells);
    assert HandlesLive(r);
    assert InlineScalars(r);
    assert CountsExact(r);
    assert RecordsGood(r);
  }

  /** Removing one cell takes one reference from the record it pointed at. */
  lemma RemoveRefs(cells: seq<Cell>, i: nat, t: seq<Cell>)
    requires i < |cells| && t == cells[..i] + cells[i + 1..]
    ensures forall k :: Refs(cells, k) == Refs(t, k) + (if cells[i] == Shared(k) then 1 else 0)
  {
    RemoveMultiset(cells, i);
  }

  /** Removing a cell and adjusting (or dropping) the record it pointed at
      keeps the store valid. */
  lemma RemoveValid(st: Store, i: nat, r: Store)
    requires Valid(st) && i < |st.cells|
    requires r.cells == st.cells[..i] + st.cells[i + 1..] && r.next == st.next
    requires st.cells[i].Inline? ==> r.heap == st.heap
    requires st.cells[i].Shared? ==>
      var h := st.cells[i].handle;
      var b := st.heap[h];
      r.heap == if b.rc == 1 then st.heap - {h} else st.heap[h := b.(rc := b.rc - 1)]
    ensures Valid(r)
    ensures forall k :: k in st.heap ==> Refs(st.cells, k) == Refs(r.cells, k) + (if st.cells[i] == Shared(k) then 1 else 0)
  {
    RemoveRefs(st.cells, i, r.cells);
    RemoveShifts(st.cells, i, r.cells);
    if st.cells[i].Shared? {
      LiveCountPositive(st, i);
    }
    assert HandlesLive(r);
    assert InlineScalars(r);
    assert CountsExact(r);
    assert RecordsGood(r);
  }

  /** Destruction of cell `i`: its record loses a reference and is freed
      when that was the last one. */
  function Destroy(st: Store, i: nat): (r: Store)
    requires Valid(st) && i < |st.cells|
    ensures Valid(r)
    ensures r.cells == st.cells[..i] + st.cells[i + 1..]
    ensures forall k :: 0 <= k < |r.cells| ==> Denote(r, k) == Denote(st, if k < i then k else k + 1)
    ensures st.cells[i].Inline? ==> r.heap == st.heap
    ensures st.cells[i].Shared? ==>
      var h := st.cells[i].handle;
      && r.heap.Keys <= st.heap.Keys
      && st.heap.Keys - {h} <= r.heap.Keys
      && (h !in r.heap <==> st.heap[h].rc == 1)
      && (h !in r.heap <==> Refs(r.cells, h) == 0)
  {
    var cells := st.cells[..i] + st.cells[i + 1..];
    var heap :=
      match st.cells[i]
      case Inline(_) => st.heap
      case Shared(h) =>
        var b := st.heap[h];
        if b.rc == 1 then st.heap - {h} else st.heap[h := b.(rc := b.rc - 1)];
    var r := Store(heap, cells, st.next);
    RemoveValid(st, i, r);
    RemoveShifts(st.cells, i, cells);
    r
  }

  /** Exchange of two cells' payloads; no count changes. */
  function Swap(st: Store, i: nat, j: nat): (r: Store)
    requires Valid(st) && i < |st.cells| && j < |st.cells|
    ensures Valid(r) && r.heap == st.heap && |r.cells| == |st.cells|
    ensures r.cells[i] == st.cells[j] && r.cells[j] == st.cells[i]
    ensures Denote(r, i) == Denote(st, j) && Denote(r, j) == Denote(st, i)
    ensures forall k :: 0 <= k < |st.cells| && k != i && k != j ==> Denote(r, k) == Denote(st, k)
  {
    SwapMultiset(st.cells, i, j);
    Store(st.heap, st.cells[i := st.cells[j]][j := st.cells[i]], st.next)
  }

  /** Assignment `dst = src`: copy `src` into a temporary, swap it with `dst`,
      destroy the temporary (which now holds `dst`'s old payload). */
  function Assign(st: Store, dst: nat, src: nat): (r: Store)
    requires Valid(st) && dst < |st.cells| && src < |st.cells|
    ensures Valid(r) && |r.cells| == |st.cells|
    ensures Denote(r, dst) == Denote(st, src) && Denote(r, src) == Denote(st, src)
    ensures forall k :: 0 <= k < |st.cells| && k != dst ==> Denote(r, k) == Denote(st, k)
  {
    var n := |st.cells|;
    var withTemp := Copy(st, src);
    var swapped := Swap(withTemp, n, dst);
    Destroy(swapped, n)
  }

  /** After an assignment the record `dst` pointed at is freed exactly when
      `dst` was its only holder and `src` did not share it. */
  lemma AssignFreesOldPayload(st: Store, dst: nat, src: nat)
    requires Valid(st) && dst < |st.cells| && src < |st.cells|
    requires st.cells[dst].Shared?
    ensures var h := st.cells[dst].handle;
      h !in Assign(st, dst, src).heap <==> st.heap[h].rc == 1 && st.cells[src] != st.cells[dst]
  {
    var n := |st.cells|;
    var h := st.cells[dst].handle;
    var withTemp := Copy(st, src);
    var swapped := Swap(withTemp, n, dst);
    assert swapped.cells[n] == st.cells[dst];
    if st.cells[src] == st.cells[dst] {
      assert withTemp.heap[h].rc == st.heap[h].rc + 1;
    } else {
      assert withTemp.heap[h] == st.heap[h];
    }
  }
}

=== FILE: results.dfy ===
/** Failure-compatible wrappers. `Err` carries the message of the exception the
    source throws (or of the debug assertion it would trip). */
module Results {

  datatype Option<+T> = None | Some(value: T)

  datatype Result<+T> = Ok(value: T) | Err(msg: string) {

    predicate IsFailure() {
      Err?
    }

    function PropagateFailure<U>(): Result<U>
      requires Err?
    {
      Err(msg)
    }

    function Extract(): T
      requires Ok?
    {
      value
    }
  }
}

=== FILE: statement.dfy ===
/** Symbols, symbol tables, bodies and the fourteen statement kinds of the
    AST, with the check that every type they mention is resolved. */
module Statements {
  import opened Results
  import opened Text
  import opened Json
  import opened Typeids
  import opened Values

  // ------------------------------------------------------------------ symbols

  datatype MutableMode = Immutable | Mutable

  /** A named slot: mutability, declared type, and an initial value that is
      the undefined value when there is none. */
  datatype Symbol = Symbol(mode: MutableMode, valueType: Typeid, init: Value)

  predicate SymbolInvariant(s: Symbol) {
    s.init.VUndefined? || TypeOf(s.init) == s.valueType
  }

  function MakeImmutable(t: Typeid): (s: Symbol)
    ensures SymbolInvariant(s) && s.mode == Immutable && s.valueType == t && s.init.VUndefined?
  {
    Symbol(Immutable, t, VUndefined)
  }

  function MakeImmutableArg(t: Typeid): (s: Symbol)
    ensures SymbolInvariant(s) && s.mode == Immutable && s.valueType == t && s.init.VUndefined?
  {
    Symbol(Immutable, t, VUndefined)
  }

  function MakeMutable(t: Typeid): (s: Symbol)
    ensures SymbolInvariant(s) && s.mode == Mutable && s.valueType == t && s.init.VUndefined?
  {
    Symbol(Mutable, t, VUndefined)
  }

  /** An immutable symbol whose value is known ahead of execution; its type
      is the value's type. */
  function MakeImmutablePrecalc(v: Value): (s: Symbol)
    ensures SymbolInvariant(s) && s.mode == Immutable && s.init == v && s.valueType == TypeOf(v)
  {
    Symbol(Immutable, TypeOf(v), v)
  }

  /** A type name: an immutable symbol of type `typeid` holding the type. */
  function MakeTypeSymbol(t: Typeid): (s: Symbol)
    ensures SymbolInvariant(s) && s.mode == Immutable && s.valueType == TTypeid && s.init == VTypeid(t)
  {
    MakeImmutablePrecalc(VTypeid(t))
  }

  datatype SymbolEntry = SymbolEntry(name: string, symbol: Symbol)

  /** Ordered (name, symbol) pairs; names need not be unique and lookups
      take the first match. */
  datatype SymbolTable = SymbolTable(symbols: seq<SymbolEntry>)

  /** Position of the first entry called `name`. */
  function FirstIndexOf(es: seq<SymbolEntry>, name: string): (r: Option<nat>)
    ensures r.Some? ==>
      (r.value < |es| && es[r.value].name == name && forall j :: 0 <= j < r.value ==> es[j].name != name)
    ensures r.None? <==> forall j :: 0 <= j < |es| ==> es[j].name != name
    decreases |es|
  {
    if |es| == 0 then None
    else if es[0].name == name then Some(0)
    else match FirstIndexOf(es[1..], name)
      case None => None
      case Some(i) => Some(i + 1)
  }

  /** The symbol of the first entry called `name`, if any. */
  function FindSymbol(table: SymbolTable, name: string): (r: Option<Symbol>)
    ensures r.None? <==> forall j :: 0 <= j < |table.symbols| ==> table.symbols[j].name != name
    ensures r.Some? ==> exists i :: 0 <= i < |table.symbols| && table.symbols[i] == SymbolEntry(name, r.value)
                                   && forall j :: 0 <= j < i ==> table.symbols[j].name != name
  {
    match FirstIndexOf(table.symbols, name)
    case None => None
    case Some(i) => Some(table.symbols[i].symbol)
  }

  /** As `FindSymbol`, failing when the name is absent. */
  function FindSymbolRequired(table: SymbolTable, name: string): (r: Result<Symbol>)
    ensures r.Ok? <==> FindSymbol(table, name).Some?
    ensures r.Ok? ==> FindSymbol(table, name) == Some(r.value)
  {
    match FindSymbol(table, name)
    case None => Err("std::exception")
    case Some(s) => Ok(s)
  }

  /** Appends an immutable, uninitialised symbol and returns the table and
      the new entry's index. */
  function AddTemp(table: SymbolTable, name: string, t: Typeid): (r: (SymbolTable, nat))
    ensures r.1 == |table.symbols| && |r.0.symbols| == |table.symbols| + 1
    ensures r.0.symbols[..r.1] == table.symbols
    ensures r.0.symbols[r.1] == SymbolEntry(name, MakeImmutable(t))
  {
    (SymbolTable(table.symbols + [SymbolEntry(name, MakeImmutable(t))]), |table.symbols|)
  }

  /** After adding a temporary, looking up its name finds it unless an
      earlier entry already had that name; other names are unaffected. */
  lemma AddTempThenFind(table: SymbolTable, name: string, t: Typeid, other: string)
    requires other != name
    ensures FindSymbol(AddTemp(table, name, t).0, name)
      == if FindSymbol(table, name).Some? then FindSymbol(table, name) else Some(MakeImmutable(t))
    ensures FindSymbol(AddTemp(table, name, t).0, other) == FindSymbol(table, other)
  {
    var s := AddTemp(table, name, t).0.symbols;
    FirstIndexAppend(table.symbols, SymbolEntry(name, MakeImmutable(t)), name);
    FirstIndexAppend(table.symbols, SymbolEntry(name, MakeImmutable(t)), other);
  }

  lemma FirstIndexAppend(es: seq<SymbolEntry>, e: SymbolEntry, name: string)
    ensures FirstIndexOf(es + [e], name)
      == if FirstIndexOf(es, name).Some? then FirstIndexOf(es, name)
         else if e.name == name then Some(|es|) else None
  {
    var t := es + [e];
    assert forall j :: 0 <= j < |es| ==> t[j] == es[j];
    match FirstIndexOf(es, name)
    case Some(k) =>
      FirstIndexIs(t, name, k);
    case None =>
      if e.name == name {
        FirstIndexIs(t, name, |es|);
      }
  }

  /** The first entry called `name` is the one at `k` when `k` holds that
      name and nothing before it does. */
  lemma FirstIndexIs(es: seq<SymbolEntry>, name: string, k: nat)
    requires k < |es| && es[k].name == name
    requires forall j :: 0 <= j < k ==> es[j].name != name
    ensures FirstIndexOf(es, name) == Some(k)
  {
    var r := FirstIndexOf(es, name);
    assert r.Some?;
  }

  // ------------------------------------------------------------------ statements

  datatype Location = Location(offset: real) | NoLocation

  /** A resolved variable: how many scopes up, and the slot in that scope. */
  datatype VariableAddress = VariableAddress(parentSteps: int, index: int)

  /** Expressions are decoded elsewhere; the statements only need whether
      their types are resolved. */
  datatype Expression = Expression(json: Json, typesResolved: bool)

  datatype BindMode = BindMutable | BindImmutable

  datatype RangeType = OpenRange | ClosedRange

  datatype FunctionDef = FunctionDef(location: Location, name: string, functionType: Typeid, args: seq<Member>, body: Body)

  datatype Body = Body(statements: seq<Statement>, symbolTable: SymbolTable)

  datatype StatementKind =
    | Return(expression: Expression)
    | DefineStruct(structName: string, structDef: StructDef)
    | DefineFunction(functionName: string, functionDef: FunctionDef)
    | BindLocal(newLocalName: string, bindType: Typeid, expression: Expression, bindMode: BindMode)
    | Assign(localName: string, expression: Expression)
    | Assign2(dest: VariableAddress, expression: Expression)
    | Init2(dest: VariableAddress, expression: Expression)
    | Block(body: Body)
    | IfElse(condition: Expression, thenBody: Body, elseBody: Body)
    | For(iteratorName: string, startExpression: Expression, endExpression: Expression, body: Body, rangeType: RangeType)
    | While(condition: Expression, body: Body)
    | ExpressionStatement(expression: Expression)
    | SoftwareSystem(jsonData: Json)
    | ContainerDef(jsonData: Json)

  datatype Statement = Statement(location: Location, contents: StatementKind)

  /** A body built from statements alone has an empty symbol table. */
  function BodyOf(statements: seq<Statement>): (b: Body)
    ensures b.statements == statements && b.symbolTable.symbols == []
  {
    Body(statements, SymbolTable([]))
  }

  // ------------------------------------------------------------------ resolution check

  /** Entries with this name are placeholders the check skips. */
  const UndefName: string := "**undef**"

  predicate StructDefResolved(def: StructDef) {
    forall i :: 0 <= i < |def.members| ==> IsResolved(def.members[i].memberType)
  }

  predicate StatementTypesResolved(s: Statement)
    decreases s
  {
    match s.contents
    case Return(e) => e.typesResolved
    case DefineStruct(_, def) => StructDefResolved(def)
    case DefineFunction(_, f) =>
      IsResolved(f.functionType) && StructDefResolved(StructDef(f.args)) && BodyTypesResolved(f.body)
    case BindLocal(_, t, e, _) => IsResolved(t) && e.typesResolved
    case Assign(_, e) => e.typesResolved
    case Assign2(_, e) => e.typesResolved
    case Init2(_, e) => e.typesResolved
    case Block(b) => BodyTypesResolved(b)
    case IfElse(c, t, e) => c.typesResolved && BodyTypesResolved(t) && BodyTypesResolved(e)
    case For(_, st, en, b, _) => st.typesResolved && en.typesResolved && BodyTypesResolved(b)
    case While(c, b) => c.typesResolved && BodyTypesResolved(b)
    case ExpressionStatement(e) => e.typesResolved
    case SoftwareSystem(_) => true
    case ContainerDef(_) => true
  }

  /** Scan of the statements, stopping at the first unresolved one. */
  predicate StatementsResolved(ss: seq<Statement>)
    decreases ss
  {
    if |ss| == 0 then true
    else if !StatementTypesResolved(ss[0]) then false
    else StatementsResolved(ss[1..])
  }

  predicate SymbolResolved(e: SymbolEntry) {
    e.name == UndefName
    || (IsResolved(e.symbol.valueType) && (e.symbol.init.VUndefined? || IsResolved(TypeOf(e.symbol.init))))
  }

  /** Scan of the symbols, stopping at the first unresolved named one. */
  predicate SymbolsResolved(es: seq<SymbolEntry>)
    decreases |es|
  {
    if |es| == 0 then true
    else if es[0].name != UndefName && !IsResolved(es[0].symbol.valueType) then false
    else if es[0].name != UndefName && !es[0].symbol.init.VUndefined? && !IsResolved(TypeOf(es[0].symbol.init)) then false
    else SymbolsResolved(es[1..])
  }

  predicate BodyTypesResolved(b: Body)
    decreases b
  {
    StatementsResolved(b.statements) && SymbolsResolved(b.symbolTable.symbols)
  }

  lemma {:induction false} StatementsResolvedAll(ss: seq<Statement>)
    ensures StatementsResolved(ss) <==> forall i :: 0 <= i < |ss| ==> StatementTypesResolved(ss[i])
    decreases |ss|
  {
    if |ss| > 0 {
      StatementsResolvedAll(ss[1..]);
      assert forall i :: 1 <= i < |ss| ==> ss[i] == ss[1..][i - 1];
    }
  }

  lemma {:induction false} SymbolsResolvedAll(es: seq<SymbolEntry>)
    ensures SymbolsResolved(es) <==> forall i :: 0 <= i < |es| ==> SymbolResolved(es[i])
    decreases |es|
  {
    if |es| > 0 {
      SymbolsResolvedAll(es[1..]);
      assert forall i :: 1 <= i < |es| ==> es[i] == es[1..][i - 1];
    }
  }

  /** A body is resolved exactly when every statement is, and every symbol
      not named as a placeholder has a resolved type and, if initialised, an
      initial value of resolved type. */
  lemma BodyResolvedIff(b: Body)
    ensures BodyTypesResolved(b) <==>
      (forall i :: 0 <= i < |b.statements| ==> StatementTypesResolved(b.statements[i]))
      && (forall i :: 0 <= i < |b.symbolTable.symbols| ==> SymbolResolved(b.symbolTable.symbols[i]))
  {
    StatementsResolvedAll(b.statements);
    SymbolsResolvedAll(b.symbolTable.symbols);
  }
}

=== FILE: statement_json.dfy ===
/** Reading the AST back from its JSON form: symbols, symbol tables and
    statements. The typeid, value, expression and member codecs live
    elsewhere and are passed in. */
module StatementJson {
  import opened Results
  import opened Text
  import opened Json
  import opened Typeids
  import opened Values
  import opened Statements

  datatype AstCodecs = AstCodecs(
    typeidFromJson: Json -> Result<Typeid>,
    typeidToJson: Typeid -> Json,
    valueFromJson: (Typeid, Json) -> Result<Value>,
    valueToJson: Value -> Json,
    expressionFromJson: Json -> Result<Expression>,
    membersFromJson: seq<Json> -> Result<seq<Member>>)

  /** The type and value codecs invert each other, and only the undefined
      value is written as null. */
  ghost predicate CodecsInverse(c: AstCodecs) {
    && (forall t :: c.typeidFromJson(c.typeidToJson(t)) == Ok(t))
    && c.valueToJson(VUndefined) == JNull
    && (forall v: Value :: !v.VUndefined? ==> !c.valueToJson(v).JNull? && c.valueFromJson(TypeOf(v), c.valueToJson(v)) == Ok(v))
  }

  // ------------------------------------------------------------------ symbols

  function ModeName(m: MutableMode): string {
    if m == Immutable then "immutable" else "mutable"
  }

  function SymbolToJson(s: Symbol, c: AstCodecs): (j: Json)
    ensures j.JObject? && KeysAscending(j.members)
  {
    assert StrLess("init", "symbol_type") && StrLess("symbol_type", "value_type") && StrLess("init", "value_type");
    JObject([
      JMember("init", c.valueToJson(s.init)),
      JMember("symbol_type", JString(ModeName(s.mode))),
      JMember("value_type", c.typeidToJson(s.valueType))])
  }

  /** Reads a symbol; the mode must be "immutable" or "mutable", a null
      initial value means none, and the result must satisfy the symbol
      invariant. */
  function JsonToSymbol(j: Json, c: AstCodecs): (r: Result<Symbol>)
    ensures r.Ok? ==> SymbolInvariant(r.value)
    ensures r.Ok? ==> GetObjectElement(j, "symbol_type") == Ok(JString(ModeName(r.value.mode)))
    ensures r.Ok? ==> (GetObjectElement(j, "init") == Ok(JNull) ==> r.value.init.VUndefined?)
  {
    var modeJson :- GetObjectElement(j, "symbol_type");
    var modeName :- GetString(modeJson);
    var typeJson :- GetObjectElement(j, "value_type");
    if modeName != "immutable" && modeName != "mutable" then Err("std::exception")
    else
      var mode := if modeName == "immutable" then Immutable else Mutable;
      var valueType :- c.typeidFromJson(typeJson);
      var initJson :- GetObjectElement(j, "init");
      var init :- if initJson.JNull? then Ok(VUndefined) else c.valueFromJson(valueType, initJson);
      if !(init.VUndefined? || TypeOf(init) == valueType) then Err("Symbol initial value has the wrong type.")
      else Ok(Symbol(mode, valueType, init))
  }

  lemma SymbolJsonLookups(s: Symbol, c: AstCodecs)
    ensures GetObjectElement(SymbolToJson(s, c), "init") == Ok(c.valueToJson(s.init))
    ensures GetObjectElement(SymbolToJson(s, c), "symbol_type") == Ok(JString(ModeName(s.mode)))
    ensures GetObjectElement(SymbolToJson(s, c), "value_type") == Ok(c.typeidToJson(s.valueType))
  {
    InitLookup(s, c);
    ModeLookup(s, c);
    TypeLookup(s, c);
  }

  lemma InitLookup(s: Symbol, c: AstCodecs)
    ensures GetObjectElement(SymbolToJson(s, c), "init") == Ok(c.valueToJson(s.init))
  {
    FindFirstKey(SymbolToJson(s, c).members, 0);
  }

  lemma ModeLookup(s: Symbol, c: AstCodecs)
    ensures GetObjectElement(SymbolToJson(s, c), "symbol_type") == Ok(JString(ModeName(s.mode)))
  {
    var ms := SymbolToJson(s, c).members;
    assert ms[0].key != ms[1].key by {
      assert ms[0].key[0] == 'i' && ms[1].key[0] == 's';
    }
    FindFirstKey(ms, 1);
  }

  lemma TypeLookup(s: Symbol, c: AstCodecs)
    ensures GetObjectElement(SymbolToJson(s, c), "value_type") == Ok(c.typeidToJson(s.valueType))
  {
    var ms := SymbolToJson(s, c).members;
    assert ms[0].key != ms[2].key by {
      assert ms[0].key[0] == 'i' && ms[2].key[0] == 'v';
    }
    assert ms[1].key != ms[2].key by {
      assert ms[1].key[0] == 's' && ms[2].key[0] == 'v';
    }
    FindFirstKey(ms, 2);
  }

  /** Writing a symbol and reading it back gives the same symbol. */
  lemma SymbolRoundTrip(s: Symbol, c: AstCodecs)
    requires CodecsInverse(c) && SymbolInvariant(s)
    ensures JsonToSymbol(SymbolToJson(s, c), c) == Ok(s)
  {
    SymbolJsonLookups(s, c);
    assert c.typeidFromJson(c.typeidToJson(s.valueType)) == Ok(s.valueType);
    if !s.init.VUndefined? {
      assert c.valueFromJson(TypeOf(s.init), c.valueToJson(s.init)) == Ok(s.init);
    }
    SymbolOfParts(SymbolToJson(s, c), c, s, c.typeidToJson(s.valueType), c.valueToJson(s.init));
  }

  /** A symbol object whose three members read back as the parts of `s`
      reads back as `s`. */
  lemma SymbolOfParts(j: Json, c: AstCodecs, s: Symbol, typeJson: Json, initJson: Json)
    requires SymbolInvariant(s)
    requires GetObjectElement(j, "symbol_type") == Ok(JString(ModeName(s.mode)))
    requires GetObjectElement(j, "value_type") == Ok(typeJson) && c.typeidFromJson(typeJson) == Ok(s.valueType)
    requires GetObjectElement(j, "init") == Ok(initJson)
    requires initJson.JNull? <==> s.init.VUndefined?
    requires !initJson.JNull? ==> c.valueFromJson(s.valueType, initJson) == Ok(s.init)
    ensures JsonToSymbol(j, c) == Ok(s)
  {
    assert |ModeName(Mutable)| != |"immutable"|;
  }

  function SymbolEntryToJson(index: nat, e: SymbolEntry, c: AstCodecs): Json {
    JArray([JNumber(index as real), JString(e.name), SymbolToJson(e.symbol, c)])
  }

  /** Each entry as `[index, name, symbol]`, in table order. */
  function SymbolsToJson(t: SymbolTable, c: AstCodecs): (r: seq<Json>)
    ensures |r| == |t.symbols|
    ensures forall i :: 0 <= i < |r| ==> r[i] == SymbolEntryToJson(i, t.symbols[i], c)
  {
    seq(|t.symbols|, i requires 0 <= i < |t.symbols| => SymbolEntryToJson(i, t.symbols[i], c))
  }

  function DummyName(k: nat): string {
    "dummy_symbol #" + NatToDecimal(k)
  }

  /** Filler entries for the positions `from` up to (not including) `to`,
      each named after its position and carrying `sym`. */
  function Padding(from: nat, to: nat, sym: Symbol): (r: seq<SymbolEntry>)
    requires from <= to
    ensures |r| == to - from
    ensures forall k :: 0 <= k < |r| ==> r[k] == SymbolEntry(DummyName(from + k), sym)
  {
    seq(to - from, k requires 0 <= k < to - from => SymbolEntry(DummyName(from + k), sym))
  }

  /** Puts an entry at `index`, first padding the gap since the last entry;
      an index that is not a whole number at or after the end fails. */
  function PlaceSymbol(acc: seq<SymbolEntry>, index: real, name: string, sym: Symbol): (r: Result<seq<SymbolEntry>>)
    ensures r.Ok? <==> index == index.Floor as real && index >= |acc| as real
    ensures r.Ok? ==>
      && |r.value| == index.Floor + 1
      && r.value[..|acc|] == acc
      && r.value[index.Floor] == SymbolEntry(name, sym)
      && forall k :: |acc| <= k < index.Floor ==> r.value[k] == SymbolEntry(DummyName(k), sym)
  {
    if index < |acc| as real || index != index.Floor as real then Err("Symbol index out of order.")
    else
      var r := acc + Padding(|acc|, index.Floor, sym) + [SymbolEntry(name, sym)];
      assert forall k :: |acc| <= k < index.Floor ==> r[k] == Padding(|acc|, index.Floor, sym)[k - |acc|];
      Ok(r)
  }

  /** Reads one `[index, name, symbol]` entry. */
  function DecodeSymbolEntry(e: Json, c: AstCodecs): (r: Result<(real, SymbolEntry)>)
    ensures r.Ok? ==> e.JArray? && |e.elements| >= 3 && e.elements[0] == JNumber(r.value.0)
  {
    var indexJson :- GetArrayN(e, 0);
    var index :- GetNumber(indexJson);
    var nameJson :- GetArrayN(e, 1);
    var name :- GetString(nameJson);
    var symbolJson :- GetArrayN(e, 2);
    var sym :- JsonToSymbol(symbolJson, c);
    Ok((index, SymbolEntry(name, sym)))
  }

  function DecodeSymbolEntries(es: seq<Json>, acc: seq<SymbolEntry>, c: AstCodecs): (r: Result<seq<SymbolEntry>>)
    ensures r.Ok? ==> |r.value| >= |acc| && r.value[..|acc|] == acc
    decreases |es|
  {
    if |es| == 0 then Ok(acc)
    else
      var entry :- DecodeSymbolEntry(es[0], c);
      var acc2 :- PlaceSymbol(acc, entry.0, entry.1.name, entry.1.symbol);
      var r :- DecodeSymbolEntries(es[1..], acc2, c);
      assert r[..|acc|] == r[..|acc2|][..|acc|];
      Ok(r)
  }

  /** Reads a symbol table written as `[index, name, symbol]` entries;
      indexes must increase and gaps are filled with placeholder entries. */
  function AstJsonToSymbols(p: Json, c: AstCodecs): (r: Result<SymbolTable>)
    ensures r.Ok? ==> p.JArray?
  {
    var es :- GetArray(p);
    var symbols :- DecodeSymbolEntries(es, [], c);
    Ok(SymbolTable(symbols))
  }

  lemma WrittenEntryReadsBack(i: nat, e: SymbolEntry, c: AstCodecs)
    requires JsonToSymbol(SymbolToJson(e.symbol, c), c) == Ok(e.symbol)
    ensures DecodeSymbolEntry(SymbolEntryToJson(i, e, c), c) == Ok((i as real, e))
  {
    EntryParts(i, e, c);
  }

  lemma EntryParts(i: nat, e: SymbolEntry, c: AstCodecs)
    ensures GetArrayN(SymbolEntryToJson(i, e, c), 0) == Ok(JNumber(i as real))
    ensures GetArrayN(SymbolEntryToJson(i, e, c), 1) == Ok(JString(e.name))
    ensures GetArrayN(SymbolEntryToJson(i, e, c), 2) == Ok(SymbolToJson(e.symbol, c))
  {
  }

  /** An entry written at the next free index is appended as it is. */
  lemma DecodeNextEntry(x: Json, rest: seq<Json>, acc: seq<SymbolEntry>, e: SymbolEntry, c: AstCodecs)
    requires DecodeSymbolEntry(x, c) == Ok((|acc| as real, e))
    ensures DecodeSymbolEntries([x] + rest, acc, c) == DecodeSymbolEntries(rest, acc + [e], c)
  {
    var es := [x] + rest;
    assert es[1..] == rest;
    assert (|acc| as real).Floor == |acc|;
    assert PlaceSymbol(acc, |acc| as real, e.name, e.symbol) == Ok(acc + [e]);
  }

  lemma SliceHead(s: seq<Json>, k: nat)
    requires k < |s|
    ensures s[k..] == [s[k]] + s[k + 1..]
  {
  }

  lemma {:induction false} DecodeWrittenSymbols(t: SymbolTable, k: nat, c: AstCodecs)
    requires k <= |t.symbols|
    requires forall i :: 0 <= i < |t.symbols| ==> DecodeSymbolEntry(SymbolEntryToJson(i, t.symbols[i], c), c) == Ok((i as real, t.symbols[i]))
    ensures DecodeSymbolEntries(SymbolsToJson(t, c)[k..], t.symbols[..k], c) == Ok(t.symbols)
    decreases |t.symbols| - k
  {
    var es := SymbolsToJson(t, c)[k..];
    if k < |t.symbols| {
      var e := t.symbols[k];
      SliceHead(SymbolsToJson(t, c), k);
      DecodeNextEntry(SymbolEntryToJson(k, e, c), SymbolsToJson(t, c)[k + 1..], t.symbols[..k], e, c);
      assert t.symbols[..k] + [e] == t.symbols[..k + 1];
      DecodeWrittenSymbols(t, k + 1, c);
    } else {
      assert t.symbols[..k] == t.symbols;
    }
  }

  /** Writing a table and reading it back gives the same table. */
  lemma SymbolsRoundTrip(t: SymbolTable, c: AstCodecs)
    requires CodecsInverse(c)
    requires forall i :: 0 <= i < |t.symbols| ==> SymbolInvariant(t.symbols[i].symbol)
    ensures AstJsonToSymbols(JArray(SymbolsToJson(t, c)), c) == Ok(t)
  {
    forall i | 0 <= i < |t.symbols|
      ensures DecodeSymbolEntry(SymbolEntryToJson(i, t.symbols[i], c), c) == Ok((i as real, t.symbols[i]))
    {
      SymbolRoundTrip(t.symbols[i].symbol, c);
      WrittenEntryReadsBack(i, t.symbols[i], c);
    }
    DecodeWrittenSymbols(t, 0, c);
    assert SymbolsToJson(t, c)[0..] == SymbolsToJson(t, c);
  }

  lemma PlaceAtTwo(s: Symbol)
    ensures PlaceSymbol([], 2.0, "x", s)
      == Ok([SymbolEntry("dummy_symbol #0", s), SymbolEntry("dummy_symbol #1", s), SymbolEntry("x", s)])
  {
    assert (2.0).Floor == 2;
    assert DummyName(0) == "dummy_symbol #0" by { assert NatToDecimal(0) == "0"; }
    assert DummyName(1) == "dummy_symbol #1" by { assert NatToDecimal(1) == "1"; }
    var placed := PlaceSymbol([], 2.0, "x", s);
    assert placed.Ok?;
    assert |placed.value| == 3;
    assert placed.value[0] == SymbolEntry(DummyName(0), s);
    assert placed.value[1] == SymbolEntry(DummyName(1), s);
    assert placed.value[2] == SymbolEntry("x", s);
    assert placed.value == [SymbolEntry("dummy_symbol #0", s), SymbolEntry("dummy_symbol #1", s), SymbolEntry("x", s)];
  }

  lemma DecodeSingleEntry(x: Json, index: real, e: SymbolEntry, acc: seq<SymbolEntry>, c: AstCodecs)
    requires DecodeSymbolEntry(x, c) == Ok((index, e))
    ensures DecodeSymbolEntries([x], acc, c) == PlaceSymbol(acc, index, e.name, e.symbol)
  {
    assert [x][1..] == [];
  }

  /** A single entry at index 2 is preceded by two placeholders carrying the
      same symbol. */
  lemma SymbolPaddingExample(s: Symbol, c: AstCodecs)
    requires JsonToSymbol(SymbolToJson(s, c), c) == Ok(s)
    ensures AstJsonToSymbols(JArray([JArray([JNumber(2.0), JString("x"), SymbolToJson(s, c)])]), c)
      == Ok(SymbolTable([SymbolEntry("dummy_symbol #0", s), SymbolEntry("dummy_symbol #1", s), SymbolEntry("x", s)]))
  {
    var x := SymbolEntryToJson(2, SymbolEntry("x", s), c);
    WrittenEntryReadsBack(2, SymbolEntry("x", s), c);
    PlaceAtTwo(s);
    DecodeSingleEntry(x, 2.0, SymbolEntry("x", s), [], c);
  }

  // ------------------------------------------------------------------ statements

  const OpReturn: string := "return"
  const OpBind: string := "bind"
  const OpAssign: string := "assign"
  const OpAssign2: string := "assign2"
  const OpInit2: string := "init2"
  const OpBlock: string := "block"
  const OpDefStruct: string := "def-struct"
  const OpDefFunc: string := "def-func"
  const OpIf: string := "if"
  const OpFor: string := "for"
  const OpWhile: string := "while"
  const OpExpressionStatement: string := "expression-statement"
  const OpSoftwareSystem: string := "software-system"
  const OpContainerDef: string := "container-def"

  const WrongArity: string := "Wrong number of elements in statement."
  const IllegalStatement: string := "Illegal statement."

  /** The opcode each statement kind is written with. */
  function OpcodeOf(k: StatementKind): string {
    match k
    case Return(_) => OpReturn
    case DefineStruct(_, _) => OpDefStruct
    case DefineFunction(_, _) => OpDefFunc
    case BindLocal(_, _, _, _) => OpBind
    case Assign(_, _) => OpAssign
    case Assign2(_, _) => OpAssign2
    case Init2(_, _) => OpInit2
    case Block(_) => OpBlock
    case IfElse(_, _, _) => OpIf
    case For(_, _, _, _, _) => OpFor
    case While(_, _) => OpWhile
    case ExpressionStatement(_) => OpExpressionStatement
    case SoftwareSystem(_) => OpSoftwareSystem
    case ContainerDef(_) => OpContainerDef
  }

  predicate IsOpcode(s: string) {
    s == OpReturn || s == OpBind || s == OpAssign || s == OpAssign2 || s == OpInit2 || s == OpBlock
    || s == OpDefStruct || s == OpDefFunc || s == OpIf || s == OpFor || s == OpWhile
    || s == OpExpressionStatement || s == OpSoftwareSystem || s == OpContainerDef
  }

  /** A statement array may start with its source position. */
  function UnpackLoc(es: seq<Json>): (r: (seq<Json>, Location))
    ensures r.0 == es || (|es| > 0 && r.0 == es[1..])
  {
    if |es| > 0 && es[0].JNumber? then (es[1..], Location(es[0].n)) else (es, NoLocation)
  }

  /** The opcode a statement's JSON names, if it names one. */
  function StatementOpcode(j: Json): Option<string> {
    if !j.JArray? then None
    else
      var es := UnpackLoc(j.elements).0;
      if |es| > 0 && es[0].JString? then Some(es[0].s) else None
  }

  /** C++ `(int)` conversion: truncation toward zero. */
  function TruncToInt(x: real): int {
    if x >= 0.0 then x.Floor else -((-x).Floor)
  }

  function MemberTypes(ms: seq<Member>): (r: seq<Typeid>)
    ensures |r| == |ms| && forall i :: 0 <= i < |ms| ==> r[i] == ms[i].memberType
  {
    seq(|ms|, i requires 0 <= i < |ms| => ms[i].memberType)
  }

  /** Position of the "statements" member of a function definition object. */
  function StatementsMember(def: Json): (r: Result<nat>)
    ensures r.Ok? ==> def.JObject? && r.value < |def.members| && def.members[r.value].key == "statements"
    ensures r.Ok? <==> DoesObjectElementExist(def, "statements")
  {
    if !def.JObject? then Err("JSON value is not an object")
    else match FindKey(def.members, "statements")
      case None => Err("JSON object has no member \"statements\"")
      case Some(i) => Ok(i)
  }

  /** The elements after the optional position: opcode first. */
  function Parts(j: Json): seq<Json>
    requires j.JArray?
  {
    UnpackLoc(j.elements).0
  }

  function DecodeReturn(es: seq<Json>, c: AstCodecs): (r: Result<StatementKind>)
    ensures r.Ok? ==> r.value.Return?
  {
    if |es| != 2 then Err(WrongArity)
    else
      var e :- c.expressionFromJson(es[1]);
      Ok(Return(e))
  }

  /** `bind` reads type, name and expression in that order; the binding is
      mutable exactly when the optional fifth element is an object with a
      "mutable" member. */
  function DecodeBind(es: seq<Json>, c: AstCodecs): (r: Result<StatementKind>)
    ensures r.Ok? ==> r.value.BindLocal?
    ensures r.Ok? ==> (r.value.bindMode == BindMutable <==> |es| == 5 && DoesObjectElementExist(es[4], "mutable"))
  {
    if |es| != 4 && |es| != 5 then Err(WrongArity)
    else
      var meta := if |es| >= 5 then es[4] else JNull;
      var bindType :- c.typeidFromJson(es[1]);
      var name :- GetString(es[2]);
      var e :- c.expressionFromJson(es[3]);
      var mode := if !meta.JNull? && DoesObjectElementExist(meta, "mutable") then BindMutable else BindImmutable;
      Ok(BindLocal(name, bindType, e, mode))
  }

  function DecodeAssign(es: seq<Json>, c: AstCodecs): (r: Result<StatementKind>)
    ensures r.Ok? ==> r.value.Assign?
  {
    if |es| != 3 then Err(WrongArity)
    else
      var name :- GetString(es[1]);
      var e :- c.expressionFromJson(es[2]);
      Ok(Assign(name, e))
  }

  /** `assign2` and `init2` carry a resolved variable address whose two
      numbers are truncated to integers. */
  function DecodeAddressed(isInit: bool, es: seq<Json>, c: AstCodecs): (r: Result<StatementKind>)
    ensures r.Ok? ==> if isInit then r.value.Init2? else r.value.Assign2?
    ensures r.Ok? ==> |es| == 4 && es[1].JNumber? && r.value.dest.parentSteps == TruncToInt(es[1].n)
  {
    if |es| != 4 then Err(WrongArity)
    else
      var parent :- GetNumber(es[1]);
      var index :- GetNumber(es[2]);
      var e :- c.expressionFromJson(es[3]);
      var dest := VariableAddress(TruncToInt(parent), TruncToInt(index));
      Ok(if isInit then Init2(dest, e) else Assign2(dest, e))
  }

  function DecodeDefStruct(es: seq<Json>, c: AstCodecs): (r: Result<StatementKind>)
    ensures r.Ok? ==> r.value.DefineStruct?
  {
    if |es| != 2 then Err(WrongArity)
    else
      var nameJson :- GetObjectElement(es[1], "name");
      var name :- GetString(nameJson);
      var membersJson :- GetObjectElement(es[1], "members");
      var members :- GetArray(membersJson);
      var ms :- c.membersFromJson(members);
      Ok(DefineStruct(name, StructDef(ms)))
  }

  function DecodeExpressionStatement(es: seq<Json>, c: AstCodecs): (r: Result<StatementKind>)
    ensures r.Ok? ==> r.value.ExpressionStatement?
  {
    if |es| != 2 then Err(WrongArity)
    else
      var e :- c.expressionFromJson(es[1]);
      Ok(ExpressionStatement(e))
  }

  /** `software-system` and `container-def` keep their JSON payload. */
  function DecodeJsonPayload(isContainer: bool, es: seq<Json>): (r: Result<StatementKind>)
    ensures r.Ok? ==> |es| == 2 && if isContainer then r.value == ContainerDef(es[1]) else r.value == SoftwareSystem(es[1])
  {
    if |es| != 2 then Err(WrongArity)
    else if isContainer then Ok(ContainerDef(es[1]))
    else Ok(SoftwareSystem(es[1]))
  }

  function DecodeBlock(j: Json, c: AstCodecs): (r: Result<StatementKind>)
    requires j.JArray?
    ensures r.Ok? ==> r.value.Block?
    decreases j, 0
  {
    var es := Parts(j);
    if |es| != 2 then Err(WrongArity)
    else
      var ss :- AstJsonToStatements(es[1], c);
      Ok(Block(BodyOf(ss)))
  }

  /** `def-func` looks up name, args, statements, return_type and impure,
      then decodes them; "impure" must be a boolean and the function is pure
      exactly when it is false. */
  function DecodeDefFunc(j: Json, c: AstCodecs): (r: Result<StatementKind>)
    requires j.JArray?
    ensures r.Ok? ==> r.value.DefineFunction? && r.value.functionDef.functionType.TFunction?
    ensures r.Ok? ==> (|Parts(j)| == 2 && GetObjectElement(Parts(j)[1], "impure") == Ok(JBool(!r.value.functionDef.functionType.pure)))
    decreases j, 0
  {
    var es := Parts(j);
    if |es| != 2 then Err(WrongArity)
    else
      var def := es[1];
      var nameJson :- GetObjectElement(def, "name");
      var argsJson :- GetObjectElement(def, "args");
      var si :- StatementsMember(def);
      var returnTypeJson :- GetObjectElement(def, "return_type");
      var impure :- GetObjectElement(def, "impure");
      var name :- GetString(nameJson);
      var argsArray :- GetArray(argsJson);
      var args :- c.membersFromJson(argsArray);
      var body :- AstJsonToStatements(def.members[si].value, c);
      var returnType :- c.typeidFromJson(returnTypeJson);
      if !impure.JBool? then Err("std::exception")
      else
        var functionType := TFunction(returnType, MemberTypes(args), !impure.b);
        Ok(DefineFunction(name, FunctionDef(NoLocation, name, functionType, args, BodyOf(body))))
  }

  /** `if` has an optional else part; without one the else body is empty. */
  function DecodeIf(j: Json, c: AstCodecs): (r: Result<StatementKind>)
    requires j.JArray?
    ensures r.Ok? ==> r.value.IfElse?
    ensures r.Ok? && |Parts(j)| == 3 ==> r.value.elseBody == BodyOf([])
    decreases j, 0
  {
    var es := Parts(j);
    if |es| != 3 && |es| != 4 then Err(WrongArity)
    else
      var cond :- c.expressionFromJson(es[1]);
      var thenPart :- AstJsonToStatements(es[2], c);
      var elsePart :- if |es| == 4 then AstJsonToStatements(es[3], c) else Ok([]);
      Ok(IfElse(cond, BodyOf(thenPart), BodyOf(elsePart)))
  }

  /** `for` is open-range exactly when its mode string is "open-range". */
  function DecodeFor(j: Json, c: AstCodecs): (r: Result<StatementKind>)
    requires j.JArray?
    ensures r.Ok? ==> r.value.For?
    ensures r.Ok? ==> (|Parts(j)| == 6 && Parts(j)[1].JString? && (r.value.rangeType == OpenRange <==> Parts(j)[1].s == "open-range"))
    decreases j, 0
  {
    var es := Parts(j);
    if |es| != 6 then Err(WrongArity)
    else
      var start :- c.expressionFromJson(es[3]);
      var end :- c.expressionFromJson(es[4]);
      var body :- AstJsonToStatements(es[5], c);
      var forMode :- GetString(es[1]);
      var rangeType := if forMode == "open-range" then OpenRange else ClosedRange;
      var iteratorName :- GetString(es[2]);
      Ok(For(iteratorName, start, end, BodyOf(body), rangeType))
  }

  function DecodeWhile(j: Json, c: AstCodecs): (r: Result<StatementKind>)
    requires j.JArray?
    ensures r.Ok? ==> r.value.While?
    decreases j, 0
  {
    var es := Parts(j);
    if |es| != 3 then Err(WrongArity)
    else
      var cond :- c.expressionFromJson(es[1]);
      var body :- AstJsonToStatements(es[2], c);
      Ok(While(cond, BodyOf(body)))
  }

  /** Decodes one statement. The kind produced is the one the opcode names,
      the statement keeps the position written before the opcode, and an
      unknown opcode is rejected. */
  function AstJsonToStatement(j: Json, c: AstCodecs): (r: Result<Statement>)
    ensures r.Ok? ==> StatementOpcode(j) == Some(OpcodeOf(r.value.contents))
    ensures r.Ok? ==> r.value.location == UnpackLoc(j.elements).1
    ensures StatementOpcode(j).Some? && !IsOpcode(StatementOpcode(j).value) ==> r == Err(IllegalStatement)
    decreases j, 2
  {
    if !j.JArray? then Err("Statement must be a JSON array.")
    else
      var es := Parts(j);
      var loc := UnpackLoc(j.elements).1;
      if |es| == 0 then Err("JSON array index out of range")
      else if !es[0].JString? then Err("JSON value is not a string")
      else
        var kind :- DecodeKind(es[0].s, j, es, c);
        Ok(Statement(loc, kind))
  }

  /** Picks the decoder for the opcode `op`; an opcode outside the list is
      an illegal statement. */
  function DecodeKind(op: string, j: Json, es: seq<Json>, c: AstCodecs): (r: Result<StatementKind>)
    requires j.JArray?
    ensures r.Ok? ==> OpcodeOf(r.value) == op
    ensures !IsOpcode(op) ==> r == Err(IllegalStatement)
    decreases j, 1
  {
    if op == OpReturn then DecodeReturn(es, c)
    else if op == OpBind then DecodeBind(es, c)
    else if op == OpAssign then DecodeAssign(es, c)
    else if op == OpAssign2 then DecodeAddressed(false, es, c)
    else if op == OpInit2 then DecodeAddressed(true, es, c)
    else if op == OpBlock then DecodeBlock(j, c)
    else if op == OpDefStruct then DecodeDefStruct(es, c)
    else if op == OpDefFunc then DecodeDefFunc(j, c)
    else if op == OpIf then DecodeIf(j, c)
    else if op == OpFor then DecodeFor(j, c)
    else if op == OpWhile then DecodeWhile(j, c)
    else if op == OpExpressionStatement then DecodeExpressionStatement(es, c)
    else if op == OpSoftwareSystem then DecodeJsonPayload(false, es)
    else if op == OpContainerDef then DecodeJsonPayload(true, es)
    else Err(IllegalStatement)
  }

  /** Decodes a statement list: it must be an array, and the result has one
      statement per element, in order. */
  function AstJsonToStatements(p: Json, c: AstCodecs): (r: Result<seq<Statement>>)
    ensures r.Ok? ==> p.JArray? && |r.value| == |p.elements|
    ensures r.Ok? ==> forall i :: 0 <= i < |p.elements| ==> AstJsonToStatement(p.elements[i], c) == Ok(r.value[i])
    ensures p.JArray? && (forall i :: 0 <= i < |p.elements| ==> AstJsonToStatement(p.elements[i], c).Ok?) ==> r.Ok?
    decreases p, 3
  {
    if !p.JArray? then Err("Statement list must be a JSON array.")
    else StatementsFrom(p.elements, c)
  }

  function StatementsFrom(es: seq<Json>, c: AstCodecs): (r: Result<seq<Statement>>)
    ensures r.Ok? ==> |r.value| == |es|
    ensures r.Ok? ==> forall i :: 0 <= i < |es| ==> AstJsonToStatement(es[i], c) == Ok(r.value[i])
    ensures (forall i :: 0 <= i < |es| ==> AstJsonToStatement(es[i], c).Ok?) ==> r.Ok?
    decreases es
  {
    if |es| == 0 then Ok([])
    else
      var s :- AstJsonToStatement(es[0], c);
      var rest :- StatementsFrom(es[1..], c);
      Ok([s] + rest)
  }

  /** A leading number is kept as the position; an empty block decodes to
      an empty body; an "if" without else gets an empty else body. */
  lemma StatementExamples(c: AstCodecs, cond: Json, e: Expression)
    requires c.expressionFromJson(cond) == Ok(e)
    ensures AstJsonToStatement(JArray([JNumber(12.0), JString("block"), JArray([])]), c)
      == Ok(Statement(Location(12.0), Block(BodyOf([]))))
    ensures AstJsonToStatement(JArray([JString("if"), cond, JArray([])]), c)
      == Ok(Statement(NoLocation, IfElse(e, BodyOf([]), BodyOf([]))))
    ensures AstJsonToStatement(JArray([JString("return"), cond]), c) == Ok(Statement(NoLocation, Return(e)))
    ensures AstJsonToStatement(JArray([JString("goto"), cond]), c) == Err(IllegalStatement)
  {
    assert StatementsFrom([], c) == Ok([]);
    var blockJson := JArray([JNumber(12.0), JString("block"), JArray([])]);
    assert Parts(blockJson) == [JString("block"), JArray([])];
    var ifJson := JArray([JString("if"), cond, JArray([])]);
    assert Parts(ifJson) == [JString("if"), cond, JArray([])];
    assert AstJsonToStatements(JArray([]), c) == Ok([]);
    assert DecodeIf(ifJson, c) == Ok(IfElse(e, BodyOf([]), BodyOf([])));
    assert !IsOpcode("goto");
  }
}

=== FILE: struct_parser.dfy ===
/** The struct-definition parser: `struct a {int x; string y;}` becomes the
    AST node `["def-struct", {"members": [...], "name": "a"}]` plus the text
    after the closing brace. The reader of one type token and the JSON
    encoding of the member list belong to other parts of the front end, so
    they are parameters here. */
module StructDefParser {
  import opened Results
  import opened Text
  import opened Json
  import opened ParserPrimitives

  /** One member as the parser collects it: its type and its name. */
  datatype Member<T> = Member(memberType: T, name: string)

  const StructKeyword: string := "struct"

  /** A non-empty run of letters, digits and underscores. */
  predicate IsName(s: string) {
    |s| > 0 && forall i :: 0 <= i < |s| ==> IsIdentifierChar(s[i])
  }

  /** `t` is the tail end of `s`. */
  predicate IsSuffix(t: string, s: string) {
    |t| <= |s| && s[|s| - |t|..] == t
  }

  lemma SuffixTrans(a: string, b: string, c: string)
    requires IsSuffix(b, a) && IsSuffix(c, b)
    ensures IsSuffix(c, a)
  {
    assert a[|a| - |c|..] == a[|a| - |b|..][|b| - |c|..];
  }

  /** The type reader consumes text: what it leaves is never longer than
      what it was given. */
  ghost predicate NeverLengthens<T>(readType: string -> Result<(T, string)>) {
    forall s :: readType(s).Ok? ==> |readType(s).value.1| <= |s|
  }

  /** Reads the members of a struct body (the text between the braces):
      a type, a name, an optional ';', then whitespace, until the text runs
      out. A failing type read or a missing name fails the whole body. */
  function ParseMembers<T>(pos: string, readType: string -> Result<(T, string)>): (r: Result<seq<Member<T>>>)
    requires NeverLengthens(readType)
    ensures |pos| == 0 ==> r == Ok([])
    ensures r.Ok? ==> forall i :: 0 <= i < |r.value| ==> IsName(r.value[i].name)
    ensures |pos| > 0 && readType(pos).Err? ==> r == Err(readType(pos).msg)
    ensures |pos| > 0 && readType(pos).Ok? && |GetIdentifier(readType(pos).value.1).0| == 0 ==> r == Err("missing identifier")
    decreases |pos|
  {
    if |pos| == 0 then Ok([])
    else
      var typed :- readType(pos);
      var named :- ReadRequiredIdentifier(typed.1);
      IdentifierCharIsSet();
      var next := SkipWhitespace(ReadOptionalChar(SkipWhitespace(named.1), ';').1);
      var rest :- ParseMembers(next, readType);
      Ok([Member(typed.0, named.0)] + rest)
  }

  /** The `def-struct` node; its object members are in ascending key order. */
  function DefStructJson(name: string, membersJson: Json): (r: Json)
    ensures GetArrayN(r, 0) == Ok(JString("def-struct"))
    ensures GetArrayN(r, 1).Ok? && GetObjectElement(r.elements[1], "name") == Ok(JString(name))
    ensures GetObjectElement(r.elements[1], "members") == Ok(membersJson)
    ensures JsonWellFormed(r) <==> JsonWellFormed(membersJson)
  {
    var members := [JMember("members", membersJson), JMember("name", JString(name))];
    assert StrLess("members", "name") by { assert "members"[0] < "name"[0]; }
    assert KeysAscending(members);
    FindFirstKey(members, 0);
    FindFirstKey(members, 1);
    var obj := JObject(members);
    assert JsonWellFormed(obj) <==> JsonWellFormed(members[0].value) && JsonWellFormed(members[1].value);
    var r := JArray([JString("def-struct"), obj]);
    assert JsonWellFormed(r) <==> JsonWellFormed(r.elements[0]) && JsonWellFormed(r.elements[1]);
    r
  }

  /** Parses `{ members }` after optional whitespace. A missing '{' and an
      unbalanced body are errors; the remainder is what follows the
      matching '}', with its leading whitespace skipped. */
  function ParseStructDefinitionBody<T>(p: string, name: string, readType: string -> Result<(T, string)>,
                                        membersToJson: seq<Member<T>> -> Json): (r: Result<(Json, string)>)
    requires NeverLengthens(readType)
    ensures (|SkipWhitespace(p)| == 0 || SkipWhitespace(p)[0] != '{') ==> r == Err("expected character '{'.")
    ensures r.Ok? ==> GetArrayN(r.value.0, 0) == Ok(JString("def-struct")) && GetArrayN(r.value.0, 1).Ok?
                      && GetObjectElement(r.value.0.elements[1], "name") == Ok(JString(name))
    ensures r.Ok? ==> |r.value.1| < |p| && IsSuffix(r.value.1, p)
    ensures r.Ok? ==> |r.value.1| == 0 || !IsWhitespace(r.value.1[0])
  {
    var s2 := SkipWhitespace(p);
    var _ :- ReadRequiredChar(s2, '{');
    var body :- GetBalanced(s2);
    var members :- ParseMembers(TrimEnds(body.0), readType);
    var rest := SkipWhitespace(body.1);
    assert IsSuffix(body.1, s2) by { assert s2 == body.0 + body.1; }
    SuffixTrans(p, s2, body.1);
    SuffixTrans(p, body.1, rest);
    Ok((DefStructJson(name, membersToJson(members)), rest))
  }

  /** Parses `struct <name> { members }`. The caller guarantees the text
      starts with the keyword; the name is required. */
  function ParseStructDefinition<T>(p: string, readType: string -> Result<(T, string)>,
                                    membersToJson: seq<Member<T>> -> Json): (r: Result<(Json, string)>)
    requires PeekString(p, StructKeyword) && NeverLengthens(readType)
    ensures |GetIdentifier(p[|StructKeyword|..]).0| == 0 ==> r == Err("missing identifier")
    ensures r.Ok? ==> GetArrayN(r.value.0, 1).Ok?
                      && GetObjectElement(r.value.0.elements[1], "name") == Ok(JString(GetIdentifier(p[|StructKeyword|..]).0))
    ensures r.Ok? ==> |r.value.1| < |p| && IsSuffix(r.value.1, p)
  {
    var s := p[|StructKeyword|..];
    var named :- ReadRequiredIdentifier(s);
    var r :- ParseStructDefinitionBody(SkipWhitespace(named.1), named.0, readType, membersToJson);
    assert IsSuffix(s, p);
    assert IsSuffix(named.1, SkipWhitespace(s)) by { assert SkipWhitespace(s) == named.0 + named.1; }
    SuffixTrans(p, s, SkipWhitespace(s));
    SuffixTrans(p, SkipWhitespace(s), named.1);
    SuffixTrans(p, named.1, SkipWhitespace(named.1));
    SuffixTrans(p, SkipWhitespace(named.1), r.1);
    Ok(r)
  }

  // ------------------------------------------------------------------ printing, and reading back

  /** One member as written in a struct body: `<type> <name>;`. */
  function MemberText<T>(m: Member<T>, printType: T -> string): string {
    printType(m.memberType) + " " + m.name + ";"
  }

  /** A struct body printed with one space between members. */
  function Render<T>(ms: seq<Member<T>>, printType: T -> string): (r: string)
    ensures |ms| == 0 <==> |r| == 0
  {
    if |ms| == 0 then ""
    else if |ms| == 1 then MemberText(ms[0], printType)
    else MemberText(ms[0], printType) + " " + Render(ms[1..], printType)
  }

  /** No bracket of any kind in the text. */
  predicate Flat(s: string) {
    forall c :: c in s ==> !IsStartChar(c) && !IsEndChar(c)
  }

  /** What the round trip needs of the type printer and reader: each printed
      type is non-empty, starts with a non-space, holds no bracket, and reads
      back as itself when followed by whitespace; each name is a name. */
  ghost predicate Printable<T>(ms: seq<Member<T>>, readType: string -> Result<(T, string)>, printType: T -> string) {
    forall i :: 0 <= i < |ms| ==>
      IsName(ms[i].name)
      && |printType(ms[i].memberType)| > 0 && !IsWhitespace(printType(ms[i].memberType)[0])
      && Flat(printType(ms[i].memberType))
      && forall rest :: |rest| > 0 && IsWhitespace(rest[0]) ==>
           readType(printType(ms[i].memberType) + rest) == Ok((ms[i].memberType, rest))
  }

  lemma SkipOneSpace(s: string)
    requires |s| == 0 || !IsWhitespace(s[0])
    ensures SkipWhitespace(" " + s) == s
  {
    WhitespaceIsSet();
    ReadWhileUnique(" " + s, Whitespace, " ", s);
  }

  /** A name followed by a non-identifier character is read exactly. */
  lemma GetIdentifierExact(a: string, b: string)
    requires IsName(a) && (|b| == 0 || !IsIdentifierChar(b[0]))
    ensures GetIdentifier(a + b) == (a, b)
  {
    assert (a + b)[0] == a[0];
    SkipWhitespaceNoop(a + b);
    IdentifierCharIsSet();
    ReadWhileUnique(a + b, IdentifierChars, a, b);
  }

  /** A name followed by ';' is read up to the ';'. */
  lemma ReadNameBeforeSemicolon(name: string, more: string)
    requires IsName(name)
    ensures ReadRequiredIdentifier(" " + name + ";" + more) == Ok((name, ";" + more))
  {
    var s := name + (";" + more);
    assert " " + name + ";" + more == " " + s;
    assert s[0] == name[0];
    SkipOneSpace(s);
    GetIdentifierExact(name, ";" + more);
  }

  /** One turn of the member loop: when the type, the name and the optional
      ';' are read as given, the member list is that member and the rest. */
  lemma ParseMembersStep<T>(text: string, readType: string -> Result<(T, string)>, m: Member<T>, afterType: string,
                            afterName: string, tail: seq<Member<T>>)
    requires NeverLengthens(readType) && |text| > 0
    requires readType(text) == Ok((m.memberType, afterType))
    requires ReadRequiredIdentifier(afterType) == Ok((m.name, afterName))
    requires ParseMembers(SkipWhitespace(ReadOptionalChar(SkipWhitespace(afterName), ';').1), readType) == Ok(tail)
    ensures ParseMembers(text, readType) == Ok([m] + tail)
  {
  }

  /** Reading one printed member leaves exactly the text after it. */
  lemma MemberStep<T>(ms: seq<Member<T>>, readType: string -> Result<(T, string)>, printType: T -> string, more: string)
    requires |ms| > 0 && Printable(ms, readType, printType)
    ensures readType(MemberText(ms[0], printType) + more) == Ok((ms[0].memberType, " " + ms[0].name + ";" + more))
    ensures ReadRequiredIdentifier(" " + ms[0].name + ";" + more) == Ok((ms[0].name, ";" + more))
    ensures SkipWhitespace(ReadOptionalChar(SkipWhitespace(";" + more), ';').1) == SkipWhitespace(more)
  {
    var m := ms[0];
    var t := printType(m.memberType);
    var after := " " + m.name + ";" + more;
    assert MemberText(m, printType) + more == t + after;
    assert after[0] == ' ';
    ReadNameBeforeSemicolon(m.name, more);
    SkipWhitespaceNoop(";" + more);
  }

  /** Printing members and parsing the text gives the same members back. */
  lemma {:induction false} ParseMembersRoundTrip<T>(ms: seq<Member<T>>, readType: string -> Result<(T, string)>, printType: T -> string)
    requires NeverLengthens(readType)
    requires Printable(ms, readType, printType)
    ensures ParseMembers(Render(ms, printType), readType) == Ok(ms)
    decreases |ms|
  {
    if |ms| > 0 {
      var tail := if |ms| == 1 then "" else " " + Render(ms[1..], printType);
      var text := Render(ms, printType);
      assert text == MemberText(ms[0], printType) + tail;
      if |ms| > 1 {
        RenderStartsWithType(ms[1..], printType, readType);
        SkipOneSpace(Render(ms[1..], printType));
        PrintableTail(ms, readType, printType);
        ParseMembersRoundTrip(ms[1..], readType, printType);
      } else {
        SkipWhitespaceNoop("");
      }
      MemberStep(ms, readType, printType, tail);
      ParseMembersStep(text, readType, ms[0], " " + ms[0].name + ";" + tail, ";" + tail, ms[1..]);
      FirstAndRest(ms);
    }
  }

  lemma FirstAndRest<T>(ms: seq<T>)
    requires |ms| > 0
    ensures [ms[0]] + ms[1..] == ms
  {
  }

  lemma PrintableTail<T>(ms: seq<Member<T>>, readType: string -> Result<(T, string)>, printType: T -> string)
    requires |ms| > 0 && Printable(ms, readType, printType)
    ensures Printable(ms[1..], readType, printType)
  {
    forall i | 0 <= i < |ms| - 1 ensures ms[1..][i] == ms[i + 1] { }
  }

  /** A printed body starts with its first printed type. */
  lemma RenderStartsWithType<T>(ms: seq<Member<T>>, printType: T -> string, readType: string -> Result<(T, string)>)
    requires |ms| > 0 && Printable(ms, readType, printType)
    ensures |Render(ms, printType)| > 0 && !IsWhitespace(Render(ms, printType)[0])
  {
    var t := printType(ms[0].memberType);
    assert Render(ms, printType)[0] == t[0];
  }

  /** A printed body holds no bracket. */
  lemma {:induction false} RenderIsFlat<T>(ms: seq<Member<T>>, readType: string -> Result<(T, string)>, printType: T -> string)
    requires Printable(ms, readType, printType)
    ensures Flat(Render(ms, printType))
    decreases |ms|
  {
    if |ms| > 0 {
      var first := MemberText(ms[0], printType);
      assert Flat(printType(ms[0].memberType));
      assert forall c :: c in ms[0].name ==> IsIdentifierChar(c);
      assert Flat(first);
      if |ms| > 1 {
        assert Printable(ms[1..], readType, printType);
        RenderIsFlat(ms[1..], readType, printType);
      }
    }
  }

  /** The struct name is read up to the space before the brace. */
  lemma ReadStructName(name: string, braced: string)
    requires IsName(name) && |braced| > 0 && braced[0] == '{'
    ensures ReadRequiredIdentifier(" " + name + " " + braced) == Ok((name, " " + braced))
  {
    var s := name + (" " + braced);
    assert " " + name + " " + braced == " " + s;
    assert s[0] == name[0];
    SkipOneSpace(s);
    GetIdentifierExact(name, " " + braced);
  }

  /** A bracket-free body between braces is handed whole to the member loop. */
  lemma BodyRoundTrip<T>(body: string, rest: string, name: string, readType: string -> Result<(T, string)>,
                         membersToJson: seq<Member<T>> -> Json, ms: seq<Member<T>>)
    requires NeverLengthens(readType) && Flat(body) && ParseMembers(body, readType) == Ok(ms)
    ensures ParseStructDefinitionBody("{" + body + "}" + rest, name, readType, membersToJson)
            == Ok((DefStructJson(name, membersToJson(ms)), SkipWhitespace(rest)))
  {
    var braced := "{" + body + "}" + rest;
    assert braced[0] == '{';
    SkipWhitespaceNoop(braced);
    assert forall i :: 0 <= i < |body| ==> body[i] in body;
    assert braced == ['{'] + body + [StartCharToEndChar('{')] + rest;
    GetBalancedFlat('{', body, rest);
    assert TrimEnds("{" + body + "}") == body;
  }

  /** After the keyword, a space, a name and a space, the parser hands the
      braced text to the body parser under that name. */
  lemma KeywordAndName<T>(name: string, braced: string, readType: string -> Result<(T, string)>,
                          membersToJson: seq<Member<T>> -> Json)
    requires IsName(name) && NeverLengthens(readType) && |braced| > 0 && braced[0] == '{'
    ensures var text := StructKeyword + " " + name + " " + braced;
            PeekString(text, StructKeyword)
            && ParseStructDefinition(text, readType, membersToJson)
               == ParseStructDefinitionBody(braced, name, readType, membersToJson)
  {
    var text := StructKeyword + " " + name + " " + braced;
    assert text == StructKeyword + (" " + name + " " + braced);
    assert text[|StructKeyword|..] == " " + name + " " + braced;
    ReadStructName(name, braced);
    SkipOneSpace(braced);
  }

  /** `struct <name> {<printed members>}<rest>` parses to the `def-struct`
      node of those members, leaving `rest` without its leading whitespace. */
  lemma StructRoundTrip<T>(name: string, ms: seq<Member<T>>, rest: string, readType: string -> Result<(T, string)>,
                           printType: T -> string, membersToJson: seq<Member<T>> -> Json)
    requires IsName(name) && NeverLengthens(readType) && Printable(ms, readType, printType)
    ensures var text := StructKeyword + " " + name + " " + ("{" + Render(ms, printType) + "}" + rest);
            PeekString(text, StructKeyword)
            && ParseStructDefinition(text, readType, membersToJson)
               == Ok((DefStructJson(name, membersToJson(ms)), SkipWhitespace(rest)))
  {
    var body := Render(ms, printType);
    var braced := "{" + body + "}" + rest;
    assert braced[0] == '{';
    RenderIsFlat(ms, readType, printType);
    ParseMembersRoundTrip(ms, readType, printType);
    BodyRoundTrip(body, rest, name, readType, membersToJson, ms);
    KeywordAndName(name, braced, readType, membersToJson);
  }

  // ------------------------------------------------------------------ the front end's example

  /** A stand-in type reader: the longest run of type characters after
      whitespace, which must not be empty. */
  function ReadTypeToken(s: string): (r: Result<(string, string)>)
    ensures r.Ok? ==> |r.value.1| < |s| && r.value.0 + r.value.1 == SkipWhitespace(s)
    ensures r.Err? <==> |GetType(s).0| == 0
  {
    var t := GetType(s);
    if |t.0| == 0 then Err("expected type") else Ok(t)
  }

  lemma ReadTypeTokenNeverLengthens()
    ensures NeverLengthens(ReadTypeToken)
  {
  }

  /** A name followed by whitespace reads back as a type token. */
  lemma ReadTypeTokenReadsName(t: string, rest: string)
    requires IsName(t) && |rest| > 0 && IsWhitespace(rest[0])
    ensures ReadTypeToken(t + rest) == Ok((t, rest))
  {
    assert (t + rest)[0] == t[0];
    SkipWhitespaceNoop(t + rest);
    TypeCharsHoldNames(t);
    assert rest[0] !in TypeChars by { IdentifierCharIsSet(); }
    ReadWhileUnique(t + rest, TypeChars, t, rest);
  }

  lemma TypeCharsHoldNames(t: string)
    requires IsName(t)
    ensures forall i :: 0 <= i < |t| ==> t[i] in TypeChars
  {
    IdentifierCharIsSet();
    forall i | 0 <= i < |t| ensures t[i] in TypeChars {
      assert t[i] in IdentifierChars;
    }
  }

  function Identity(t: string): string {
    t
  }

  /** Member lists whose types are names print and read back with the
      stand-in reader. */
  lemma NamedTypesPrintable(ms: seq<Member<string>>)
    requires forall i :: 0 <= i < |ms| ==> IsName(ms[i].memberType) && IsName(ms[i].name)
    ensures Printable(ms, ReadTypeToken, Identity)
  {
    forall i, rest | 0 <= i < |ms| && |rest| > 0 && IsWhitespace(rest[0])
      ensures ReadTypeToken(Identity(ms[i].memberType) + rest) == Ok((ms[i].memberType, rest))
    {
      ReadTypeTokenReadsName(ms[i].memberType, rest);
    }
    forall i | 0 <= i < |ms|
      ensures Flat(Identity(ms[i].memberType))
    {
      assert forall c :: c in ms[i].memberType ==> IsIdentifierChar(c);
    }
  }

  lemma RenderThree<T>(ms: seq<Member<T>>, printType: T -> string)
    requires |ms| == 3
    ensures Render(ms, printType)
            == MemberText(ms[0], printType) + " " + (MemberText(ms[1], printType) + " " + MemberText(ms[2], printType))
  {
    assert ms[1..][0] == ms[1] && ms[1..][1..] == [ms[2]];
    assert Render(ms[1..][1..], printType) == MemberText(ms[2], printType);
    assert Render(ms[1..], printType) == MemberText(ms[1], printType) + " " + MemberText(ms[2], printType);
  }

  /** The member types of the front end's example are plain names. */
  lemma ExampleMembers(ms: seq<Member<string>>)
    requires ms == [Member("int", "x"), Member("string", "y"), Member("double", "z")]
    ensures Printable(ms, ReadTypeToken, Identity)
  {
    assert IsName("x") && IsName("y") && IsName("z");
    assert IsName("int") && IsName("string") && IsName("double");
    NamedTypesPrintable(ms);
  }

  /** The example text is the keyword, the name and the printed members. */
  lemma ExampleText(text: string, ms: seq<Member<string>>)
    requires text == "struct a {" + "int x;" + " " + "string y;" + " " + "double z;" + "}"
    requires ms == [Member("int", "x"), Member("string", "y"), Member("double", "z")]
    ensures text == StructKeyword + " " + "a" + " " + ("{" + Render(ms, Identity) + "}" + "")
  {
    RenderThree(ms, Identity);
    assert MemberText(ms[0], Identity) == "int x;";
    assert MemberText(ms[1], Identity) == "string y;";
    assert MemberText(ms[2], Identity) == "double z;";
  }

  /** `struct a {int x; string y; double z;}` gives members x, y and z, in
      that order, and nothing left over. */
  lemma StructExample(text: string, ms: seq<Member<string>>, membersToJson: seq<Member<string>> -> Json)
    requires text == "struct a {" + "int x;" + " " + "string y;" + " " + "double z;" + "}"
    requires ms == [Member("int", "x"), Member("string", "y"), Member("double", "z")]
    ensures ParseStructDefinition(text, ReadTypeToken, membersToJson) == Ok((DefStructJson("a", membersToJson(ms)), ""))
  {
    ExampleText(text, ms);
    ExampleMembers(ms);
    ReadTypeTokenNeverLengthens();
    assert IsName("a");
    SkipWhitespaceNoop("");
    StructRoundTrip("a", ms, "", ReadTypeToken, Identity, membersToJson);
  }
}

=== FILE: text.dfy ===
/** Character-level helpers shared by the models: decimal rendering as done by
    `std::to_string`, decimal reading as done by `atoi` on a run of digits,
    `std::string` ordering, and joining with a divider. */
module Text {

  predicate IsDigit(c: char) {
    '0' <= c <= '9'
  }

  predicate AllDigits(s: string) {
    forall i :: 0 <= i < |s| ==> IsDigit(s[i])
  }

  function DigitChar(d: nat): char
    requires d < 10
  {
    "0123456789"[d]
  }

  function DigitValue(c: char): nat
    requires IsDigit(c)
  {
    (c as int) - ('0' as int)
  }

  /** `std::to_string` for a non-negative integer. */
  function NatToDecimal(n: nat): (s: string)
    ensures |s| > 0 && AllDigits(s)
    decreases n
  {
    if n < 10 then [DigitChar(n)] else NatToDecimal(n / 10) + [DigitChar(n % 10)]
  }

  /** The value `atoi` gives a string made only of decimal digits. */
  function DecimalValue(s: string): nat
    requires AllDigits(s)
    decreases |s|
  {
    if |s| == 0 then 0 else 10 * DecimalValue(s[..|s| - 1]) + DigitValue(s[|s| - 1])
  }

  lemma {:induction false} DecimalRoundTrip(n: nat)
    ensures DecimalValue(NatToDecimal(n)) == n
    decreases n
  {
    var s := NatToDecimal(n);
    if n >= 10 {
      DecimalRoundTrip(n / 10);
      assert s[..|s| - 1] == NatToDecimal(n / 10);
    }
  }

  /** Lexicographic `std::string` ordering (a proper prefix sorts first). */
  predicate StrLess(a: string, b: string)
    decreases |a|
  {
    if |a| == 0 then |b| > 0
    else if |b| == 0 then false
    else if a[0] != b[0] then (a[0] as int) < (b[0] as int)
    else StrLess(a[1..], b[1..])
  }

  /** Concatenation of `parts` with `divider` between neighbours and nowhere else. */
  function Join(divider: string, parts: seq<string>): string
    decreases |parts|
  {
    if |parts| == 0 then ""
    else if |parts| == 1 then parts[0]
    else parts[0] + divider + Join(divider, parts[1..])
  }

  function Count(c: char, s: string): nat
    decreases |s|
  {
    if |s| == 0 then 0 else (if s[0] == c then 1 else 0) + Count(c, s[1..])
  }
}

=== FILE: typeid.dfy ===
/** Type identifiers of the dynamic value model. Each `Typeid` carries one
    base type; the base types are listed in the declaration order the value
    representation relies on (everything after `Double` lives out of line). */
module Typeids {

  datatype BaseType =
    | Undefined
    | Any
    | Void
    | Bool
    | Int
    | Double
    | String
    | JsonValue
    | TypeidType
    | Struct
    | Vector
    | Dict
    | Function
    | UnresolvedIdentifier

  /** Position of a base type in the enumeration. */
  function Ordinal(b: BaseType): nat {
    match b
    case Undefined => 0
    case Any => 1
    case Void => 2
    case Bool => 3
    case Int => 4
    case Double => 5
    case String => 6
    case JsonValue => 7
    case TypeidType => 8
    case Struct => 9
    case Vector => 10
    case Dict => 11
    case Function => 12
    case UnresolvedIdentifier => 13
  }

  datatype Typeid =
    | TUndefined
    | TAny
    | TVoid
    | TBool
    | TInt
    | TDouble
    | TString
    | TJson
    | TTypeid
    | TStruct(def: StructDef)
    | TVector(element: Typeid)
    | TDict(valueType: Typeid)
    | TFunction(ret: Typeid, args: seq<Typeid>, pure: bool)
    | TUnresolved(identifier: string)

  datatype Member = Member(memberType: Typeid, name: string)

  datatype StructDef = StructDef(members: seq<Member>)

  function BaseOf(t: Typeid): BaseType {
    match t
    case TUndefined => Undefined
    case TAny => Any
    case TVoid => Void
    case TBool => Bool
    case TInt => Int
    case TDouble => Double
    case TString => String
    case TJson => JsonValue
    case TTypeid => TypeidType
    case TStruct(_) => Struct
    case TVector(_) => Vector
    case TDict(_) => Dict
    case TFunction(_, _, _) => Function
    case TUnresolved(_) => UnresolvedIdentifier
  }

  /** No unresolved identifier anywhere inside the type. */
  predicate IsResolved(t: Typeid) {
    match t
    case TStruct(def) => forall i :: 0 <= i < |def.members| ==> IsResolved(def.members[i].memberType)
    case TVector(e) => IsResolved(e)
    case TDict(v) => IsResolved(v)
    case TFunction(r, args, _) => IsResolved(r) && forall i :: 0 <= i < |args| ==> IsResolved(args[i])
    case TUnresolved(_) => false
    case _ => true
  }

  /** The element types the bytecode packs as raw 64-bit words. */
  predicate IsPod(t: Typeid) {
    t.TBool? || t.TInt? || t.TDouble?
  }
}

=== FILE: value.dfy ===
/** The dynamic value: a tagged union whose scalar payloads (bool, 64-bit int,
    double) are stored inline and whose other payloads live in a shared,
    reference-counted record. This module gives the value as its contents;
    `RefCounting` models the sharing. */
module Values {
  import opened Results
  import opened Text
  import opened Json
  import opened Typeids

  newtype int64 = x: int | -0x8000_0000_0000_0000 <= x < 0x8000_0000_0000_0000

  const TypeMismatch: string := "Type mismatch!"

  datatype Value =
    | VUndefined
    | VAny
    | VVoid
    | VBool(b: bool)
    | VInt(i: int64)
    | VDouble(d: real)
    | VString(s: string)
    | VJson(j: Json)
    | VTypeid(t: Typeid)
    | VStruct(structType: Typeid, members: seq<Value>)
    | VVector(elementType: Typeid, elements: seq<Value>)
    | VDict(valueType: Typeid, entries: seq<DictEntry>)
    | VFunction(functionType: Typeid, id: int)

  /** One key/value pair of a dict; entries are kept in ascending key order. */
  datatype DictEntry = DictEntry(key: string, value: Value)

  function BaseTypeOf(v: Value): BaseType {
    match v
    case VUndefined => Undefined
    case VAny => Any
    case VVoid => Void
    case VBool(_) => Bool
    case VInt(_) => Int
    case VDouble(_) => Double
    case VString(_) => String
    case VJson(_) => JsonValue
    case VTypeid(_) => TypeidType
    case VStruct(_, _) => Struct
    case VVector(_, _) => Vector
    case VDict(_, _) => Dict
    case VFunction(_, _) => Function
  }

  /** The full type of a value; containers and functions carry theirs. */
  function TypeOf(v: Value): (t: Typeid)
    ensures BaseOf(t) == BaseTypeOf(v) || v.VStruct? || v.VFunction?
  {
    match v
    case VUndefined => TUndefined
    case VAny => TAny
    case VVoid => TVoid
    case VBool(_) => TBool
    case VInt(_) => TInt
    case VDouble(_) => TDouble
    case VString(_) => TString
    case VJson(_) => TJson
    case VTypeid(_) => TTypeid
    case VStruct(t, _) => t
    case VVector(e, _) => TVector(e)
    case VDict(vt, _) => TDict(vt)
    case VFunction(t, _) => t
  }

  predicate DictKeysAscending(es: seq<DictEntry>) {
    forall i, j :: 0 <= i < j < |es| ==> StrLess(es[i].key, es[j].key)
  }

  /** The value invariant: containers hold members of their declared types,
      dict keys are ordered and unique, a function value names a function. */
  predicate WellFormed(v: Value) {
    match v
    case VJson(j) => JsonWellFormed(j)
    case VStruct(t, ms) =>
      t.TStruct? && |ms| == |t.def.members|
      && (forall i :: 0 <= i < |ms| ==> TypeOf(ms[i]) == t.def.members[i].memberType)
      && (forall i :: 0 <= i < |ms| ==> WellFormed(ms[i]))
    case VVector(et, es) =>
      (forall i :: 0 <= i < |es| ==> TypeOf(es[i]) == et)
      && (forall i :: 0 <= i < |es| ==> WellFormed(es[i]))
    case VDict(vt, es) =>
      DictKeysAscending(es)
      && (forall i :: 0 <= i < |es| ==> TypeOf(es[i].value) == vt)
      && (forall i :: 0 <= i < |es| ==> WellFormed(es[i].value))
    case VFunction(t, id) => t.TFunction? && id != -1
    case _ => true
  }

  // ------------------------------------------------------------------ payload placement

  /** Scalar payloads sit inside the value; every later base type is held out of line. */
  predicate IsExt(b: BaseType) {
    Ordinal(b) > Ordinal(Double)
  }

  /** The explicit list of out-of-line base types. */
  predicate IsExtSlow(b: BaseType) {
    b == String || b == JsonValue || b == TypeidType || b == Struct
    || b == Vector || b == Dict || b == Function
  }

  /** The ordering shortcut agrees with the explicit list for every base type a
      value can have; only the unresolved-identifier tag, which no value
      carries, lies beyond `Double` without being stored out of line. */
  lemma IsExtMatchesList(v: Value)
    ensures IsExt(BaseTypeOf(v)) == IsExtSlow(BaseTypeOf(v))
    ensures IsExt(UnresolvedIdentifier) && !IsExtSlow(UnresolvedIdentifier)
  {
  }

  // ------------------------------------------------------------------ factories and accessors

  function MakeUndefined(): (r: Value)
    ensures BaseTypeOf(r) == Undefined && TypeOf(r) == TUndefined && WellFormed(r)
  {
    VUndefined
  }

  function MakeAny(): (r: Value)
    ensures BaseTypeOf(r) == Any && TypeOf(r) == TAny && WellFormed(r)
  {
    VAny
  }

  function MakeVoid(): (r: Value)
    ensures BaseTypeOf(r) == Void && TypeOf(r) == TVoid && WellFormed(r)
  {
    VVoid
  }

  function GetBoolValue(v: Value): (r: Result<bool>)
    ensures r.Ok? <==> BaseTypeOf(v) == Bool
    ensures r.Err? ==> r.msg == TypeMismatch
  {
    if v.VBool? then Ok(v.b) else Err(TypeMismatch)
  }

  function GetIntValue(v: Value): (r: Result<int64>)
    ensures r.Ok? <==> BaseTypeOf(v) == Int
    ensures r.Err? ==> r.msg == TypeMismatch
  {
    if v.VInt? then Ok(v.i) else Err(TypeMismatch)
  }

  function GetDoubleValue(v: Value): (r: Result<real>)
    ensures r.Ok? <==> BaseTypeOf(v) == Double
    ensures r.Err? ==> r.msg == TypeMismatch
  {
    if v.VDouble? then Ok(v.d) else Err(TypeMismatch)
  }

  function MakeBool(b: bool): (r: Value)
    ensures GetBoolValue(r) == Ok(b) && TypeOf(r) == TBool && WellFormed(r) && !IsExt(BaseTypeOf(r))
  {
    VBool(b)
  }

  function MakeInt(x: int64): (r: Value)
    ensures GetIntValue(r) == Ok(x) && TypeOf(r) == TInt && WellFormed(r) && !IsExt(BaseTypeOf(r))
  {
    VInt(x)
  }

  function MakeDouble(x: real): (r: Value)
    ensures GetDoubleValue(r) == Ok(x) && TypeOf(r) == TDouble && WellFormed(r) && !IsExt(BaseTypeOf(r))
  {
    VDouble(x)
  }

  function MakeString(s: string): (r: Value)
    ensures BaseTypeOf(r) == String && TypeOf(r) == TString && r.s == s
    ensures WellFormed(r) && IsExt(BaseTypeOf(r))
  {
    VString(s)
  }

  function MakeJsonValue(j: Json): (r: Value)
    ensures BaseTypeOf(r) == JsonValue && TypeOf(r) == TJson && r.j == j
    ensures WellFormed(r) <==> JsonWellFormed(j)
    ensures IsExt(BaseTypeOf(r))
  {
    VJson(j)
  }

  function MakeTypeidValue(t: Typeid): (r: Value)
    ensures BaseTypeOf(r) == TypeidType && TypeOf(r) == TTypeid && r.t == t
    ensures WellFormed(r) && IsExt(BaseTypeOf(r))
  {
    VTypeid(t)
  }

  function MakeVectorValue(elementType: Typeid, elements: seq<Value>): (r: Value)
    ensures BaseTypeOf(r) == Vector && TypeOf(r) == TVector(elementType) && r.elements == elements
    ensures WellFormed(r) <==> forall i :: 0 <= i < |elements| ==> TypeOf(elements[i]) == elementType && WellFormed(elements[i])
    ensures IsExt(BaseTypeOf(r))
  {
    VVector(elementType, elements)
  }

  function MakeFunctionValue(functionType: Typeid, id: int): (r: Value)
    ensures BaseTypeOf(r) == Function && TypeOf(r) == functionType && r.id == id
    ensures WellFormed(r) <==> functionType.TFunction? && id != -1
    ensures IsExt(BaseTypeOf(r))
  {
    VFunction(functionType, id)
  }

  // ------------------------------------------------------------------ equality

  /** Value equality: different base types are unequal, the payload-free
      kinds are equal to themselves, scalars compare their payload and
      out-of-line payloads compare their shared contents. */
  function ValueEquals(a: Value, b: Value): (r: bool) {
    if BaseTypeOf(a) != BaseTypeOf(b) then false
    else match a
      case VUndefined => true
      case VAny => true
      case VVoid => true
      case VBool(x) => x == b.b
      case VInt(x) => x == b.i
      case VDouble(x) => x == b.d
      case _ => SharedPayloadEquals(a, b)
  }

  /** Content equality of two out-of-line payloads of the same base type. */
  function SharedPayloadEquals(a: Value, b: Value): bool
    requires BaseTypeOf(a) == BaseTypeOf(b) && IsExt(BaseTypeOf(a))
  {
    match a
    case VString(s) => s == b.s
    case VJson(j) => j == b.j
    case VTypeid(t) => t == b.t
    case VStruct(t, ms) => t == b.structType && ms == b.members
    case VVector(t, es) => t == b.elementType && es == b.elements
    case VDict(t, es) => t == b.valueType && es == b.entries
    case VFunction(t, id) => t == b.functionType && id == b.id
  }

  function ValueNotEquals(a: Value, b: Value): (r: bool) {
    !ValueEquals(a, b)
  }

  /** Equality is exactly equality of contents, so it is reflexive,
      symmetric and transitive, and `!=` is its negation. */
  lemma ValueEqualsIsContentEquality(a: Value, b: Value)
    ensures ValueEquals(a, b) <==> a == b
    ensures ValueNotEquals(a, b) <==> a != b
  {
  }
}

=== FILE: value_json.dfy ===
/** The bridge between values and normalized JSON. Encoding is lossy for
    numbers (every number becomes a JSON number) and decoding wraps the parts
    of arrays and objects as JSON values, so the exact inverse is
    encode-after-decode. */
module ValueJson {
  import opened Results
  import opened Text
  import opened Json
  import opened Typeids
  import opened Values

  /** Encoders for the type-level parts a value's JSON embeds. */
  datatype TypeEncoders = TypeEncoders(
    typeidToJson: Typeid -> Json,
    structDefToJson: StructDef -> Json,
    valuesToJsonArray: seq<Value> -> Json)

  const NotEncodable: string := "Value kind has no normalized JSON form."

  function ValueToNormalizedJson(v: Value, enc: TypeEncoders): (r: Result<Json>)
    ensures v.VUndefined? ==> r == Ok(JNull)
    ensures v.VVector? && r.Ok? ==> r.value.JArray? && |r.value.elements| == |v.elements|
    ensures v.VDict? && r.Ok? ==>
      (r.value.JObject? && |r.value.members| == |v.entries|
       && forall i :: 0 <= i < |v.entries| ==> r.value.members[i].key == v.entries[i].key)
    ensures (v.VAny? || v.VVoid?) ==> r.Err?
    decreases v
  {
    match v
    case VUndefined => Ok(JNull)
    case VBool(b) => Ok(JBool(b))
    case VInt(i) => Ok(JNumber(i as real))
    case VDouble(d) => Ok(JNumber(d))
    case VString(s) => Ok(JString(s))
    case VJson(j) => Ok(j)
    case VTypeid(t) => Ok(enc.typeidToJson(t))
    case VStruct(t, ms) =>
      var def := if t.TStruct? then t.def else StructDef([]);
      Ok(JObject([JMember("member_values", enc.valuesToJsonArray(ms)), JMember("struct-def", enc.structDefToJson(def))]))
    case VVector(_, es) =>
      var js :- ElementsToJson(es, enc);
      Ok(JArray(js))
    case VDict(_, es) =>
      var ms :- EntriesToJson(es, enc);
      Ok(JObject(ms))
    case VFunction(t, _) => Ok(JObject([JMember("function_type", enc.typeidToJson(t))]))
    case _ => Err(NotEncodable)
  }

  function ElementsToJson(es: seq<Value>, enc: TypeEncoders): (r: Result<seq<Json>>)
    ensures r.Ok? ==> |r.value| == |es|
    ensures r.Ok? ==> forall i :: 0 <= i < |es| ==> ValueToNormalizedJson(es[i], enc) == Ok(r.value[i])
    decreases es
  {
    if |es| == 0 then Ok([])
    else
      var head :- ValueToNormalizedJson(es[0], enc);
      var tail :- ElementsToJson(es[1..], enc);
      Ok([head] + tail)
  }

  function EntriesToJson(es: seq<DictEntry>, enc: TypeEncoders): (r: Result<seq<JMember>>)
    ensures r.Ok? ==> |r.value| == |es|
    ensures r.Ok? ==> forall i :: 0 <= i < |es| ==>
      r.value[i].key == es[i].key && ValueToNormalizedJson(es[i].value, enc) == Ok(r.value[i].value)
    decreases es
  {
    if |es| == 0 then Ok([])
    else
      var head :- ValueToNormalizedJson(es[0].value, enc);
      var tail :- EntriesToJson(es[1..], enc);
      Ok([JMember(es[0].key, head)] + tail)
  }

  /** Objects become dicts of JSON values, arrays vectors of JSON values,
      numbers doubles and null the undefined value. */
  function ValueFromNormalizedJson(j: Json): (v: Value)
    ensures j.JNull? <==> v.VUndefined?
    ensures j.JArray? <==> v.VVector?
    ensures j.JObject? <==> v.VDict?
  {
    match j
    case JObject(ms) => VDict(TJson, WrapMembers(ms))
    case JArray(es) => VVector(TJson, WrapElements(es))
    case JString(s) => VString(s)
    case JNumber(n) => VDouble(n)
    case JBool(b) => VBool(b)
    case JNull => VUndefined
  }

  function WrapElements(es: seq<Json>): (r: seq<Value>)
    ensures |r| == |es| && forall i :: 0 <= i < |es| ==> r[i] == VJson(es[i])
  {
    seq(|es|, i requires 0 <= i < |es| => VJson(es[i]))
  }

  function WrapMembers(ms: seq<JMember>): (r: seq<DictEntry>)
    ensures |r| == |ms| && forall i :: 0 <= i < |ms| ==> r[i] == DictEntry(ms[i].key, VJson(ms[i].value))
  {
    seq(|ms|, i requires 0 <= i < |ms| => DictEntry(ms[i].key, VJson(ms[i].value)))
  }

  lemma {:induction false} WrappedElementsRoundTrip(es: seq<Json>, enc: TypeEncoders)
    ensures ElementsToJson(WrapElements(es), enc) == Ok(es)
    decreases |es|
  {
    if |es| > 0 {
      WrappedElementsRoundTrip(es[1..], enc);
      assert WrapElements(es)[1..] == WrapElements(es[1..]);
      assert es == [es[0]] + es[1..];
    }
  }

  lemma {:induction false} WrappedMembersRoundTrip(ms: seq<JMember>, enc: TypeEncoders)
    ensures EntriesToJson(WrapMembers(ms), enc) == Ok(ms)
    decreases |ms|
  {
    if |ms| > 0 {
      WrappedMembersRoundTrip(ms[1..], enc);
      assert WrapMembers(ms)[1..] == WrapMembers(ms[1..]);
      assert ms == [ms[0]] + ms[1..];
    }
  }

  /** Decoding any JSON document and encoding the result gives the document back. */
  lemma JsonRoundTrip(j: Json, enc: TypeEncoders)
    ensures ValueToNormalizedJson(ValueFromNormalizedJson(j), enc) == Ok(j)
  {
    match j
    case JObject(ms) => WrappedMembersRoundTrip(ms, enc);
    case JArray(es) => WrappedElementsRoundTrip(es, enc);
    case _ =>
  }

  /** Decoding a well-formed document gives a well-formed value. */
  lemma DecodedIsWellFormed(j: Json)
    requires JsonWellFormed(j)
    ensures WellFormed(ValueFromNormalizedJson(j))
  {
  }

  /** Scalars other than integers survive encoding then decoding; an integer
      comes back as the double of the same magnitude. */
  lemma ScalarRoundTrip(v: Value, enc: TypeEncoders)
    requires v.VUndefined? || v.VBool? || v.VDouble? || v.VString? || v.VInt?
    ensures ValueToNormalizedJson(v, enc).Ok?
    ensures v.VInt? ==> ValueFromNormalizedJson(ValueToNormalizedJson(v, enc).value) == VDouble(v.i as real)
    ensures !v.VInt? ==> ValueFromNormalizedJson(ValueToNormalizedJson(v, enc).value) == v
  {
  }

  lemma EncodingExamples(enc: TypeEncoders)
    ensures ValueToNormalizedJson(VString("hello"), enc) == Ok(JString("hello"))
    ensures ValueToNormalizedJson(VInt(123), enc) == Ok(JNumber(123.0))
    ensures ValueToNormalizedJson(VBool(true), enc) == Ok(JBool(true))
    ensures ValueToNormalizedJson(VBool(false), enc) == Ok(JBool(false))
    ensures ValueToNormalizedJson(VUndefined, enc) == Ok(JNull)
  {
  }
}
